=== FILE: README.md ===
# TinyOS core in Dafny

TinyOS is a small 32-bit x86 teaching kernel. It ships two kernels that
share one header (`defs.h`):

- the flat kernel (`kernel16.c`, `kernel32.c`, `tasks.c`): the real-mode
  stage builds the GDT and enters protected mode; the 32-bit stage probes
  memory, turns on identity paging, builds the IDT, the TSS and four ring-3
  tasks, and round-robins them from the timer interrupt;
- the paged kernel (`common.c`, `exception.c`, `process.c`): it gives every
  process its own page tables, loads each process image from disk, routes
  the sixteen processor exceptions through stubs to a reporting handler and
  schedules the same way.

A boot sector (`boot.c`) loads the kernel image from the floppy through
BIOS disk reads.

This project models that core as pure Dafny functions and short methods over
immutable values:

- descriptors, gates, selectors and table pointers as the bytes the
  processor reads;
- page tables together with the page walk the processor performs;
- memory and disk as byte sequences;
- the screen as the list of cells a print writes.

It proves what the code promises about each piece. Fields follow the Intel
64 and IA-32 Architectures Software Developer's Manual:

- descriptors: section 3.4.5 of Volume 3A;
- gates: section 6.11 of Volume 3A;
- paging: section 4.3 of Volume 3A;
- the TSS: section 7.2.1 of Volume 3A.

The modules follow the program:

- `Defs`: constants, selectors and the struct layouts of `defs.h`, plus the
  byte-store helpers;
- `Descriptors`: `SetDesEntry` and `SetIdtEntry`;
- `Gdt`, `Idt` and `TaskState`: the tables;
- `Paging`: both kernels' page tables;
- `Process`: process setup, image loading and `restart`;
- `Scheduler`: both `choose` functions;
- `TimerEntry`: the timer entry path and its `reEnter` counter;
- `Exceptions`: the stubs and the report;
- `Console`: `Print`, `PrintAtPos` and `PrintNumber`;
- `MemoryProbe`: `CheckMemory`;
- `Boot`: the boot loader;
- `Arith`: a few division lemmas.

## Model

| member | source | states |
|---|---|---|
| Defs.SelectorFieldsDetermineSelector | code/kernel/defs.h:131-147 | a selector is exactly its index, table-indicator and RPL fields put back together |
| Defs.SelectorConstantsMatchSlots | code/kernel/defs.h:131-147 | each `SELECTOR_*` constant names its own `INDEX_*` GDT slot with the intended RPL (3 for video and the LDT selectors, 0 otherwise) |
| Defs.RplMaskClearsRpl | code/kernel/defs.h:170-177 | masking with `SA_RPL_MASK` clears the RPL and keeps the index and table indicator |
| Defs.TiMaskClearsTi | code/kernel/defs.h:170-177 | masking with `SA_TI_MASK` clears the table indicator and keeps the other fields |
| Defs.TilSetsTi | code/kernel/defs.h:170-177 | or-ing `SA_TIL` selects the LDT and keeps the other fields |
| Defs.DplConstants | code/kernel/defs.h:150-155 | `DA_DPLn` puts n in the DPL field and nothing else |
| Defs.PageFlagsValue | code/kernel/defs.h:201-205 | present, user and writable together are the low three bits of an entry |
| Defs.DescriptorAndGateAreEightBytes | code/kernel/defs.h:31-47 | both records are eight bytes with every field naturally aligned, so no padding enters the tables |
| Defs.AddressRangeIsTwentyBytes | code/kernel/defs.h:50-56 | a memory-map entry is twenty packed bytes, the size the firmware writes |
| Defs.StackFrameIsSeventeenWords | code/kernel/defs.h:59-77 | the saved-register frame is seventeen aligned 32-bit words, 68 bytes |
| Defs.TssLayoutFacts | code/kernel/defs.h:90-118 | the TSS record is 104 bytes with `esp0` at offset 4 and `ss0` at offset 8, as the processor expects |
| Defs.StoreSector | code/kernel/common.c:126-141 | storing a sector puts its 512 bytes at the address and leaves every other byte alone |
| Descriptors.SetDesEntry | code/kernel/common.c:105-112 | the descriptor reads back the base, the 20-bit limit and the attribute bits that the descriptor can hold |
| Descriptors.SetDesEntryByteSix | code/kernel/common.c:109-110 | byte six carries the high limit nibble and the G/D flag nibble, byte five the low attribute byte |
| Descriptors.DescriptorIsPackedFromItsFields | code/kernel/common.c:105-112 | every descriptor is the packing of its own base, limit and attribute: packing is onto |
| Descriptors.SetDesEntryEqualIff | code/kernel/common.c:105-112 | two packings are equal exactly when base, 20-bit limit and attribute bits agree |
| Descriptors.FlagBitsLandInByteSix | code/kernel/common.c:110 | `DA_32`, `DA_LIMIT_4K` and the DPL bits of the attribute become the descriptor's D, G and DPL |
| Descriptors.SetIdtEntry | code/kernel/common.c:115-121 | the gate reads back its offset, selector and attribute, and the parameter count is cut to 5 bits |
| Descriptors.GateIsPackedFromItsFields | code/kernel/common.c:115-121 | every gate with a 5-bit count is the packing of its own fields |
| Gdt.PointerBytes | code/kernel/kernel16.c:87-90 | the six-byte `lgdt`/`lidt` operand: 16-bit limit first, then the 32-bit base, little-endian |
| Gdt.PointerBytesRoundTrip | code/kernel/kernel16.c:87-90 | reading the six bytes back gives the same limit and base |
| Gdt.PointerFromBytesRoundTrip | code/kernel/kernel16.c:87-90 | every six-byte operand is the encoding of the pointer it decodes to |
| Gdt.SetGdt | code/kernel/kernel16.c:79-91 | as written: slot 0 is the null descriptor; slots 1 and 2 are DPL 0, 32-bit, 4 KiB-granular code and data segments covering 4 GiB from 0x90000; slot 3 is the byte-granular 64 KiB video segment at 0xB8000 with DPL 3; slots 4 and up keep their contents; the pointer's base is the table's linear address, and its limit admits slots 0..9 only |
| Gdt.SetGdtIntended | code/kernel/kernel16.c:89 | the same table, but the limit admits exactly the `GDT_SIZE` slots |
| Gdt.AsWrittenLimitExcludesLateLdtSlots | code/kernel/kernel16.c:89 | the written limit admits slots 0..9 only, so the LDT of process 5 and later lies outside the table |
| Gdt.NullSlotIsZero | code/kernel/kernel16.c:80 | slot 0 is the all-zero null descriptor |
| Gdt.FlatKernelSlots | code/kernel/kernel16.c:81-84 | the flat code and data slots cover 4 GiB from 0x90000 as 32-bit, 4 KiB-granular, DPL 0 segments |
| Gdt.VideoSlot | code/kernel/kernel16.c:85-86 | the video slot covers the 64 KiB text buffer at 0xB8000 with DPL 3 |
| Idt.InterruptGate | code/kernel/kernel32.c:172-174 | a gate reaches its handler's offset through the flat code selector as a DPL 0 interrupt gate |
| Idt.IdtLimitCoversTable | code/kernel/kernel32.c:178 | the limit 2047 admits exactly the 256 gates |
| Idt.GateAttributes | code/kernel/defs.h:167 | `DA_386IGate` is a present 32-bit interrupt gate of DPL 0, and the flat code selector names GDT slot 1 at RPL 0 |
| Idt.SetupFlatIdt | code/kernel/kernel32.c:169-179 | the flat IDT has 256 gates and a pointer whose base is its linear address |
| Idt.FlatIdtTargets | code/kernel/kernel32.c:172-174 | vector 0x20 goes to the clock wrapper and every other vector to the default handler |
| Idt.StubOrderDistinct | code/kernel/exception.c:224-255 | the sixteen exception vectors given stubs are distinct, 0..16 without 15 |
| Idt.SetupPagedIdt | code/kernel/exception.c:214-265 | after the default fill and the overwrites, each gate points at the handler of the last overwrite for its vector, or at the default one |
| Idt.ConventionalVectors | code/kernel/exception.c:220-259 | vector 0x20 reaches `ClockInt`, each exception vector its own stub, every other vector `DefaultInt` |
| Idt.ExceptionReachesOwnStub | code/kernel/exception.c:224-255 | exception `id`'s gate points at stub `id`, and that stub reports `id` as the vector number |
| Exceptions.StubPushesSentinelIffNoErrorCode | code/kernel/exception.c:58-116 | a stub pushes the 0xFFFFFFFF filler exactly for the vectors where the processor pushes no error code |
| Exceptions.StubDeliversFrame | code/kernel/exception.c:58-120 | at the handler call the stack holds the vector, the error code (or the filler), EIP, CS and EFLAGS, with the interrupted stack untouched below them |
| Exceptions.StubAfterErrorCode | code/kernel/exception.c:91-112 | for error-code vectors the stub adds only the vector number on top of the processor's frame |
| Exceptions.StubWithoutErrorCode | code/kernel/exception.c:59-97 | for the other vectors the filler stands in the error code's place |
| Exceptions.StubsHaveMessages | code/kernel/exception.c:29-51 | the table has twenty messages and every stubbed vector has one |
| Exceptions.PrintSegments | code/kernel/exception.c:51-54 | printing the pieces writes one cell per character other than newline and moves down one row per newline |
| Exceptions.ExceptionHandler | code/kernel/exception.c:28-55 | the report moves the cursor down 3 rows plus one per newline in the message and leaves it at column 17; it writes one cell per character of the banner, the message, the three labels and the three eight-digit numbers, newlines excepted |
| Exceptions.ReportReadsBack | code/kernel/exception.c:51-54 | from the report's text one recovers the message and, as hex, the faulting EIP, CS and error code |
| Exceptions.ReportText | code/kernel/exception.c:51-54 | the report's text is the banner, the message, and the three labels each followed by its eight hex digits, in that order |
| Exceptions.ReportTextNewlines | code/kernel/exception.c:51-54 | the report's text has exactly three newlines more than the message |
| Exceptions.ReportLayout | code/kernel/exception.c:51-54 | printing the report ends at column 17, three rows plus the message's rows down |
| Exceptions.DivideErrorShowsSentinel | code/kernel/exception.c:59-62 | a divide error reports the first message with error code FFFFFFFF, whatever the stack held |
| Exceptions.SentinelShowsAllF | code/kernel/exception.c:54 | the filler prints as `FFFFFFFF` |
| Console.CellCodeSplits | code/kernel/common.c:38 | a cell's low byte is the character and its high byte the colour's attribute byte |
| Console.Print | code/kernel/common.c:31-42 | one cell per character other than newline; each newline moves the cursor one row down |
| Console.PrintAppend | code/kernel/common.c:31-42 | printing two strings in turn equals printing them joined |
| Console.PrintLine | code/kernel/common.c:38-40 | a line without newlines fills consecutive columns from the cursor and leaves the cursor after it |
| Console.PrintLineThenNewline | code/kernel/common.c:33-36 | a newline ends the line and restarts the text at column 0 of the next row |
| Console.LongLineRunsIntoNextRow | code/kernel/common.c:39 | column y + 80 of a row is column y of the next row: long lines run on without wrapping logic |
| Console.PrintAtPos | code/kernel/common.c:45-51 | one cell per character |
| Console.PrintAtPosCells | code/kernel/common.c:45-51 | character k goes to column y + k of row x |
| Console.PrintAtPosIsPrintWithoutMoving | code/kernel/common.c:45-51 | on a line without newlines it writes the cells `Print` would write |
| Console.HexText | code/kernel/common.c:57-65 | the number's text is always eight characters |
| Console.HexDigitReadsBack | code/kernel/common.c:60-62 | each nibble becomes a hex digit that reads back as that nibble |
| Console.HexTextIsHex | code/kernel/common.c:57-65 | every character of the text is a hex digit |
| Console.HexTextPrefix | code/kernel/common.c:57-65 | the first n digits read back as the value's top 4n bits |
| Console.HexTextReadsBack | code/kernel/common.c:57-65 | the eight digits read back as the value: the text is a faithful encoding |
| Console.HexTextInjective | code/kernel/common.c:57-65 | two 32-bit values print the same exactly when they are equal |
| Console.NumberDigits | code/kernel/common.c:54-66 | the loop fills the buffer with the eight digits, most significant first |
| Console.HexTextHasNoNewline | code/kernel/common.c:67 | the digits never move the cursor to a new row |
| Console.PrintNumber | code/kernel/common.c:54-68 | eight cells on the cursor's row hold hex digits that read back as the value, and the cursor ends eight columns on |
| Paging.WithFlags | code/kernel/process.c:41-46 | an entry is still a 32-bit word |
| Paging.WithFlagsSetsLowBits | code/kernel/process.c:41-46 | the flags set the low three bits and leave the rest of the address alone |
| Paging.EntryReadsBack | code/kernel/kernel32.c:108-110 | an entry for a page-aligned frame is present, names that frame and permits every access |
| Paging.DirEntryValue | code/kernel/kernel32.c:108 | directory entry d names page table d of the table area and permits every access |
| Paging.ShiftedEntryValue | code/kernel/process.c:46 | a shifted table entry names the shifted, page-aligned frame and permits every access |
| Paging.WalkThrough | code/kernel/kernel32.c:107-110 | through a directory entry of this shape, the walk is decided by the table entry: absent or forbidden means a fault, otherwise frame plus offset |
| Paging.PdeCount | code/kernel/kernel32.c:103 | the directory count covers the RAM size and is the least count that does |
| Paging.PdeCountIsLeastCover | code/kernel/kernel32.c:103 | a count is the least cover exactly when it is `PdeCount` |
| Paging.SetupPaging | code/kernel/kernel32.c:100-110 | one directory entry per 4 MiB of RAM and 1024 table entries per directory entry, at the fixed bases |
| Paging.AddressSpace | code/kernel/process.c:33-48 | the shape both kernels' tables share, with the directory and tables where asked |
| Paging.SetProcessPageTable | code/kernel/process.c:33-48 | a process's tables lie in its own paging area, and its directory base is recorded for `cr3` |
| Paging.SpaceWalkCovered | code/kernel/process.c:40-46 | every covered address is mapped, for any access, to its shifted address |
| Paging.SpaceWalk | code/kernel/process.c:40-46 | the walk maps covered addresses to their shifted address and faults on all others |
| Paging.SetupPagingIsUnshiftedSpace | code/kernel/kernel32.c:107-110 | the flat kernel's tables are the process tables with no shift |
| Paging.IdentityWalk | code/kernel/kernel32.c:107-110 | the flat kernel's paging maps every covered address to itself |
| Paging.ProcessWalk | code/kernel/process.c:40-46 | process `pid` sees the first megabyte as itself and user addresses moved up by `pid * PROCESS_PSIZE` |
| Paging.ImageVisibleAtUserStart | code/kernel/process.c:42-46 | user address 0x100000 + off reaches byte off of the process's load area |
| Paging.KernelMegabyteShared | code/kernel/process.c:43-44 | below 1 MiB every process, and the flat kernel, map each address to itself |
| Paging.SpacesMeet | code/kernel/process.c:42-46 | two user addresses in two shifted spaces reach the same byte exactly when address plus shift agree |
| Paging.UserAddressesMeet | code/kernel/process.c:42-46 | two processes' user addresses collide exactly when address plus `pid * PROCESS_PSIZE` agree |
| Paging.ProcessEntries | code/kernel/process.c:40-46 | the directory and table words the code stores, entry by entry |
| Paging.ProcessFramesDiffer | code/kernel/process.c:46 | the same user entry of a later process names a frame `(q - p) * PROCESS_PSIZE` higher |
| Paging.AreasSpaced | code/kernel/process.c:36-37 | the processes' paging areas are `PROCESS_PTE_SIZE` apart |
| Paging.TableAreasDisjoint | code/kernel/process.c:36-37 | when one process's tables fit in its area, the areas of two processes do not overlap |
| Process.UserSelectors | code/kernel/kernel32.c:225-230 | the user code and data selectors name LDT slots 0 and 1, the video selector GDT slot 3, all at RPL 3 |
| Process.UserFlags | code/kernel/kernel32.c:236 | user EFLAGS has interrupts enabled, IOPL 1, the reserved bit 1, and nothing else |
| Process.LdtDescriptorFields | code/kernel/kernel32.c:219 | a process's LDT descriptor covers its two LDT entries exactly, as a DPL 0 LDT segment |
| Process.LdtSelectorFields | code/kernel/kernel32.c:221 | process i's LDT selector names GDT slot 5 + i in the GDT at RPL 3 |
| Process.LdtSelectorsAgainstGdtLimit | code/kernel/kernel16.c:89 | every LDT selector lies within the intended GDT limit; within the written one only for processes 0..4 |
| Process.FlatUserSegments | code/kernel/kernel32.c:222-223 | as written, the flat task segments span 1 MiB from 0x90000 at DPL 3; the code one is 32-bit, the data one 16-bit |
| Process.PagedUserSegments | code/kernel/process.c:69-70 | the paged process segments span 0..0x10FFFF as 32-bit DPL 3 segments, covering the entry point and the stack top |
| Process.LdtSlotIsIndex | code/kernel/defs.h:146 | the first LDT slot the model fills is `INDEX_LDT_FIRST` |
| Process.TaskTable | code/kernel/tasks.c:14-19 | the table holds the four tasks, each with a 16 KiB stack, padded to `MAX_TASKS` |
| Process.StartPcb | code/kernel/kernel32.c:213-236 | a started task's `cs` selects slot 0 of its own LDT, `ss`, `ds`, `es` and `fs` slot 1, and `gs` the GDT's video slot, all at RPL 3; it runs with interrupts enabled and IOPL 1 from the given entry point and stack top; its LDT selector names GDT slot 5 + i, where its LDT descriptor lives; its page directory is unchanged |
| Process.FillLdtSlots | code/kernel/kernel32.c:219 | the n LDT slots receive the n descriptors and every other slot is untouched |
| Process.SetupFlatProcess | code/kernel/kernel32.c:207-238 | the first `taskCount` entries are started from their tasks, their LDT descriptors are written, everything else is untouched, and `reEnter` is idle |
| Process.FlatStacksBeyondDataLimit | code/kernel/kernel32.c:223 | as written, every task stack lies past the 16-bit data segment's limit |
| Process.FlatStacksWithinIntendedData | code/kernel/kernel32.c:223 | with the corrected data segment every task's whole stack lies within the limit and is 32-bit |
| Process.SectorRunsDisjoint | code/kernel/process.c:15 | the sector runs of two processes are whole blocks apart and never overlap |
| Process.ReadDisk | code/kernel/common.c:126-141 | the sector the controller is sent, `sector` modulo 2^28, lands at the address and no other byte changes |
| Process.LbaRegistersAddress | code/kernel/common.c:131-134 | the sector number assembled from the bytes written to ports 0x1F3-0x1F6 is `sector` modulo 2^28, and `sector` itself below 2^28 |
| Process.RegistersDropHighBits | code/kernel/common.c:131-134 | sectors `s` and 2^28 + `s` put the same bytes in the address registers |
| Process.ReadDiskWraps | code/kernel/common.c:126-141 | asking for sector 2^28 + `s` reads exactly what asking for `s` reads |
| Process.ContiguousBelowLba28 | code/kernel/process.c:16-18 | sectors read one after another below 2^28 form one contiguous run of the disk in memory |
| Process.ReadSectors | code/kernel/process.c:16-18 | byte `k` of the buffer is byte `k mod 512` of the sector the controller reads for `first + k / 512`; a run below 2^28 is the consecutive disk sectors; nothing outside the buffer changes |
| Process.CopyBytes | code/kernel/process.c:26-29 | for non-overlapping ranges the destination holds the source bytes, and only the destination changes |
| Process.ReadProcessToMemory | code/kernel/process.c:13-30 | a well-placed image, with its sectors below 2^28, ends up at its load address straight from the process's disk sectors; only the buffer and the load area change |
| Process.ImageFromBuffer | code/kernel/process.c:20-29 | copying the segment out of the buffer gives the image as it is on disk |
| Process.SetupPagedProcess | code/kernel/process.c:51-89 | more than `MAX_TASKS` processes halts; otherwise each process gets a started entry, its page directory and LDT descriptor, and its image in memory, and nothing else changes |
| Process.LoadImages | code/kernel/process.c:59-85 | after the loads every well-placed image is in place |
| Process.StartPagedEntries | code/kernel/process.c:59-87 | each started entry records the directory of its own address space |
| Process.LoadKeepsEarlierImages | code/kernel/process.c:85 | loading the next image keeps the earlier ones, which lie apart from it |
| Process.SpacedImagesApart | code/kernel/process.c:23 | images no larger than `PROCESS_PSIZE` never overlap |
| Process.Restart | code/kernel/process.c:120-140 | `esp0` ends at the entry's saved frame and nothing else in the TSS changes; `cr3` and `lldt` get the entry's page directory and LDT selector; the registers loaded are exactly the frame's, since the next interrupt saves them back into the same frame above the untouched stack |
| Process.ResumeSavesBack | code/kernel/process.c:130-139 | a context popped from a frame is saved back into that frame by the next interrupt, whatever the stack below |
| Process.RestartThenInterrupt | code/kernel/process.c:122 | the next interrupt after `restart` saves the registers restart loaded back into the same entry |
| Process.FirstInstructionIsImageStart | code/kernel/process.c:120-140 | a fresh process starts at CS:EIP, the address 0x100000, which its page tables map to the first byte of its image |
| Process.EntryMapsToImage | code/kernel/process.c:42-46 | the user start address maps to the process's load address |
| TaskState.TssDescriptor | code/kernel/kernel32.c:287 | the descriptor covers the TSS at its linear address, byte for byte, as an available 32-bit TSS of DPL 0 |
| TaskState.SetupTss | code/kernel/kernel32.c:281-287 | the TSS is zero except `ss0`, which selects the kernel's flat data slot at RPL 0, and `iobase`; the TSS slot describes the TSS at its linear address, byte for byte, as an available 32-bit TSS of DPL 0; `iobase` lies past that segment, so there is no I/O bitmap; no other GDT slot changes |
| TaskState.TssSegmentCoversRecord | code/kernel/kernel32.c:287 | every field of the record, `esp0` and `ss0` included, lies within the segment |
| TaskState.TssStackAndIoMap | code/kernel/kernel32.c:285-286 | the ring-0 stack is flat data at RPL 0 and the I/O map base lies past the segment, so no I/O bitmap exists |
| TaskState.FrameBytesIsFrameSize | code/kernel/kernel32.c:262 | the 68 added to `esp0` is the size of the saved frame |
| TaskState.SetRingZeroStack | code/kernel/kernel32.c:262 | the seventeen pushes of the next interrupt from `esp0` end at the entry's address, and the push that leaves k words below it lands on the offset of the entry's field k; nothing else in the TSS changes |
| TaskState.FrameOffsets | code/kernel/defs.h:59-77 | the seventeen offsets are those of the `StackFrame` fields in declaration order |
| TaskState.RestartKeepsSetup | code/kernel/kernel32.c:262 | each `restart` keeps the ring-0 stack segment and the absence of an I/O bitmap |
| TimerEntry.EnterClockInt | code/kernel/exception.c:165-175 | the handler runs exactly when the counter was idle, with the counter at 0; a nested arrival returns and leaves the counter as it found it |
| TimerEntry.NestedArrivalsReturn | code/kernel/exception.c:165-175 | while the counter is not idle, which is from the entry code's `incl reEnter` until the handler resets it to -1, any number of arrivals each return at once and leave the counter as they found it |
| TimerEntry.TicksAlternate | code/kernel/exception.c:136-142 | after n ticks from boot the counter is idle and the flag is 1 or 0 by the parity of n |
| TimerEntry.TickMarkers | code/kernel/exception.c:136-142 | every tick runs the handler, and the marker colour alternates between cyan and brown |
| TimerEntry.MarkerCells | code/kernel/exception.c:140 | the marker takes the last five columns of the top row |
| TimerEntry.SaveAfterRestore | code/kernel/exception.c:151-156 | restoring a frame and taking the next interrupt saves the same frame back, with `espKernel` the stack pointer `pushal` saw |
| TimerEntry.EntrySavesFrame | code/kernel/exception.c:151-156 | the pushes lay the registers out as the saved-frame fields, and popping them restores every register |
| TimerEntry.FrameLandsOnPcb | code/kernel/kernel32.c:262 | the seventeen pushes from `esp0` end at the entry's start, each word landing on its own field |
| Scheduler.LowestMaxUnique | code/kernel/process.c:100-107 | the lowest index of the largest tick is unique |
| Scheduler.ScanMax | code/kernel/process.c:100-107 | the scan returns the lowest index of the largest positive tick, or none when all ticks are 0 |
| Scheduler.LowestMaxTick | code/kernel/process.c:100-107 | there is no choice exactly when every tick is 0, and otherwise the choice is the lowest largest |
| Scheduler.Choose | code/kernel/process.c:94-116 | the result is again a valid state with the same priorities and some process ready |
| Scheduler.ChooseSpec | code/kernel/process.c:94-116 | a process with ticks left keeps the CPU and loses one tick; otherwise the lowest process with the largest tick is picked, after refilling from the priorities when all are 0 |
| Scheduler.OldChoose | code/kernel/kernel32.c:241-257 | the flat kernel picks the lowest largest tick, refilling from the priorities when all are 0 |
| Scheduler.ClockTick | code/kernel/kernel32.c:341-344 | a ready task with ticks left keeps running and loses one tick |
| Scheduler.ClockTickIsChoose | code/kernel/kernel32.c:341-344 | the flat kernel's tick followed by `choose` is the paged kernel's `choose` |
| Scheduler.OldChooseIsChoose | code/kernel/kernel32.c:241-257 | when the running process has no ticks left both choose functions pick the same |
| Scheduler.RunDown | code/kernel/process.c:96-99 | k ticks within a slice keep the process and take k ticks off it |
| Scheduler.RunPhase | code/kernel/process.c:96-99 | a running process keeps the CPU for all of its remaining ticks |
| Scheduler.SelectedBeforeReset | code/kernel/process.c:94-116 | every process with ticks left is selected before the next refill: nobody starves |
| Scheduler.TaskPrioritiesPositive | code/kernel/process.c:9 | the priority table has a positive entry, so `choose` always finds a process |
| Scheduler.FirstDecision | code/kernel/process.c:94-116 | at boot every tick equals its priority; the first call leaves the ticks unchanged and picks process 0, the one with the largest tick |
| Scheduler.SelectsFrom | code/kernel/process.c:100-115 | a scan that finds a process makes it ready and changes nothing else |
| Scheduler.EpochPhase | code/kernel/process.c:94-116 | with strictly decreasing priorities, process i runs for an unbroken stretch of `P[i]` + 1 ticks after the earlier ones |
| Scheduler.FirstPhase | code/kernel/process.c:94-116 | process 0 runs first, for `P[0]` + 1 ticks |
| Scheduler.NextPhase | code/kernel/process.c:94-116 | after process i - 1's stretch comes process i's |
| Scheduler.LastPhaseEndsInReset | code/kernel/process.c:109-113 | after the last stretch every tick is 0 |
| Scheduler.ResetRestarts | code/kernel/process.c:109-113 | the next call refills from the priorities and starts over at process 0 |
| Scheduler.EpochRepeats | code/kernel/process.c:94-116 | the schedule repeats exactly every sum-of-priorities + n ticks |
| Scheduler.TaskSetPhases | code/kernel/process.c:9 | for 800, 500, 250 and 100 the stretches start at ticks 0, 801, 1302 and 1553 and the period is 1654 |
| MemoryProbe.CheckMemory | code/kernel/kernel32.c:79-92 | the result is the highest of the start value and the entries' 32-bit end addresses |
| MemoryProbe.HighestEndUnique | code/kernel/kernel32.c:90-91 | that highest value is unique, whatever order the entries come in |
| MemoryProbe.TypeIgnored | code/kernel/kernel32.c:85-91 | the entry type does not affect the result: reserved ranges count too |
| MemoryProbe.RangeAtTopWraps | code/kernel/kernel32.c:90-91 | a range ending exactly at 4 GiB wraps to 0 and never raises the result |
| Boot.ChsOf | code/boot/boot.c:58-60 | the block's cylinder, head and sector are a valid floppy address |
| Boot.ChsRoundTrip | code/boot/boot.c:58-60 | turning the address back into a block number gives the block |
| Boot.BlockRoundTrip | code/boot/boot.c:58-60 | every valid address is the conversion of its own block number |
| Boot.ChsOfInjective | code/boot/boot.c:58-60 | different blocks get different addresses |
| Boot.ReadKernelRequest | code/boot/boot.c:62-71 | the BIOS reads the registers as a one-sector read from drive 0 at the computed address into segment:offset |
| Boot.BiosRead | code/boot/boot.c:62-72 | a successful read puts the sector at the buffer and changes nothing else |
| Boot.ReadKernel | code/boot/boot.c:56-73 | disk block `id` lands at linear address segment * 16 + offset and nothing else changes |
| Boot.BootMain | code/boot/boot.c:45-46 | the 0x70 sectors after the boot sector lie in order at 0x90000 and nothing else changes |
| Boot.KernelPlacement | code/boot/boot.c:1-13 | the 56 KiB image ends at 0x9E000, below the stack at 0x9F000 and above the boot sector |

## Left out

- Privileged instructions are left out: `lgdt`, `lidt`, `ltr`, `lldt`, the `cr0`/`cr3` writes, `iretl`, `hlt`, `sti` and `cli`. Their operands are modelled: the table pointers, the TSS and the page directory address.
- Port I/O is left out: `outb`/`inb`/`inw`, the 8259A initialisation in `Init8259A`, and the status busy-wait of `ReadDisk`. Of a disk read, only the bytes written to the address registers and the transfer a completed read performs are modelled.
- BIOS video calls are left out, along with the drive reset and the boot loader's retry-on-carry loop. Only the successful read is modelled.
- The real-mode E820 probe (code/kernel/kernel16.c:48-61) is left out. Its output, the memory map, is an input to `MemoryProbe.CheckMemory`.
- The listing `CheckMemory` prints, and the boot messages of both kernels, are left out.
- `WriteToVedio` is not modelled. A print is the list of cell writes it makes.
- ELF parsing is left out because `elf.h` is not part of this model. The segment offset and size of each image are inputs (`ImageHeader`).
- The `PROCESS_*` and `INT_VECTOR_*` macros of the paged kernel's header are not part of this model. Those values are parameters (`ProcessLayout`, the `vectors` of `Idt.SetupPagedIdt`).
- `DISK_SECTOR_SIZE` is not part of this model. It is taken as 512, the sector size of the disks read.
- The user task bodies (`TaskA`..`TaskD`) and the user library are left out.
- Hardware interrupt nesting is left out: interrupts stay masked while the handlers run. Nested arrivals are modelled as completing one after another.
- Console.Print: messages are strings without NUL characters, each character below 256. The C loops stop at the first NUL byte and store one byte per character. Every message the kernels print is such a string; a Dafny string with an embedded NUL would be printed past it. The same holds for Console.PrintAtPos.
- Console.PrintNumber: the value is a `nat` below 2^32, standing for the `u32` argument.
- Process.SetupFlatProcess: requires `taskCount <= MAX_TASKS`. The flat kernel has no such guard, and a larger count writes past the process table.
- Process.SetupFlatProcess: the loop's two halves run one after the other, LDT slots first. They touch disjoint state, so the result is the same.
- Process.SetupPagedProcess: memory, the GDT, the process table and the page tables are separate values, so the model assumes they do not alias. In the kernel they share one physical RAM. `SetProcessPageTable` (code/kernel/process.c:39-46) writes its entries into RAM after each image load. Nothing in the code stops an image or the sector buffer from landing on those tables or on the kernel's own structures. "Nothing else changes" and the loaded-images guarantee therefore hold only for layouts where these areas are disjoint.
- Scheduler.Choose: requires some tick or some priority to be positive. The source's `choose` (code/kernel/process.c:109-113) calls itself without end when every tick and every priority is 0, as it is with `taskCount` 0. Every call in the kernel meets the requirement, because all four priorities are positive (`Scheduler.TaskPrioritiesPositive`). Scheduler.OldChoose (code/kernel/kernel32.c:251-254) has the same requirement for the same reason.
- Process.ReadProcessToMemory: guarantees the image only when it is well placed: its sectors lie below 2^28, it lies inside the sectors read, and it lies clear of the buffer. Otherwise the model promises only which bytes may change. Past 2^28 the reads wrap to low sectors, as `ReadDiskWraps` shows, and the buffer is not the image.
- TimerEntry.EnterClockInt: `reEnter` is an unbounded integer rather than a 32-bit one. It never leaves -1..0 on the modelled paths.
- Boot.ReadKernel: requires that the buffer does not cross a 64 KiB DMA boundary and that the cylinder fits in 8 bits. The BIOS fails such reads, and the loader's retry loop is left out.
- Paging.SetupPaging: the directory and table memory writes are modelled as the values written, not as stores into RAM.
- Scheduler.EpochPhase: the concrete 800/500/250/100 timeline follows from `Scheduler.TaskSetPhases` together with `Scheduler.EpochPhase`. It is not unfolded tick by tick.
- The flat kernel's `restart` (code/kernel/kernel32.c:260-276) has no `cr3` load. Its `esp0` update is `TaskState.SetRingZeroStack`.

## Findings

| source | as written | input that shows it | evidently intended | confidence | as-written member | corrected member |
|---|---|---|---|---|---|---|
| code/kernel/kernel16.c:89 | `GDT_SIZE * sizeof(Descriptor) - 1`, where `GDT_SIZE` is the unparenthesised `5 + MAX_TASKS` (code/kernel/defs.h:10). The limit is therefore 5 + 10 * 8 - 1 = 84 | the LDT selector of process 5 (GDT slot 10, selector 0x53): its descriptor lies past the limit, so `lldt` faults | limit (5 + 10) * 8 - 1 = 119 | high for the expansion; the fault needs more than five processes; not executed | Gdt.SetGdt, Gdt.AsWrittenLimitExcludesLateLdtSlots | Gdt.SetGdtIntended |
| code/kernel/kernel32.c:223 | the flat task's data segment is byte-granular with limit 0xFFFFF and no `DA_32` flag | task A's stack, 0x100000..0x103FFF (code/kernel/tasks.c:15), lies past the limit, and the segment's stack uses 16-bit SP | the 32-bit flag of the flat code segment, and the 4 KiB granularity and 32-bit flag of the paged kernel's data segment | medium; not executed | Process.FlatStacksBeyondDataLimit | Process.FLAT_USER_DATA_INTENDED, Process.FlatStacksWithinIntendedData |

=== FILE: arith.dfy ===
/**
 * Facts about integer division that the solver does not find unaided.
 */
module Arith {

  lemma MulMonotone(a: nat, c: nat, b: nat)
    requires a <= c
    ensures a * b <= c * b
  {
    assert c * b == a * b + (c - a) * b;
  }

  /** Quotient and remainder are the only such pair. */
  lemma DivModUnique(x: nat, b: nat, q: nat, r: nat)
    requires 0 < b && r < b && x == q * b + r
    ensures x / b == q && x % b == r
  {
    var q2, r2 := x / b, x % b;
    assert x == q2 * b + r2;
    if q < q2 {
      MulMonotone(q + 1, q2, b);
    } else if q2 < q {
      MulMonotone(q2 + 1, q, b);
    }
  }

  lemma MulRearrange(q: nat, b: nat, r: nat, a: nat)
    ensures (q * b + r) * a == q * (a * b) + r * a
  {
  }

  /** Dividing by `a * b` is dividing by `a`, then by `b`. */
  lemma DivDiv(x: nat, a: nat, b: nat)
    requires a > 0 && b > 0
    ensures x / (a * b) == (x / a) / b
  {
    var ab, q, r := a * b, (x / a) / b, ((x / a) % b) * a + x % a;
    assert x == q * ab + r && r < ab by {
      DivDivSplit(x, a, b);
    }
    DivModUnique(x, ab, q, r);
  }

  lemma DivDivSplit(x: nat, a: nat, b: nat)
    requires a > 0 && b > 0
    ensures x == ((x / a) / b) * (a * b) + (((x / a) % b) * a + x % a)
    ensures ((x / a) % b) * a + x % a < a * b
  {
    var q, r := x / a, x % a;
    assert x == q * a + r;
    QuotientSplit(q, a, b);
    MulMonotone(q % b + 1, b, a);
  }

  lemma QuotientSplit(q: nat, a: nat, b: nat)
    requires b > 0
    ensures q * a == (q / b) * (a * b) + (q % b) * a
  {
    MulRearrange(q / b, b, q % b, a);
  }
}

=== FILE: boot.dfy ===
/**
 * The boot sector (code/boot/boot.c). `BootMain` reads the 0x70 sectors that
 * follow it on a 1.44 MB floppy into memory at 0x9000:0000 with one BIOS
 * `int 0x13` call per sector, then jumps there; `ReadKernel` turns a
 * sector number into the cylinder, head and sector the BIOS asks for and
 * packs them into the call's registers.
 */
module Boot {
  import opened Defs
  import opened Arith

  /* ---------------------------------------------------------------------
   * Floppy geometry
   * ------------------------------------------------------------------- */

  const SECTORS_PER_TRACK: nat := 18
  const HEADS: nat := 2

  /** A disk address as the BIOS takes it; sectors count from 1. */
  datatype Chs = Chs(cylinder: nat, head: nat, sector: nat)

  predicate ValidChs(c: Chs)
  {
    c.head < HEADS && 1 <= c.sector <= SECTORS_PER_TRACK
  }

  /** The sector number of a disk address: tracks follow one another
      cylinder by cylinder, head 0 before head 1. */
  function BlockOf(c: Chs): nat
    requires ValidChs(c)
  {
    (c.cylinder * HEADS + c.head) * SECTORS_PER_TRACK + (c.sector - 1)
  }

  /** `ReadKernel`'s arithmetic: `sector = id % 18 + 1`, `cylinder = (id /
      18) >> 1`, `head = (id / 18) & 1`; on an unsigned word the shift and
      the mask are the quotient and remainder by 2. */
  function ChsOf(id: nat): (c: Chs)
    ensures ValidChs(c)
  {
    var track := id / SECTORS_PER_TRACK;
    Chs(track / HEADS, track % HEADS, id % SECTORS_PER_TRACK + 1)
  }

  /** The address `ReadKernel` computes names sector `id` itself. */
  lemma ChsRoundTrip(id: nat)
    ensures BlockOf(ChsOf(id)) == id
  {
    var track := id / SECTORS_PER_TRACK;
    assert track == (track / HEADS) * HEADS + track % HEADS;
    assert id == track * SECTORS_PER_TRACK + id % SECTORS_PER_TRACK;
  }

  /** Every valid disk address is the one `ReadKernel` computes for its
      sector number: the two numberings are inverse. */
  lemma BlockRoundTrip(c: Chs)
    requires ValidChs(c)
    ensures ChsOf(BlockOf(c)) == c
  {
    var track := c.cylinder * HEADS + c.head;
    DivModUnique(BlockOf(c), SECTORS_PER_TRACK, track, c.sector - 1);
    DivModUnique(track, HEADS, c.cylinder, c.head);
  }

  /** Distinct sector numbers are read from distinct disk addresses. */
  lemma ChsOfInjective(a: nat, b: nat)
    requires a != b
    ensures ChsOf(a) != ChsOf(b)
  {
    ChsRoundTrip(a);
    ChsRoundTrip(b);
  }

  /* ---------------------------------------------------------------------
   * The BIOS call
   * ------------------------------------------------------------------- */

  /** The registers `int 0x13` reads, each a 16-bit value. */
  datatype DiskCall = DiskCall(ax: nat, bx: nat, cx: nat, dx: nat, es: nat)

  /** The low half of a 32-bit register, which a 16-bit use of it sees. */
  function Low16(x: nat): nat
  {
    x % 0x10000
  }

  /** The registers `ReadKernel(base, offset, id)` loads: `ax = 0x0201`,
      `bx` and `es` from `offset` and `base`, `cx = sector | (cylinder <<
      8)`, `dx = head << 8`. The sector is below 256, so the `|` adds the
      two disjoint bit ranges. */
  function ReadKernelCall(base: nat, offset: nat, id: nat): DiskCall
  {
    var c := ChsOf(id);
    DiskCall(0x0201, Low16(offset), Low16(c.sector + c.cylinder * 256), Low16(c.head * 256), Low16(base))
  }

  /** What a call asks for. */
  datatype Request = Request(service: nat, count: nat, chs: Chs, drive: nat, linear: nat)

  /** How the BIOS reads the registers of a disk call: the service in AH
      and the sector count in AL; the cylinder's low eight bits in CH and
      its two high bits in bits 6 and 7 of CL, the sector in bits 0 to 5 of
      CL; the head in DH and the drive in DL; the buffer at real-mode
      address ES:BX. */
  function Decode(r: DiskCall): Request
  {
    Request(r.ax / 256, r.ax % 256,
            Chs(r.cx / 256 + (r.cx % 256) / 64 * 256, r.dx / 256, r.cx % 64),
            r.dx % 256, r.es * 16 + r.bx)
  }

  /** Service 2 of `int 0x13`: read sectors. */
  const READ_SECTORS: nat := 2

  /** For every sector of the first 256 cylinders and any real-mode buffer,
      the BIOS decodes `ReadKernel`'s registers as a read of one sector at
      the address `ChsOf(id)`, from drive 0 (the first floppy), into the
      buffer at `base * 16 + offset`. */
  lemma ReadKernelRequest(base: nat, offset: nat, id: nat)
    requires base < 0x10000 && offset < 0x10000
    requires id < 256 * HEADS * SECTORS_PER_TRACK
    ensures Decode(ReadKernelCall(base, offset, id)) == Request(READ_SECTORS, 1, ChsOf(id), 0, base * 16 + offset)
  {
    var c := ChsOf(id);
    assert c.cylinder < 256 by {
      DivDiv(id, SECTORS_PER_TRACK, HEADS);
    }
    PackBytes(c.cylinder, c.sector);
    PackBytes(c.head, 0);
    PackBytes(2, 1);
    SectorBits(c.cylinder, c.sector);
  }

  /** A 16-bit word built from a high and a low byte gives them back. */
  lemma PackBytes(hi: nat, lo: nat)
    requires hi < 256 && lo < 256
    ensures Low16(lo + hi * 256) == lo + hi * 256
    ensures (lo + hi * 256) / 256 == hi && (lo + hi * 256) % 256 == lo
  {
    DivModUnique(lo + hi * 256, 256, hi, lo);
  }

  /** A sector number below 64 leaves bits 6 and 7 of CL clear, so the
      BIOS reads no high cylinder bits and the sector unchanged. */
  lemma SectorBits(hi: nat, lo: nat)
    requires hi < 256 && lo < 64
    ensures ((lo + hi * 256) % 256) / 64 == 0 && (lo + hi * 256) % 64 == lo
  {
    DivModUnique(lo + hi * 256, 256, hi, lo);
    DivModUnique(lo + hi * 256, 64, hi * 4, lo);
  }

  /** A one-sector read from drive 0 of a two-headed, 18-sector-per-track
      disk, modelled by its effect: sector `BlockOf(chs)` of the disk
      image lands at the buffer. The controller's transfer may not wrap the
      64 KiB of the buffer's segment nor cross a 64 KiB physical boundary,
      so the request must stay within both. */
  function BiosRead(disk: seq<bv8>, mem: seq<bv8>, q: Request): (m: seq<bv8>)
    requires q.service == READ_SECTORS && q.count == 1 && q.drive == 0 && ValidChs(q.chs)
    requires q.linear / 0x10000 == (q.linear + SECTOR_BYTES - 1) / 0x10000
    requires (BlockOf(q.chs) + 1) * SECTOR_BYTES <= |disk| && q.linear + SECTOR_BYTES <= |mem|
    ensures |m| == |mem|
    ensures Holds(m, q.linear, disk, BlockOf(q.chs) * SECTOR_BYTES, SECTOR_BYTES)
    ensures forall k :: 0 <= k < |mem| && Outside(k, q.linear, SECTOR_BYTES) ==> m[k] == mem[k]
  {
    StoreSector(disk, mem, BlockOf(q.chs), q.linear)
  }

  /** `ReadKernel(base, offset, id)`: sector `id` of the floppy into memory
      at `base:offset`, nothing else changed. The `jc` retry loop repeats
      the call until the BIOS reports success, so only the successful
      transfer is modelled. */
  function ReadKernel(disk: seq<bv8>, mem: seq<bv8>, base: nat, offset: nat, id: nat): (m: seq<bv8>)
    requires base < 0x10000 && offset + SECTOR_BYTES <= 0x10000
    requires (base * 16 + offset) % 0x10000 + SECTOR_BYTES <= 0x10000
    requires id < 256 * HEADS * SECTORS_PER_TRACK
    requires (id + 1) * SECTOR_BYTES <= |disk| && base * 16 + offset + SECTOR_BYTES <= |mem|
    ensures |m| == |mem|
    ensures Holds(m, base * 16 + offset, disk, id * SECTOR_BYTES, SECTOR_BYTES)
    ensures forall k :: 0 <= k < |mem| && Outside(k, base * 16 + offset, SECTOR_BYTES) ==> m[k] == mem[k]
  {
    ReadKernelRequest(base, offset, id);
    ChsRoundTrip(id);
    var q := Decode(ReadKernelCall(base, offset, id));
    SameBlock(q.linear);
    BiosRead(disk, mem, q)
  }

  /** A sector that starts at least 512 bytes below a 64 KiB boundary ends
      below it too. */
  lemma SameBlock(linear: nat)
    requires linear % 0x10000 + SECTOR_BYTES <= 0x10000
    ensures linear / 0x10000 == (linear + SECTOR_BYTES - 1) / 0x10000
  {
    DivModUnique(linear + SECTOR_BYTES - 1, 0x10000, linear / 0x10000, linear % 0x10000 + SECTOR_BYTES - 1);
  }

  /* ---------------------------------------------------------------------
   * BootMain
   * ------------------------------------------------------------------- */

  /** The kernel's real-mode segment, its linear address and its length in
      sectors. */
  const KERNEL_SEGMENT: nat := 0x9000
  const KERNEL_LOAD: nat := 0x90000
  const KERNEL_SECTORS: nat := 0x70

  /** The loading loop of `BootMain()`: `ReadKernel(0x9000, i * 0x200, i +
      1)` for `i` from 0 to 0x6F. The sectors after the boot sector, 56 KiB
      of them, end up in order from 0x90000, where the closing `ljmp $0x9000,
      $0` enters them; every other byte of memory, the running boot sector
      at 0x7C00 included, is as before. */
  method BootMain(disk: seq<bv8>, mem: seq<bv8>) returns (m: seq<bv8>)
    requires (KERNEL_SECTORS + 1) * SECTOR_BYTES <= |disk|
    requires KERNEL_LOAD + KERNEL_SECTORS * SECTOR_BYTES <= |mem|
    ensures |m| == |mem|
    ensures Holds(m, KERNEL_LOAD, disk, SECTOR_BYTES, KERNEL_SECTORS * SECTOR_BYTES)
    ensures forall k :: 0 <= k < |mem| && Outside(k, KERNEL_LOAD, KERNEL_SECTORS * SECTOR_BYTES) ==> m[k] == mem[k]
  {
    m := mem;
    var i := 0;
    while i < KERNEL_SECTORS
      invariant 0 <= i <= KERNEL_SECTORS && |m| == |mem|
      invariant Holds(m, KERNEL_LOAD, disk, SECTOR_BYTES, i * SECTOR_BYTES)
      invariant forall k :: 0 <= k < |mem| && Outside(k, KERNEL_LOAD, i * SECTOR_BYTES) ==> m[k] == mem[k]
    {
      var offset := i * 0x200;
      assert KERNEL_SEGMENT * 16 + offset == KERNEL_LOAD + i * SECTOR_BYTES;
      assert (i + 1) * SECTOR_BYTES == i * SECTOR_BYTES + SECTOR_BYTES;
      assert (KERNEL_LOAD + offset) % 0x10000 == offset by {
        DivModUnique(KERNEL_LOAD + offset, 0x10000, 9, offset);
      }
      m := ReadKernel(disk, m, KERNEL_SEGMENT, offset, i + 1);
      i := i + 1;
    }
  }

  /** The boot sector's memory plan: the kernel's 56 KiB fit in the free
      area below 0x9F000 and lie clear of the boot sector at 0x7C00 and its
      stack below it; the entry point 0x9000:0000 is the first byte
      loaded, the contents of sector 1. */
  lemma KernelPlacement()
    ensures KERNEL_LOAD + KERNEL_SECTORS * SECTOR_BYTES == 0x9E000 <= 0x9F000
    ensures 0x7E00 <= KERNEL_LOAD
    ensures KERNEL_SEGMENT * 16 + 0 == KERNEL_LOAD
  {
  }
}

=== FILE: console.dfy ===
/**
 * Text output on the 80-column colour text screen (code/kernel/common.c):
 * `Print` writes at the cursor `dispX`/`dispY` and moves it, `PrintAtPos`
 * writes at a given row and column, and `PrintNumber` shows a 32-bit value
 * as eight hexadecimal digits. Each character becomes one two-byte cell
 * write `WriteToVedio(code, pos)` into the video segment; the model returns
 * the list of writes instead of performing them.
 */
module Console {
  import opened Defs
  import opened Arith

  const COLUMNS: nat := 80
  const NEWLINE: char := '\n'

  /** The text cursor: `dispX` is the row, `dispY` the column. */
  datatype Cursor = Cursor(x: int, y: int)

  /** One `WriteToVedio(code, pos)`: the low 16 bits of `code` (the `movw`
      stores `ax`) go to byte offset `pos` of the video segment. */
  datatype CellWrite = CellWrite(pos: nat, code: bv16)

  /** `(*c) & 0xff`: the byte of a character. */
  function CharByte(c: char): bv8
  {
    (c as int % 256) as bv8
  }

  /** `((*c) & 0xff) | color`, as the 16 bits that reach the screen. */
  function CellCode(c: char, color: bv32): bv16
  {
    (((CharByte(c) as bv32) | color) & 0xFFFF) as bv16
  }

  /** The write of character `c` at row `x`, column `y`: byte offset
      `(80 * x + y) * 2`, as a 32-bit value. */
  function CellAt(x: int, y: int, c: char, color: bv32): CellWrite
  {
    CellWrite(U32((COLUMNS * x + y) * 2), CellCode(c, color))
  }

  /** A cell is a character byte followed by an attribute byte: with a colour
      made of the `F_*`, `B_*`, `L_*` and `Flicker` constants (all above bit
      7), the low byte of the cell is the character and the high byte is the
      colour's second byte. */
  lemma CellCodeSplits(c: char, color: bv32)
    requires color & 0xFF == 0
    ensures CellCode(c, color) & 0xFF == CharByte(c) as bv16
    ensures CellCode(c, color) >> 8 == ((color >> 8) & 0xFF) as bv16
  {
  }

  /** Number of occurrences of `c` in `s`. */
  function Count(s: string, c: char): nat
  {
    if s == [] then 0 else (if s[0] == c then 1 else 0) + Count(s[1..], c)
  }

  lemma {:induction false} CountAbsent(s: string, c: char)
    requires c !in s
    ensures Count(s, c) == 0
  {
    if s != [] {
      CountAbsent(s[1..], c);
    }
  }

  lemma {:induction false} CountAppend(a: string, b: string, c: char)
    ensures Count(a + b, c) == Count(a, c) + Count(b, c)
    decreases |a|
  {
    if a == [] {
      assert a + b == b;
    } else {
      assert (a + b)[0] == a[0] && (a + b)[1..] == a[1..] + b;
      CountAppend(a[1..], b, c);
    }
  }

  /* ---------------------------------------------------------------------
   * Print
   * ------------------------------------------------------------------- */

  /** `Print(message, color)` starting at cursor `cur`: the cell writes in
      order and the cursor afterwards. A newline writes nothing, moves to the
      next row and back to column 0; every other character is written at the
      cursor, which then moves one column right, past column 79 as well. */
  function Print(msg: string, color: bv32, cur: Cursor): (r: (seq<CellWrite>, Cursor))
    ensures |r.0| + Count(msg, NEWLINE) == |msg|
    ensures r.1.x == cur.x + Count(msg, NEWLINE)
    decreases |msg|
  {
    if msg == [] then ([], cur)
    else if msg[0] == NEWLINE then Print(msg[1..], color, Cursor(cur.x + 1, 0))
    else
      var rest := Print(msg[1..], color, Cursor(cur.x, cur.y + 1));
      ([CellAt(cur.x, cur.y, msg[0], color)] + rest.0, rest.1)
  }

  /** Printing `a + b` is printing `a`, then `b` from where `a` left the
      cursor. */
  lemma {:induction false} PrintAppend(a: string, b: string, color: bv32, cur: Cursor)
    ensures var first := Print(a, color, cur);
      var second := Print(b, color, first.1);
      Print(a + b, color, cur) == (first.0 + second.0, second.1)
    decreases |a|
  {
    if a != [] {
      assert (a + b)[0] == a[0] && (a + b)[1..] == a[1..] + b;
      if a[0] == NEWLINE {
        PrintAppend(a[1..], b, color, Cursor(cur.x + 1, 0));
      } else {
        var next := Cursor(cur.x, cur.y + 1);
        PrintAppend(a[1..], b, color, next);
        var cell, restA := [CellAt(cur.x, cur.y, a[0], color)], Print(a[1..], color, next);
        var restB := Print(b, color, restA.1);
        assert cell + restA.0 + restB.0 == cell + (restA.0 + restB.0);
      }
    } else {
      assert a + b == b;
      assert [] + Print(b, color, cur).0 == Print(b, color, cur).0;
    }
  }

  /** A message without newlines is written character by character along
      the cursor's row, character `k` at column `cur.y + k`, and the cursor
      ends just after it on the same row. */
  lemma {:induction false} PrintLine(msg: string, color: bv32, cur: Cursor)
    requires NEWLINE !in msg
    ensures Print(msg, color, cur).0 == seq(|msg|, k requires 0 <= k < |msg| => CellAt(cur.x, cur.y + k, msg[k], color))
    ensures Print(msg, color, cur).1 == Cursor(cur.x, cur.y + |msg|)
    decreases |msg|
  {
    if msg != [] {
      var next := Cursor(cur.x, cur.y + 1);
      PrintLine(msg[1..], color, next);
      var rest := Print(msg[1..], color, next).0;
      assert rest == seq(|msg| - 1, k requires 0 <= k < |msg| - 1 => CellAt(cur.x, cur.y + 1 + k, msg[1..][k], color));
      var whole := Print(msg, color, cur).0;
      assert whole == [CellAt(cur.x, cur.y, msg[0], color)] + rest;
      forall k | 0 <= k < |msg|
        ensures whole[k] == CellAt(cur.x, cur.y + k, msg[k], color)
      {
        if k > 0 {
          assert whole[k] == rest[k - 1];
        }
      }
    }
  }

  /** A newline writes nothing and puts the cursor at column 0 of the next
      row, whatever the column was: a line ending in a newline is its cells,
      then the rest from the start of the next row. */
  lemma PrintLineThenNewline(line: string, rest: string, color: bv32, cur: Cursor)
    requires NEWLINE !in line
    ensures Print(line + [NEWLINE] + rest, color, cur)
      == var tail := Print(rest, color, Cursor(cur.x + 1, 0));
         (seq(|line|, k requires 0 <= k < |line| => CellAt(cur.x, cur.y + k, line[k], color)) + tail.0, tail.1)
  {
    PrintLine(line, color, cur);
    assert line + [NEWLINE] + rest == line + ([NEWLINE] + rest);
    PrintAppend(line, [NEWLINE] + rest, color, cur);
    assert ([NEWLINE] + rest)[1..] == rest;
  }

  /** Nothing wraps at column 80: the cell of column `y + 80` is the cell of
      column `y` one row down, so an overlong line runs on into the next row
      while `dispX` stays where it was. */
  lemma LongLineRunsIntoNextRow(x: int, y: int, c: char, color: bv32)
    ensures CellAt(x, y + COLUMNS, c, color) == CellAt(x + 1, y, c, color)
  {
  }

  /* ---------------------------------------------------------------------
   * PrintAtPos
   * ------------------------------------------------------------------- */

  /** `PrintAtPos(message, color, x, y)`: every character, a newline
      included, is written at row `x` from column `y` on; the cursor is
      neither read nor moved. */
  function PrintAtPos(msg: string, color: bv32, x: int, y: int): (r: seq<CellWrite>)
    ensures |r| == |msg|
    decreases |msg|
  {
    if msg == [] then []
    else [CellAt(x, y, msg[0], color)] + PrintAtPos(msg[1..], color, x, y + 1)
  }

  /** Character `k` goes to column `y + k` of row `x`. */
  lemma {:induction false} PrintAtPosCells(msg: string, color: bv32, x: int, y: int)
    ensures PrintAtPos(msg, color, x, y) == seq(|msg|, k requires 0 <= k < |msg| => CellAt(x, y + k, msg[k], color))
    decreases |msg|
  {
    if msg != [] {
      PrintAtPosCells(msg[1..], color, x, y + 1);
      var whole, rest := PrintAtPos(msg, color, x, y), PrintAtPos(msg[1..], color, x, y + 1);
      forall k | 0 <= k < |msg|
        ensures whole[k] == CellAt(x, y + k, msg[k], color)
      {
        if k > 0 {
          assert whole[k] == rest[k - 1];
        }
      }
    }
  }

  /** Without newlines, `PrintAtPos` writes exactly what `Print` would write
      from a cursor at the same place. */
  lemma PrintAtPosIsPrintWithoutMoving(msg: string, color: bv32, x: int, y: int)
    requires NEWLINE !in msg
    ensures PrintAtPos(msg, color, x, y) == Print(msg, color, Cursor(x, y)).0
  {
    PrintAtPosCells(msg, color, x, y);
    PrintLine(msg, color, Cursor(x, y));
  }

  /* ---------------------------------------------------------------------
   * PrintNumber
   * ------------------------------------------------------------------- */

  /** `(value >> i) & 0xf` of a 32-bit value, as a number. */
  function Nibble(value: nat, i: nat): (n: nat)
    ensures n < 16
  {
    (value / Pow2(i)) % 16
  }

  function Pow2(n: nat): (p: nat)
    ensures p > 0
  {
    if n == 0 then 1 else 2 * Pow2(n - 1)
  }

  /** The digit `PrintNumber` emits for a nibble: `'0' + n`, plus 7 when
      that passes `'9'`. */
  function HexDigit(n: nat): char
    requires n < 16
  {
    var ch := n + '0' as int;
    if ch > '9' as int then (ch + 7) as char else ch as char
  }

  predicate IsHexDigit(c: char)
  {
    '0' <= c <= '9' || 'A' <= c <= 'F'
  }

  /** The value of a hexadecimal digit, as a reader of the screen takes it
      (anything else reads as 0). */
  function HexDigitValue(c: char): nat
  {
    if '0' <= c <= '9' then c as int - '0' as int
    else if 'A' <= c <= 'F' then c as int - 'A' as int + 10
    else 0
  }

  /** Digits read most significant first. */
  function ReadHex(s: string): nat
  {
    if s == [] then 0 else ReadHex(s[..|s| - 1]) * 16 + HexDigitValue(s[|s| - 1])
  }

  /** The eight digits of `value`, most significant first. */
  function HexText(value: nat): (s: string)
    ensures |s| == 8
  {
    seq(8, k requires 0 <= k < 8 => HexDigit(Nibble(value, 28 - 4 * k)))
  }

  lemma HexDigitReadsBack(n: nat)
    requires n < 16
    ensures IsHexDigit(HexDigit(n)) && HexDigitValue(HexDigit(n)) == n
  {
  }

  lemma Pow2Add4(i: nat)
    ensures Pow2(i + 4) == Pow2(i) * 16
  {
    assert Pow2(i + 4) == 2 * Pow2(i + 3) == 4 * Pow2(i + 2) == 8 * Pow2(i + 1);
  }

  /** Appending the next nibble's digit moves the read-back value one
      nibble further down. */
  lemma NibbleStep(value: nat, i: nat)
    ensures (value / Pow2(i + 4)) * 16 + Nibble(value, i) == value / Pow2(i)
  {
    Pow2Add4(i);
    DivDiv(value, Pow2(i), 16);
    DivModUnique(value / Pow2(i), 16, value / Pow2(i + 4), Nibble(value, i));
  }

  lemma Pow2Of32()
    ensures Pow2(32) == U32_MOD
  {
    Pow2Add4(0); Pow2Add4(4); Pow2Add4(8); Pow2Add4(12);
    Pow2Add4(16); Pow2Add4(20); Pow2Add4(24); Pow2Add4(28);
  }

  /** Every character of `HexText` is a digit or a capital A to F. */
  lemma HexTextIsHex(value: nat)
    ensures forall k :: 0 <= k < 8 ==> IsHexDigit(HexText(value)[k])
  {
    forall k | 0 <= k < 8
      ensures IsHexDigit(HexText(value)[k])
    {
      HexDigitReadsBack(Nibble(value, 28 - 4 * k));
    }
  }

  /** Reading one more digit of `HexText(value)` appends the next nibble. */
  lemma HexTextStep(value: nat, n: nat)
    requires 0 < n <= 8
    ensures ReadHex(HexText(value)[..n]) == ReadHex(HexText(value)[..n - 1]) * 16 + Nibble(value, 32 - 4 * n)
  {
    var t := HexText(value);
    var i := 32 - 4 * n;
    assert t[..n][..n - 1] == t[..n - 1] && t[..n][n - 1] == t[n - 1];
    assert t[n - 1] == HexDigit(Nibble(value, i));
    HexDigitReadsBack(Nibble(value, i));
  }

  /** The first `n` digits of `HexText(value)` read back as the top `4 * n`
      bits of the 32-bit `value`. */
  lemma {:induction false} HexTextPrefix(value: nat, n: nat)
    requires value < U32_MOD && n <= 8
    ensures ReadHex(HexText(value)[..n]) == value / Pow2(32 - 4 * n)
  {
    if n == 0 {
      Pow2Of32();
    } else {
      HexTextPrefix(value, n - 1);
      HexTextPrefixGrows(value, n);
    }
  }

  lemma HexTextPrefixGrows(value: nat, n: nat)
    requires 0 < n <= 8
    requires ReadHex(HexText(value)[..n - 1]) == value / Pow2(36 - 4 * n)
    ensures ReadHex(HexText(value)[..n]) == value / Pow2(32 - 4 * n)
  {
    HexTextStep(value, n);
    NibbleStep(value, 32 - 4 * n);
  }

  /** Reading the eight digits back gives the value: the display loses
      nothing of a 32-bit number. */
  lemma HexTextReadsBack(value: nat)
    requires value < U32_MOD
    ensures forall k :: 0 <= k < 8 ==> IsHexDigit(HexText(value)[k])
    ensures ReadHex(HexText(value)) == value
  {
    HexTextIsHex(value);
    HexTextPrefix(value, 8);
    assert HexText(value)[..8] == HexText(value);
  }

  /** Distinct values are shown as distinct texts. */
  lemma HexTextInjective(a: nat, b: nat)
    requires a < U32_MOD && b < U32_MOD
    ensures HexText(a) == HexText(b) <==> a == b
  {
    HexTextReadsBack(a);
    HexTextReadsBack(b);
  }

  /** The digit loop of `PrintNumber(value, color)`: `i` runs over 28, 24,
      ..., 0, the nibble is never negative so the `ch >= 0` branch is always
      taken, and the buffer ends up holding the eight digits of `value`. */
  method NumberDigits(value: nat) returns (buffer: string)
    requires value < U32_MOD
    ensures buffer == HexText(value)
  {
    buffer := [];
    var i: int := 28;
    while i >= 0
      invariant 0 <= |buffer| <= 8 && i == 28 - 4 * |buffer|
      invariant buffer == HexText(value)[..|buffer|]
    {
      var ch: int := Nibble(value, i);
      if ch >= 0 {
        ch := ch + '0' as int;
        if ch > '9' as int {
          ch := ch + 7;
        }
        buffer := buffer + [ch as char];
      }
      i := i - 4;
    }
  }

  lemma HexTextHasNoNewline(value: nat)
    ensures NEWLINE !in HexText(value)
  {
    HexTextIsHex(value);
  }

  /** `PrintNumber(value, color)` at cursor `cur`: eight cells along the
      cursor's row holding digits that read back as `value`, most
      significant first, and the cursor eight columns further on. */
  method PrintNumber(value: nat, color: bv32, cur: Cursor) returns (writes: seq<CellWrite>, after: Cursor)
    requires value < U32_MOD
    ensures after == Cursor(cur.x, cur.y + 8)
    ensures exists digits: string ::
      && |digits| == 8 && ReadHex(digits) == value
      && (forall k :: 0 <= k < 8 ==> IsHexDigit(digits[k]))
      && writes == seq(8, k requires 0 <= k < 8 => CellAt(cur.x, cur.y + k, digits[k], color))
  {
    var buffer := NumberDigits(value);
    HexTextReadsBack(value);
    HexTextHasNoNewline(value);
    PrintLine(buffer, color, cur);
    writes, after := Print(buffer, color, cur).0, Print(buffer, color, cur).1;
  }
}

=== FILE: defs.dfy ===
/**
 * Record layouts and constants of the kernel's shared header (code/kernel/defs.h).
 *
 * Hardware words are bit-vectors (`bv8`, `bv16`, `bv32`) so that the C
 * operators `&`, `|`, `<<`, `>>` keep their meaning; counts and indices are
 * `nat`.
 */
module Defs {

  /** A value that may be absent. */
  datatype Option<T> = None | Some(value: T)

  /** Unsigned 32-bit wrap-around of an address computation. */
  const U32_MOD: nat := 0x1_0000_0000

  function U32(x: int): (r: nat)
    ensures r < U32_MOD
    ensures 0 <= x < U32_MOD ==> r == x
  {
    x % U32_MOD
  }

  /* ---------------------------------------------------------------------
   * Sizes and base addresses
   * ------------------------------------------------------------------- */

  /** Capacity of the process table. */
  const MAX_TASKS: nat := 10
  /** Entries in each process's local descriptor table. */
  const LDT_SIZE: nat := 2
  /** Number of interrupt gates. */
  const IDT_SIZE: nat := 256
  /** Number of GDT slots the array `gdt[GDT_SIZE]` holds: the five fixed
      slots followed by one LDT descriptor per process slot. */
  const GDT_ENTRIES: nat := 5 + MAX_TASKS
  /** Linear address at which the boot loader places the kernel image. */
  const KERNEL_BASE: bv32 := 0x90000
  /** Physical address of the shared page table of the identity map
      (`PAGE_TABLE_BASE + KERNEL_BASE`). */
  const PAGE_TABLE_PBASE: nat := 0x71000 + 0x90000
  /** Physical address of the shared page directory of the identity map. */
  const PAGE_DIR_PBASE: nat := 0x70000 + 0x90000

  /* ---------------------------------------------------------------------
   * Selectors: index << 3 | TI << 2 | RPL (section 3.4.2 of the Intel 64 and
   * IA-32 Architectures Software Developer's Manual, Volume 3A)
   * ------------------------------------------------------------------- */

  const INDEX_DUMMY: bv16 := 0
  const INDEX_FLAT_C: bv16 := 1
  const INDEX_FLAT_RW: bv16 := 2
  const INDEX_VIDEO: bv16 := 3
  const INDEX_TSS: bv16 := 4
  const INDEX_LDT_FIRST: bv16 := 5

  const SELECTOR_DUMMY: bv16 := 0
  const SELECTOR_FLAT_C: bv16 := 0x08
  const SELECTOR_FLAT_RW: bv16 := 0x10
  const SELECTOR_VIDEO: bv16 := 0x18 + 3
  const SELECTOR_TSS: bv16 := 0x20
  const SELECTOR_LDT_FIRST: bv16 := 0x28 + 3

  const SA_RPL_MASK: bv16 := 0xfffc
  const SA_RPL3: bv16 := 3
  const SA_TI_MASK: bv16 := 0xfffb
  const SA_TIG: bv16 := 0
  const SA_TIL: bv16 := 4

  /** Builds a selector from its three fields. */
  function MakeSelector(index: bv16, ti: bv16, rpl: bv16): (s: bv16)
    requires index < 0x2000 && ti < 2 && rpl < 4
    ensures SelectorIndex(s) == index && SelectorTi(s) == ti && SelectorRpl(s) == rpl
  {
    (index << 3) | (ti << 2) | rpl
  }

  /** Descriptor-table index held in bits 3..15 of a selector. */
  function SelectorIndex(s: bv16): bv16 { s >> 3 }
  /** Table indicator, bit 2 of a selector: 0 = GDT, 1 = LDT. */
  function SelectorTi(s: bv16): bv16 { (s >> 2) & 1 }
  /** Requested privilege level, bits 0..1 of a selector. */
  function SelectorRpl(s: bv16): bv16 { s & 3 }

  /** Every selector is rebuilt from its three fields. */
  lemma SelectorFieldsDetermineSelector(s: bv16)
    ensures MakeSelector(SelectorIndex(s), SelectorTi(s), SelectorRpl(s)) == s
  {
  }

  /** Each selector constant is its table slot shifted left by three plus its
      privilege level; all of them point into the GDT. */
  lemma SelectorConstantsMatchSlots()
    ensures SELECTOR_DUMMY == MakeSelector(INDEX_DUMMY, SA_TIG, 0)
    ensures SELECTOR_FLAT_C == MakeSelector(INDEX_FLAT_C, SA_TIG, 0)
    ensures SELECTOR_FLAT_RW == MakeSelector(INDEX_FLAT_RW, SA_TIG, 0)
    ensures SELECTOR_VIDEO == MakeSelector(INDEX_VIDEO, SA_TIG, 3)
    ensures SELECTOR_TSS == MakeSelector(INDEX_TSS, SA_TIG, 0)
    ensures SELECTOR_LDT_FIRST == MakeSelector(INDEX_LDT_FIRST, SA_TIG, 3)
  {
  }

  /** `SA_RPL_MASK` clears exactly the privilege bits. */
  lemma RplMaskClearsRpl(s: bv16)
    ensures SelectorRpl(s & SA_RPL_MASK) == 0
    ensures SelectorIndex(s & SA_RPL_MASK) == SelectorIndex(s)
    ensures SelectorTi(s & SA_RPL_MASK) == SelectorTi(s)
  {
  }

  /** `SA_TI_MASK` clears exactly the table indicator. */
  lemma TiMaskClearsTi(s: bv16)
    ensures SelectorTi(s & SA_TI_MASK) == 0
    ensures SelectorIndex(s & SA_TI_MASK) == SelectorIndex(s)
    ensures SelectorRpl(s & SA_TI_MASK) == SelectorRpl(s)
  {
  }

  /** Or-ing `SA_TIL` selects the LDT and leaves the other fields alone. */
  lemma TilSetsTi(s: bv16)
    ensures SelectorTi(s | SA_TIL) == 1
    ensures SelectorIndex(s | SA_TIL) == SelectorIndex(s)
    ensures SelectorRpl(s | SA_TIL) == SelectorRpl(s)
  {
  }

  /* ---------------------------------------------------------------------
   * Descriptor attributes (section 3.4.5 of the same manual). The low byte
   * is the access byte; bits 12..15 are the flags nibble (AVL, L, D/B, G).
   * ------------------------------------------------------------------- */

  const DA_32: bv16 := 0x4000
  const DA_LIMIT_4K: bv16 := 0x8000
  const DA_DPL0: bv16 := 0x00
  const DA_DPL1: bv16 := 0x20
  const DA_DPL2: bv16 := 0x40
  const DA_DPL3: bv16 := 0x60
  const DA_DRW: bv16 := 0x92
  const DA_C: bv16 := 0x98
  const DA_CR: bv16 := 0x9A
  const DA_LDT: bv16 := 0x82
  const DA_386TSS: bv16 := 0x89
  const DA_386IGate: bv8 := 0x8E

  /** Descriptor privilege level, bits 5..6 of the access byte. */
  function AttrDpl(attr: bv16): bv16 { (attr >> 5) & 3 }

  /** `DA_DPLn` is n in the DPL field and nothing else. */
  lemma DplConstants()
    ensures DA_DPL0 == 0 << 5 && DA_DPL1 == 1 << 5 && DA_DPL2 == 2 << 5 && DA_DPL3 == 3 << 5
    ensures AttrDpl(DA_DPL0) == 0 && AttrDpl(DA_DPL1) == 1 && AttrDpl(DA_DPL2) == 2 && AttrDpl(DA_DPL3) == 3
  {
  }

  /* ---------------------------------------------------------------------
   * Page-table entry flags (section 4.3 of the same manual)
   * ------------------------------------------------------------------- */

  const PAGE_P: bv32 := 1
  const PAGE_W: bv32 := 2
  const PAGE_U: bv32 := 4
  /** `PAGE_P | PAGE_U | PAGE_W` as a number: present, user, writable. */
  const PAGE_FLAGS: nat := 7

  lemma PageFlagsValue()
    ensures (PAGE_P | PAGE_U | PAGE_W) == 7 && PAGE_FLAGS == 7
  {
  }

  /* ---------------------------------------------------------------------
   * Records
   * ------------------------------------------------------------------- */

  /** A segment descriptor in its eight-byte hardware layout. */
  datatype Descriptor = Descriptor(
    limitLow: bv16, baseLow: bv16, baseMid: bv8,
    attr1: bv8, limitHighAttr2: bv8, baseHigh: bv8)

  /** The all-zero descriptor the C tables start out with. */
  const NullDescriptor := Descriptor(0, 0, 0, 0, 0, 0)

  /** An interrupt gate in its eight-byte hardware layout. */
  datatype Gate = Gate(offsetLow: bv16, selector: bv16, dcount: bv8, attr: bv8, offsetHigh: bv16)

  /** One entry of the firmware memory map. */
  datatype AddressRangeDescriptor = AddressRangeDescriptor(
    baseAddrLow: bv32, baseAddrHigh: bv32, lengthLow: bv32, lengthHigh: bv32, rangeType: bv32)

  /** Saved registers of a process, lowest address first. */
  datatype StackFrame = StackFrame(
    gs: bv32, fs: bv32, es: bv32, ds: bv32,
    edi: bv32, esi: bv32, ebp: bv32, espKernel: bv32,
    ebx: bv32, edx: bv32, ecx: bv32, eax: bv32,
    eip: bv32, cs: bv32, eflags: bv32, esp: bv32, ss: bv32)

  const ZeroFrame := StackFrame(0, 0, 0, 0, 0, 0, 0, 0, 0, 0, 0, 0, 0, 0, 0, 0, 0)

  /** A process control block. The paged build adds `pageDirBase`; the flat
      build's record has no such field and this model leaves it 0 there. */
  datatype Pcb = Pcb(
    regs: StackFrame, ldtSelector: bv16, ldts: seq<Descriptor>,
    pid: nat, tick: nat, priority: nat, pageDirBase: nat)

  /** The zero-initialised process table entry. */
  const ZeroPcb := Pcb(ZeroFrame, 0, [NullDescriptor, NullDescriptor], 0, 0, 0, 0)

  /** The 32-bit task-state segment. */
  datatype Tss = Tss(
    backlink: bv32, esp0: bv32, ss0: bv32, esp1: bv32, ss1: bv32, esp2: bv32, ss2: bv32,
    cr3: bv32, eip: bv32, flags: bv32, eax: bv32, ecx: bv32, edx: bv32, ebx: bv32,
    esp: bv32, ebp: bv32, esi: bv32, edi: bv32, es: bv32, cs: bv32, ss: bv32,
    ds: bv32, fs: bv32, gs: bv32, ldt: bv32, trap: bv16, iobase: bv16)

  const ZeroTss := Tss(0, 0, 0, 0, 0, 0, 0, 0, 0, 0, 0, 0, 0, 0, 0, 0, 0, 0, 0, 0, 0, 0, 0, 0, 0, 0, 0)

  /** The `PROCESS_*` constants of the paged build. Its header is not part of
      this model, so they are parameters; each lemma states what it needs of
      them. `pdeStart`/`pteStart` are the page directory and page tables of
      process 0, `pteSize` the distance between consecutive processes' paging
      areas, `psize` the distance between their physical images and `pstart`
      the image of process 0; `startSector`/`totalSector` place the process
      images on disk and `loadBuffer` is where they are read to. */
  datatype ProcessLayout = ProcessLayout(
    pdeStart: nat, pteStart: nat, pteSize: nat, psize: nat, pstart: nat,
    startSector: nat, totalSector: nat, loadBuffer: nat)

  /** The boot-time template of one task of the flat build. */
  datatype Task = Task(eip: bv32, stackBase: bv32, stackSize: bv32, priority: nat)

  /* ---------------------------------------------------------------------
   * Byte layouts: the width of each field, in declaration order
   * ------------------------------------------------------------------- */

  /** Total width of the fields. */
  function SizeOf(widths: seq<nat>): nat
  {
    if widths == [] then 0 else widths[0] + SizeOf(widths[1..])
  }

  /** Byte offset of field `k` from the start of the record. */
  function OffsetOf(widths: seq<nat>, k: nat): nat
    requires k <= |widths|
  {
    SizeOf(widths[..k])
  }

  /** Every field starts at a multiple of its own width, so a C compiler
      inserts no padding and `sizeof` is the sum of the widths. */
  predicate NaturallyAligned(widths: seq<nat>)
  {
    forall k :: 0 <= k < |widths| ==> widths[k] > 0 && OffsetOf(widths, k) % widths[k] == 0
  }

  /** `n` fields of width `w`. */
  function Uniform(n: nat, w: nat): seq<nat>
  {
    seq(n, _ => w)
  }

  /** limitLow, baseLow: u16; baseMid, attr1, limitHighAttr2, baseHigh: u8. */
  const DescriptorLayout: seq<nat> := Uniform(2, 2) + Uniform(4, 1)
  /** offsetLow, selector: u16; dcount, attr: u8; offsetHigh: u16. */
  const GateLayout: seq<nat> := [2, 2, 1, 1, 2]
  /** BaseAddrLow, BaseAddrHigh, LengthLow, LengthHigh, Type: u32. */
  const AddressRangeLayout: seq<nat> := Uniform(5, 4)
  /** gs, fs, es, ds, edi, esi, ebp, espKernel, ebx, edx, ecx, eax, eip, cs,
      eflags, esp, ss: u32. */
  const StackFrameLayout: seq<nat> := Uniform(17, 4)
  /** backlink, esp0, ss0, esp1, ss1, esp2, ss2, cr3, eip, flags, eax, ecx,
      edx, ebx, esp, ebp, esi, edi, es, cs, ss, ds, fs, gs, ldt: u32; trap,
      iobase: u16. */
  const TssLayout: seq<nat> := Uniform(25, 4) + [2, 2]
  /** Field numbers of `esp0` and `ss0` in `TssLayout`. */
  const TSS_ESP0_FIELD: nat := 1
  const TSS_SS0_FIELD: nat := 2

  /** `sizeof(TSS)`, the value `SetupTSS` stores in `iobase`. */
  const TSS_SIZE: nat := 104
  /** `sizeof(StackFrame)`, the distance from a PCB to its ring-0 stack top. */
  const STACK_FRAME_SIZE: nat := 68

  lemma {:induction false} SizeOfAppend(a: seq<nat>, b: seq<nat>)
    ensures SizeOf(a + b) == SizeOf(a) + SizeOf(b)
  {
    if a == [] {
      assert a + b == b;
    } else {
      assert (a + b)[1..] == a[1..] + b;
      SizeOfAppend(a[1..], b);
    }
  }

  lemma {:induction false} UniformSize(n: nat, w: nat)
    ensures SizeOf(Uniform(n, w)) == w * n
  {
    if n > 0 {
      assert Uniform(n, w)[1..] == Uniform(n - 1, w);
      UniformSize(n - 1, w);
    }
  }

  /** In a run of equal-width fields, field `k` sits at `w * k`. */
  lemma UniformOffsets(n: nat, w: nat)
    ensures forall k :: 0 <= k <= n ==> OffsetOf(Uniform(n, w), k) == w * k
  {
    forall k | 0 <= k <= n
      ensures OffsetOf(Uniform(n, w), k) == w * k
    {
      assert Uniform(n, w)[..k] == Uniform(k, w);
      UniformSize(k, w);
    }
  }

  /** Offsets in a concatenation: the second part is shifted by the size of
      the first. */
  lemma OffsetOfAppend(a: seq<nat>, b: seq<nat>, k: nat)
    requires k <= |a| + |b|
    ensures k <= |a| ==> OffsetOf(a + b, k) == OffsetOf(a, k)
    ensures k >= |a| ==> OffsetOf(a + b, k) == SizeOf(a) + OffsetOf(b, k - |a|)
  {
    if k <= |a| {
      assert (a + b)[..k] == a[..k];
    }
    if k >= |a| {
      assert (a + b)[..k] == a + b[..k - |a|];
      SizeOfAppend(a, b[..k - |a|]);
    }
  }

  /** Descriptors and gates are the eight bytes the CPU reads per table slot. */
  lemma DescriptorAndGateAreEightBytes()
    ensures SizeOf(DescriptorLayout) == 8 && NaturallyAligned(DescriptorLayout)
    ensures SizeOf(GateLayout) == 8 && NaturallyAligned(GateLayout)
  {
    var halves, bytes := Uniform(2, 2), Uniform(4, 1);
    UniformSize(2, 2);
    UniformSize(4, 1);
    UniformOffsets(2, 2);
    UniformOffsets(4, 1);
    SizeOfAppend(halves, bytes);
    forall k | 0 <= k < |DescriptorLayout|
      ensures DescriptorLayout[k] > 0 && OffsetOf(DescriptorLayout, k) % DescriptorLayout[k] == 0
    {
      OffsetOfAppend(halves, bytes, k);
    }
    assert GateLayout == Uniform(2, 2) + [1, 1, 2];
    SizeOfAppend(halves, [1, 1, 2]);
    forall k | 0 <= k < |GateLayout|
      ensures GateLayout[k] > 0 && OffsetOf(GateLayout, k) % GateLayout[k] == 0
    {
      OffsetOfAppend(halves, [1, 1, 2], k);
      if k == 4 {
        assert [1, 1, 2][..2] == [1, 1];
      }
    }
  }

  /** A run of equal fields of width 1, 2 or 4 needs no padding. */
  lemma UniformAligned(n: nat, w: nat)
    requires w == 1 || w == 2 || w == 4
    ensures NaturallyAligned(Uniform(n, w))
  {
    UniformOffsets(n, w);
    forall k | 0 <= k < n
      ensures OffsetOf(Uniform(n, w), k) % w == 0
    {
      if w == 1 {
        assert OffsetOf(Uniform(n, w), k) == k;
      } else if w == 2 {
        assert OffsetOf(Uniform(n, w), k) == 2 * k;
      } else {
        assert OffsetOf(Uniform(n, w), k) == 4 * k;
      }
    }
  }

  /** A memory-map entry is the 20 bytes the E820 call is asked for in ECX. */
  lemma AddressRangeIsTwentyBytes()
    ensures SizeOf(AddressRangeLayout) == 20 && NaturallyAligned(AddressRangeLayout)
  {
    UniformSize(5, 4);
    UniformAligned(5, 4);
  }

  /** A saved frame is 17 words. */
  lemma StackFrameIsSeventeenWords()
    ensures |StackFrameLayout| == 17 && SizeOf(StackFrameLayout) == STACK_FRAME_SIZE
    ensures NaturallyAligned(StackFrameLayout)
  {
    UniformSize(17, 4);
    UniformAligned(17, 4);
  }

  /** Field `k` of the TSS sits at `4 * k` up to `trap` (field 25), and
      `iobase` at 102. */
  lemma TssOffsets(k: nat)
    requires k < |TssLayout|
    ensures OffsetOf(TssLayout, k) == if k < 26 then 4 * k else 102
  {
    var words, halves := Uniform(25, 4), [2, 2];
    assert TssLayout == words + halves;
    OffsetOfAppend(words, halves, k);
    UniformSize(25, 4);
    if k < 25 {
      UniformOffsets(25, 4);
    } else if k == 25 {
      assert halves[..0] == [];
    } else {
      assert halves[..1] == [2];
    }
  }

  /** The TSS is 104 bytes with `esp0` at offset 4 and `ss0` at offset 8
      (section 7.2.1 of the same manual). */
  lemma TssLayoutFacts()
    ensures SizeOf(TssLayout) == TSS_SIZE && NaturallyAligned(TssLayout)
    ensures OffsetOf(TssLayout, TSS_ESP0_FIELD) == 4 && OffsetOf(TssLayout, TSS_SS0_FIELD) == 8
  {
    UniformSize(25, 4);
    SizeOfAppend(Uniform(25, 4), [2, 2]);
    assert SizeOf([2, 2]) == 4 by {
      assert [2, 2][1..][1..] == [];
    }
    forall k | 0 <= k < |TssLayout|
      ensures TssLayout[k] > 0 && OffsetOf(TssLayout, k) % TssLayout[k] == 0
    {
      TssOffsets(k);
    }
    TssOffsets(1);
    TssOffsets(2);
  }

  /* ---------------------------------------------------------------------
   * Memory and disk contents
   * ------------------------------------------------------------------- */

  /** The bytes in a disk sector: the loader's one-sector BIOS reads and the
      kernel's 256-word port reads both move this many. */
  const SECTOR_BYTES: nat := 512

  /** Address `k` lies outside the `n` bytes from `lo`. */
  predicate Outside(k: nat, lo: nat, n: nat)
  {
    k < lo || lo + n <= k
  }

  /** The `n` bytes of `mem` from `at` are the `n` bytes of `src` from
      `from`. */
  predicate Holds(mem: seq<bv8>, at: nat, src: seq<bv8>, from: nat, n: nat)
  {
    && at + n <= |mem| && from + n <= |src|
    && forall k :: at <= k < at + n ==> mem[k] == src[from + (k - at)]
  }

  /** Memory after disk sector `sector` is stored at address `addr`. */
  function StoreSector(disk: seq<bv8>, mem: seq<bv8>, sector: nat, addr: nat): (m: seq<bv8>)
    requires (sector + 1) * SECTOR_BYTES <= |disk| && addr + SECTOR_BYTES <= |mem|
    ensures |m| == |mem|
    ensures Holds(m, addr, disk, sector * SECTOR_BYTES, SECTOR_BYTES)
    ensures forall k :: 0 <= k < |mem| && Outside(k, addr, SECTOR_BYTES) ==> m[k] == mem[k]
  {
    mem[..addr] + disk[sector * SECTOR_BYTES..(sector + 1) * SECTOR_BYTES] + mem[addr + SECTOR_BYTES..]
  }
}

=== FILE: descriptors.dfy ===
/**
 * Packing of segment descriptors and interrupt gates into their eight-byte
 * hardware layouts (`SetDesEntry`, `SetIdtEntry`), and the decoders the CPU
 * applies to them (sections 3.4.5 and 6.11 of the Intel 64 and IA-32
 * Architectures Software Developer's Manual, Volume 3A).
 */
module Descriptors {
  import opened Defs

  /* ---------------------------------------------------------------------
   * Segment descriptors
   * ------------------------------------------------------------------- */

  /** The 32-bit base the CPU reassembles from bytes 2, 3, 4 and 7. */
  function DescriptorBase(d: Descriptor): bv32
  {
    (d.baseLow as bv32) | ((d.baseMid as bv32) << 16) | ((d.baseHigh as bv32) << 24)
  }

  /** The 20-bit limit held in bytes 0, 1 and the low nibble of byte 6. */
  function DescriptorLimit(d: Descriptor): bv32
  {
    (d.limitLow as bv32) | (((d.limitHighAttr2 & 0xF) as bv32) << 16)
  }

  /** The attribute word as the `DA_*` constants spell it: the access byte in
      bits 0..7 and the flags nibble (byte 6, high half) in bits 12..15. */
  function DescriptorAttr(d: Descriptor): bv16
  {
    (d.attr1 as bv16) | (((d.limitHighAttr2 >> 4) as bv16) << 12)
  }

  /** Granularity flag G: the limit counts 4 KiB units. */
  predicate Granular4K(d: Descriptor) { d.limitHighAttr2 & 0x80 != 0 }

  /** Default-size flag D/B: a 32-bit segment. */
  predicate Default32(d: Descriptor) { d.limitHighAttr2 & 0x40 != 0 }

  /** Descriptor privilege level. */
  function Dpl(d: Descriptor): bv8 { (d.attr1 >> 5) & 3 }

  /** Highest byte offset the segment admits. */
  function ByteLimit(d: Descriptor): nat
  {
    var limit := DescriptorLimit(d) as nat;
    if Granular4K(d) then limit * 4096 + 4095 else limit
  }

  /** `SetDesEntry(des, base, limit, attr)`. The base comes back whole, the
      limit keeps its low 20 bits, and the attribute word keeps everything but
      bits 8..11; the limit nibble and the flags nibble share byte 6 without
      overlapping. */
  function SetDesEntry(base: bv32, limit: bv32, attr: bv16): (d: Descriptor)
    ensures DescriptorBase(d) == base
    ensures DescriptorLimit(d) == limit & 0xFFFFF
    ensures DescriptorAttr(d) == attr & 0xF0FF
  {
    Descriptor(
      limitLow := (limit & 0xFFFF) as bv16,
      baseLow := (base & 0xFFFF) as bv16,
      baseMid := ((base >> 16) & 0xFF) as bv8,
      attr1 := (attr & 0xFF) as bv8,
      limitHighAttr2 := ((((attr & 0xF000) >> 8) as bv32) | ((limit & 0xF0000) >> 16)) as bv8,
      baseHigh := ((base >> 24) & 0xFF) as bv8)
  }

  /** Byte 5 is the low attribute byte; byte 6 holds attribute bits 12..15
      in its high nibble and limit bits 16..19 in its low nibble, so the two
      never overlap and attribute bits 8..11 are dropped. */
  lemma SetDesEntryByteSix(base: bv32, limit: bv32, attr: bv16)
    ensures SetDesEntry(base, limit, attr).attr1 as bv16 == attr & 0xFF
    ensures (SetDesEntry(base, limit, attr).limitHighAttr2 >> 4) as bv16 == (attr >> 12) & 0xF
    ensures (SetDesEntry(base, limit, attr).limitHighAttr2 & 0xF) as bv32 == (limit >> 16) & 0xF
  {
  }

  /** Every descriptor is what `SetDesEntry` makes of its own decoded fields,
      so the three decoders lose nothing the packer stores. */
  lemma DescriptorIsPackedFromItsFields(d: Descriptor)
    ensures SetDesEntry(DescriptorBase(d), DescriptorLimit(d), DescriptorAttr(d)) == d
  {
  }

  /** Two calls of `SetDesEntry` give the same descriptor exactly when they
      agree on the base, on the low 20 bits of the limit, and on the attribute
      word outside bits 8..11. */
  lemma SetDesEntryEqualIff(b1: bv32, l1: bv32, a1: bv16, b2: bv32, l2: bv32, a2: bv16)
    ensures SetDesEntry(b1, l1, a1) == SetDesEntry(b2, l2, a2)
        <==> b1 == b2 && l1 & 0xFFFFF == l2 & 0xFFFFF && a1 & 0xF0FF == a2 & 0xF0FF
  {
    var d1, d2 := SetDesEntry(b1, l1, a1), SetDesEntry(b2, l2, a2);
    if d1 == d2 {
      assert DescriptorBase(d1) == DescriptorBase(d2);
    } else if b1 == b2 && l1 & 0xFFFFF == l2 & 0xFFFFF && a1 & 0xF0FF == a2 & 0xF0FF {
      DescriptorIsPackedFromItsFields(d1);
      DescriptorIsPackedFromItsFields(d2);
    }
  }

  /** `DA_32` and `DA_LIMIT_4K` (attribute bits 14 and 15) land in bits 6 and
      7 of byte 6, the D/B and G flags; attribute bits 5..6 are the DPL. */
  lemma FlagBitsLandInByteSix(base: bv32, limit: bv32, attr: bv16)
    ensures Default32(SetDesEntry(base, limit, attr)) <==> attr & DA_32 != 0
    ensures Granular4K(SetDesEntry(base, limit, attr)) <==> attr & DA_LIMIT_4K != 0
    ensures Dpl(SetDesEntry(base, limit, attr)) as bv16 == AttrDpl(attr)
  {
  }

  /* ---------------------------------------------------------------------
   * Interrupt gates
   * ------------------------------------------------------------------- */

  /** The handler offset the CPU reassembles from bytes 0, 1, 6 and 7. */
  function GateOffset(g: Gate): bv32
  {
    (g.offsetLow as bv32) | ((g.offsetHigh as bv32) << 16)
  }

  /** `SetIdtEntry(pGate, selector, offset, dcount, attr)`: the offset comes
      back whole, selector and attribute are stored as given, and the
      parameter count keeps its low five bits. */
  function SetIdtEntry(selector: bv16, offset: bv32, dcount: bv8, attr: bv8): (g: Gate)
    ensures GateOffset(g) == offset
    ensures g.selector == selector && g.attr == attr
    ensures g.dcount == dcount & 0x1F
  {
    Gate(
      offsetLow := (offset & 0xFFFF) as bv16,
      selector := selector,
      dcount := dcount & 0x1F,
      attr := attr & 0xFF,
      offsetHigh := ((offset >> 16) & 0xFFFF) as bv16)
  }

  /** Every gate whose count field fits in five bits is what `SetIdtEntry`
      makes of its own fields. */
  lemma GateIsPackedFromItsFields(g: Gate)
    requires g.dcount < 0x20
    ensures SetIdtEntry(g.selector, GateOffset(g), g.dcount, g.attr) == g
  {
  }
}

=== FILE: exceptions.dfy ===
/**
 * The protected-mode exception path of code/kernel/exception.c: sixteen
 * assembly entry stubs push an error word and the exception number and
 * jump to a common tail that calls `ExceptionHandler`, which prints what
 * happened and where, and then halts.
 *
 * The stack is a sequence of 32-bit words with the top (lowest address)
 * first.
 */
module Exceptions {
  import opened Defs
  import opened Console
  import opened Arith

  /** The word a stub pushes in place of an error code the CPU does not
      supply. */
  const SENTINEL: bv32 := 0xffffffff

  /** The exception numbers that have a stub: 0 to 14, and 16 (vector 15
      is reserved). */
  predicate HasStub(id: nat)
  {
    id <= 16 && id != 15
  }

  /** Whether the processor pushes an error code when it delivers exception
      `vector` (0 to 19), per Table 6-1 of the Intel 64 and IA-32
      Architectures Software Developer's Manual, Volume 3A: #DF, #TS, #NP,
      #SS, #GP, #PF and #AC do. */
  predicate CpuPushesErrorCode(vector: nat)
  {
    vector == 8 || 10 <= vector <= 14 || vector == 17
  }

  /** The words the stub for `id` pushes, in the order it pushes them: the
      stubs of 8 and 10 to 14 push only their number; every other stub first
      pushes the sentinel. */
  function StubPushes(id: nat): seq<bv32>
    requires HasStub(id)
  {
    if id == 8 || 10 <= id <= 14 then [id as bv32] else [SENTINEL, id as bv32]
  }

  /** Push `words` onto `stack` one after the other. */
  function PushAll(stack: seq<bv32>, words: seq<bv32>): (r: seq<bv32>)
    ensures |r| == |stack| + |words|
    decreases |words|
  {
    if words == [] then stack else PushAll([words[0]] + stack, words[1..])
  }

  /** What the processor pushes on entry through an interrupt gate without a
      privilege change: EFLAGS, CS, EIP and, for some vectors, an error
      code. */
  function CpuEntry(vector: nat, err: bv32, eip: bv32, cs: bv32, eflags: bv32, stack: seq<bv32>): seq<bv32>
  {
    PushAll(stack, [eflags, cs, eip] + (if CpuPushesErrorCode(vector) then [err] else []))
  }

  /** The five arguments `ExceptionHandler(id, err, eip, cs, eflags)`
      receives from a `call` made with `stack` on top: the cdecl convention
      puts argument k in the k-th word above the return address. */
  datatype HandlerArgs = HandlerArgs(id: bv32, err: bv32, eip: bv32, cs: bv32, eflags: bv32)

  function ArgsAtCall(stack: seq<bv32>): HandlerArgs
    requires |stack| >= 5
  {
    HandlerArgs(stack[0], stack[1], stack[2], stack[3], stack[4])
  }

  /** A stub pushes the sentinel exactly when the processor supplies no
      error code for its vector, so every stub leaves two words above the
      processor's frame. */
  lemma StubPushesSentinelIffNoErrorCode(id: nat)
    requires HasStub(id)
    ensures SENTINEL in StubPushes(id) <==> !CpuPushesErrorCode(id)
    ensures |StubPushes(id)| + (if CpuPushesErrorCode(id) then 1 else 0) == 2
  {
  }

  /** Taking exception `id` and running its stub hands `ExceptionHandler`
      the exception number, the processor's error code or the sentinel when
      there is none, and the faulting EIP, CS and EFLAGS; and once `addl
      $0x8, %esp` drops the number and the error word, the stack holds
      exactly the processor's return frame again. */
  lemma StubDeliversFrame(id: nat, err: bv32, eip: bv32, cs: bv32, eflags: bv32, stack: seq<bv32>)
    requires HasStub(id)
    ensures var top := PushAll(CpuEntry(id, err, eip, cs, eflags, stack), StubPushes(id));
      && ArgsAtCall(top) == HandlerArgs(id as bv32, if CpuPushesErrorCode(id) then err else SENTINEL, eip, cs, eflags)
      && top[2..] == [eip, cs, eflags] + stack
  {
    if CpuPushesErrorCode(id) {
      StubAfterErrorCode(id, err, eip, cs, eflags, stack);
    } else {
      StubWithoutErrorCode(id, err, eip, cs, eflags, stack);
    }
  }

  lemma StubAfterErrorCode(id: nat, err: bv32, eip: bv32, cs: bv32, eflags: bv32, stack: seq<bv32>)
    requires HasStub(id) && CpuPushesErrorCode(id)
    ensures PushAll(CpuEntry(id, err, eip, cs, eflags, stack), StubPushes(id)) == [id as bv32, err, eip, cs, eflags] + stack
  {
    assert [eflags, cs, eip] + [err] == [eflags, cs, eip, err];
    PushFour(stack, eflags, cs, eip, err);
    PushOne([err, eip, cs, eflags] + stack, id as bv32);
  }

  lemma StubWithoutErrorCode(id: nat, err: bv32, eip: bv32, cs: bv32, eflags: bv32, stack: seq<bv32>)
    requires HasStub(id) && !CpuPushesErrorCode(id)
    ensures PushAll(CpuEntry(id, err, eip, cs, eflags, stack), StubPushes(id)) == [id as bv32, SENTINEL, eip, cs, eflags] + stack
  {
    assert [eflags, cs, eip] + [] == [eflags, cs, eip];
    PushThree(stack, eflags, cs, eip);
    PushTwo([eip, cs, eflags] + stack, SENTINEL, id as bv32);
  }

  lemma PushOne(stack: seq<bv32>, a: bv32)
    ensures PushAll(stack, [a]) == [a] + stack
  {
    assert [a][1..] == [];
  }

  lemma PushTwo(stack: seq<bv32>, a: bv32, b: bv32)
    ensures PushAll(stack, [a, b]) == [b, a] + stack
  {
    assert [a, b][1..] == [b];
    PushOne([a] + stack, b);
    assert [b] + ([a] + stack) == [b, a] + stack;
  }

  lemma PushThree(stack: seq<bv32>, a: bv32, b: bv32, c: bv32)
    ensures PushAll(stack, [a, b, c]) == [c, b, a] + stack
  {
    assert [a, b, c][1..] == [b, c];
    PushTwo([a] + stack, b, c);
    assert [c, b] + ([a] + stack) == [c, b, a] + stack;
  }

  lemma PushFour(stack: seq<bv32>, a: bv32, b: bv32, c: bv32, d: bv32)
    ensures PushAll(stack, [a, b, c, d]) == [d, c, b, a] + stack
  {
    assert [a, b, c, d][1..] == [b, c, d];
    PushThree([a] + stack, b, c, d);
    assert [d, c, b] + ([a] + stack) == [d, c, b, a] + stack;
  }

  /* ---------------------------------------------------------------------
   * ExceptionHandler
   * ------------------------------------------------------------------- */

  /** The message table, indexed by exception number. */
  const ErrorMessages: seq<string> := [
    "#DE Divide Error",
    "#DB RESERVED",
    "--- NMI Interrupt",
    "#BP Breakpoint",
    "#OF Overflow",
    "#BR BOUND Range Exceeded",
    "#UD Invalid Opcode (Undefined Opcode)",
    "#NM Device Not Available (No Math Coprocessor)",
    "#DF Double Fault",
    "--- Coprocessor Segment Overrun (reserved)",
    "#TS Invalid TSS",
    "#NP Segment Not Present",
    "#SS Stack-Segment Fault",
    "#GP General Protection",
    "#PF Page Fault",
    "--- (Intel reserved. Do not use.)",
    "#MF x87 FPU Floating-Point Error (Math Fault)",
    "#AC Alignment Check",
    "#MC Machine Check",
    "#XF SIMD Floating-Point Exception"
  ]

  /** Every stub's number selects a message. */
  lemma StubsHaveMessages()
    ensures |ErrorMessages| == 20
    ensures forall id: nat :: HasStub(id) ==> id < |ErrorMessages|
  {
  }

  /** `F_Red | L_Light` and `F_White | L_Light`. */
  const LIGHT_RED: bv32 := 0x400 | 0x800
  const LIGHT_WHITE: bv32 := 0x700 | 0x800

  /** One `Print` call's text and colour. */
  datatype Segment = Segment(text: string, color: bv32)

  function Text(segs: seq<Segment>): string
    decreases |segs|
  {
    if segs == [] then [] else segs[0].text + Text(segs[1..])
  }

  /** The `Print` calls in order, each from where the previous one left the
      cursor. */
  function PrintSegments(segs: seq<Segment>, cur: Cursor): (r: (seq<CellWrite>, Cursor))
    ensures |r.0| + Count(Text(segs), NEWLINE) == |Text(segs)|
    ensures r.1.x == cur.x + Count(Text(segs), NEWLINE)
    decreases |segs|
  {
    if segs == [] then ([], cur)
    else
      var first := Print(segs[0].text, segs[0].color, cur);
      var rest := PrintSegments(segs[1..], first.1);
      CountAppend(segs[0].text, Text(segs[1..]), NEWLINE);
      (first.0 + rest.0, rest.1)
  }

  const BANNER: string := "Error Detected! "
  const EIP_LABEL: string := "\n    eip: "
  const CS_LABEL: string := "\n     cs: "
  const CODE_LABEL: string := "\n   code: "

  /** A label is a newline and nine more characters without one. */
  predicate IsLabel(l: string)
  {
    |l| == 10 && l[0] == NEWLINE && NEWLINE !in l[1..]
  }

  lemma LabelsAreLabels()
    ensures IsLabel(EIP_LABEL) && IsLabel(CS_LABEL) && IsLabel(CODE_LABEL)
    ensures |BANNER| == 16 && NEWLINE !in BANNER
  {
  }

  /** What `ExceptionHandler` prints for message `msg`: the banner and the
      message in light red, then the faulting EIP, CS and the error word,
      each labelled in light red and shown as eight light white hexadecimal
      digits. EFLAGS is received and not shown. */
  function Report(msg: string, err: bv32, eip: bv32, cs: bv32): seq<Segment>
  {
    [ Segment(BANNER, LIGHT_RED), Segment(msg, LIGHT_RED),
      Segment(EIP_LABEL, LIGHT_RED), Segment(HexText(eip as nat), LIGHT_WHITE),
      Segment(CS_LABEL, LIGHT_RED), Segment(HexText(cs as nat), LIGHT_WHITE),
      Segment(CODE_LABEL, LIGHT_RED), Segment(HexText(err as nat), LIGHT_WHITE) ]
  }

  /** `ExceptionHandler(id, err, eip, cs, eflags)` from cursor `cur`: the
      cell writes of its report and the cursor afterwards. */
  function ExceptionHandler(id: nat, err: bv32, eip: bv32, cs: bv32, eflags: bv32, cur: Cursor): (r: (seq<CellWrite>, Cursor))
    requires id < |ErrorMessages|
    ensures var msg := ErrorMessages[id];
      && r.1 == Cursor(cur.x + 3 + Count(msg, NEWLINE), 17)
      && |r.0| + Count(msg, NEWLINE) == 16 + |msg| + 51
  {
    ReportLayout(ErrorMessages[id], err, eip, cs, cur);
    PrintSegments(Report(ErrorMessages[id], err, eip, cs), cur)
  }

  /** The text of eight segments, spelled out. */
  lemma TextOfEight(s: seq<Segment>)
    requires |s| == 8
    ensures Text(s) == s[0].text + (s[1].text + (s[2].text + (s[3].text + (s[4].text + (s[5].text + (s[6].text + s[7].text))))))
  {
    assert s[8..] == [] && s[0..] == s;
    assert s[7].text + Text(s[8..]) == s[7].text;
    TextFrom(s, 7); TextFrom(s, 6); TextFrom(s, 5); TextFrom(s, 4);
    TextFrom(s, 3); TextFrom(s, 2); TextFrom(s, 1); TextFrom(s, 0);
  }

  lemma TextFrom(s: seq<Segment>, k: nat)
    requires k < |s|
    ensures Text(s[k..]) == s[k].text + Text(s[k + 1..])
  {
    assert s[k..][0] == s[k] && s[k..][1..] == s[k + 1..];
  }

  /** Where each part of a report lies in its text: the banner's 16
      characters, the message, and a 54-character tail of three labelled
      eight-digit numbers. */
  lemma ReportSlices(b: string, m: string, l1: string, e: string, l2: string, c: string, l3: string, x: string)
    requires |b| == 16 && |l1| == 10 && |l2| == 10 && |l3| == 10 && |e| == 8 && |c| == 8 && |x| == 8
    ensures var t := b + (m + (l1 + (e + (l2 + (c + (l3 + x))))));
      && |t| == 16 + |m| + 54
      && t[16..|t| - 54] == m
      && t[|t| - 44..|t| - 36] == e
      && t[|t| - 26..|t| - 18] == c
      && t[|t| - 8..] == x
  {
    var tail := l1 + (e + (l2 + (c + (l3 + x))));
    var t := b + (m + tail);
    assert t[16..|t| - 54] == m;
    assert t[|t| - 54..] == tail;
    assert tail[10..18] == e && tail[28..36] == c && tail[46..] == x;
  }

  /** Everything the report shows reads back: the message, and the faulting
      EIP, CS and error word as hexadecimal numbers. */
  lemma ReportReadsBack(msg: string, err: bv32, eip: bv32, cs: bv32)
    ensures var t := Text(Report(msg, err, eip, cs));
      && |t| == 16 + |msg| + 54
      && t[16..|t| - 54] == msg
      && ReadHex(t[|t| - 44..|t| - 36]) == eip as nat
      && ReadHex(t[|t| - 26..|t| - 18]) == cs as nat
      && ReadHex(t[|t| - 8..]) == err as nat
  {
    var r := Report(msg, err, eip, cs);
    TextOfEight(r);
    LabelsAreLabels();
    ReportSlices(BANNER, msg, EIP_LABEL, HexText(eip as nat), CS_LABEL, HexText(cs as nat), CODE_LABEL, HexText(err as nat));
    HexTextReadsBack(eip as nat);
    HexTextReadsBack(cs as nat);
    HexTextReadsBack(err as nat);
  }

  /** The report's text is its eight pieces in order. */
  lemma ReportText(msg: string, err: bv32, eip: bv32, cs: bv32)
    ensures Text(Report(msg, err, eip, cs))
      == BANNER + (msg + (EIP_LABEL + (HexText(eip as nat) + (CS_LABEL + (HexText(cs as nat) + (CODE_LABEL + HexText(err as nat)))))))
  {
    TextOfEight(Report(msg, err, eip, cs));
  }

  /** The report's text holds three newlines more than its message. */
  lemma ReportTextNewlines(msg: string, err: bv32, eip: bv32, cs: bv32)
    ensures Count(Text(Report(msg, err, eip, cs)), NEWLINE) == 3 + Count(msg, NEWLINE)
  {
    ReportText(msg, err, eip, cs);
    LabelsAreLabels();
    HexTextHasNoNewline(eip as nat);
    HexTextHasNoNewline(cs as nat);
    HexTextHasNoNewline(err as nat);
    ReportNewlines(BANNER, msg, EIP_LABEL, HexText(eip as nat), CS_LABEL, HexText(cs as nat), CODE_LABEL, HexText(err as nat));
  }

  /** The report takes three rows more than its message has newlines and
      ends in column 17, just after the error word's last digit. */
  lemma ReportLayout(msg: string, err: bv32, eip: bv32, cs: bv32, cur: Cursor)
    ensures var r := PrintSegments(Report(msg, err, eip, cs), cur);
      && r.1 == Cursor(cur.x + 3 + Count(msg, NEWLINE), 17)
      && |r.0| + Count(msg, NEWLINE) == 16 + |msg| + 51
  {
    var segs := Report(msg, err, eip, cs);
    var t := Text(segs);
    var r := PrintSegments(segs, cur);
    ReportText(msg, err, eip, cs);
    LabelsAreLabels();
    assert |t| == 16 + |msg| + 54;
    ReportTextNewlines(msg, err, eip, cs);
    assert Count(t, NEWLINE) == 3 + Count(msg, NEWLINE);
    assert r.1.x == cur.x + 3 + Count(msg, NEWLINE);
    HexTextHasNoNewline(err as nat);
    LastLineColumn(segs, cur);
    assert r.1.y == 17;
  }

  lemma LabelCount(l: string)
    requires IsLabel(l)
    ensures Count(l, NEWLINE) == 1
  {
    CountAbsent(l[1..], NEWLINE);
  }

  lemma ReportNewlines(b: string, m: string, l1: string, e: string, l2: string, c: string, l3: string, x: string)
    requires NEWLINE !in b && NEWLINE !in e && NEWLINE !in c && NEWLINE !in x
    requires IsLabel(l1) && IsLabel(l2) && IsLabel(l3)
    ensures Count(b + (m + (l1 + (e + (l2 + (c + (l3 + x)))))), NEWLINE) == 3 + Count(m, NEWLINE)
  {
    LabelCount(l1); LabelCount(l2); LabelCount(l3);
    CountAbsent(b, NEWLINE); CountAbsent(e, NEWLINE); CountAbsent(c, NEWLINE); CountAbsent(x, NEWLINE);
    CountAppend(l3, x, NEWLINE);
    CountAppend(c, l3 + x, NEWLINE);
    CountAppend(l2, c + (l3 + x), NEWLINE);
    CountAppend(e, l2 + (c + (l3 + x)), NEWLINE);
    CountAppend(l1, e + (l2 + (c + (l3 + x))), NEWLINE);
    CountAppend(m, l1 + (e + (l2 + (c + (l3 + x)))), NEWLINE);
    CountAppend(b, m + (l1 + (e + (l2 + (c + (l3 + x))))), NEWLINE);
  }

  /** A label moves to column 0 of the next row and writes its nine
      characters there. */
  lemma LabelLeavesColumnNine(l: string, color: bv32, cur: Cursor)
    requires IsLabel(l)
    ensures Print(l, color, cur).1 == Cursor(cur.x + 1, 9)
  {
    PrintLine(l[1..], color, Cursor(cur.x + 1, 0));
  }

  /** The last two segments, a label and eight digits, put the cursor in
      column 17. */
  lemma LastLineColumn(r: seq<Segment>, cur: Cursor)
    requires |r| == 8 && IsLabel(r[6].text) && |r[7].text| == 8 && NEWLINE !in r[7].text
    ensures PrintSegments(r, cur).1.y == 17
  {
    var six := PrintSegments(r[..6], cur).1;
    SegmentsSplit(r, 6, cur);
    var afterLabel := Print(r[6].text, r[6].color, six);
    LabelLeavesColumnNine(r[6].text, r[6].color, six);
    PrintLine(r[7].text, r[7].color, afterLabel.1);
    var tail := r[6..];
    assert tail[0] == r[6] && tail[1..] == [r[7]];
    assert [r[7]][0] == r[7] && [r[7]][1..] == [];
    assert PrintSegments([r[7]], afterLabel.1).1 == Print(r[7].text, r[7].color, afterLabel.1).1;
  }

  /** Printing segments `..n` and then the rest from where they left the
      cursor ends where printing them all does. */
  lemma {:induction false} SegmentsSplit(segs: seq<Segment>, n: nat, cur: Cursor)
    requires n <= |segs|
    ensures PrintSegments(segs, cur).1 == PrintSegments(segs[n..], PrintSegments(segs[..n], cur).1).1
    decreases n
  {
    if n > 0 {
      var first := Print(segs[0].text, segs[0].color, cur);
      SegmentsSplit(segs[1..], n - 1, first.1);
      assert segs[1..][n - 1..] == segs[n..];
      assert segs[..n][0] == segs[0] && segs[..n][1..] == segs[1..][..n - 1];
    } else {
      assert segs[0..] == segs;
    }
  }

  /** A divide error (no error code) reports the first message and shows
      the sentinel as the code `FFFFFFFF`. */
  lemma DivideErrorShowsSentinel(eip: bv32, cs: bv32, eflags: bv32, stack: seq<bv32>, anyErr: bv32)
    ensures var a := ArgsAtCall(PushAll(CpuEntry(0, anyErr, eip, cs, eflags, stack), StubPushes(0)));
      && a.id == 0 && a.err == SENTINEL
      && Report(ErrorMessages[a.id as nat], a.err, a.eip, a.cs)[1].text == ErrorMessages[0]
      && Report(ErrorMessages[a.id as nat], a.err, a.eip, a.cs)[7].text == "FFFFFFFF"
  {
    StubDeliversFrame(0, anyErr, eip, cs, eflags, stack);
    SentinelShowsAllF();
  }

  lemma Pow2Table()
    ensures Pow2(0) == 1 && Pow2(4) == 0x10 && Pow2(8) == 0x100 && Pow2(12) == 0x1000
    ensures Pow2(16) == 0x1_0000 && Pow2(20) == 0x10_0000 && Pow2(24) == 0x100_0000 && Pow2(28) == 0x1000_0000
  {
    Pow2Add4(0); Pow2Add4(4); Pow2Add4(8); Pow2Add4(12);
    Pow2Add4(16); Pow2Add4(20); Pow2Add4(24);
  }

  lemma SentinelShowsAllF()
    ensures HexText(SENTINEL as nat) == "FFFFFFFF"
  {
    Pow2Table();
    var v := SENTINEL as nat;
    assert v == 0xFFFF_FFFF;
    assert Nibble(v, 28) == 15 && Nibble(v, 24) == 15 && Nibble(v, 20) == 15 && Nibble(v, 16) == 15;
    assert Nibble(v, 12) == 15 && Nibble(v, 8) == 15 && Nibble(v, 4) == 15 && Nibble(v, 0) == 15;
    var h := HexText(v);
    assert h[0] == 'F' && h[1] == 'F' && h[2] == 'F' && h[3] == 'F';
    assert h[4] == 'F' && h[5] == 'F' && h[6] == 'F' && h[7] == 'F';
  }
}

=== FILE: gdt.dfy ===
/**
 * The global descriptor table built in real mode before the switch to
 * protected mode (`SetGdt` in code/kernel/kernel16.c), and the six-byte
 * pseudo-descriptors `gdtPtr`/`idtPtr` that `lgdt`/`lidt` read.
 */
module Gdt {
  import opened Defs
  import opened Descriptors

  /* ---------------------------------------------------------------------
   * Pseudo-descriptors: u16 limit at byte 0, u32 base at byte 2,
   * little-endian
   * ------------------------------------------------------------------- */

  datatype TablePointer = TablePointer(limit: bv16, base: bv32)

  /** The six bytes the code writes through `(u16*)&ptr[0]` and
      `(u32*)&ptr[2]`. */
  function PointerBytes(p: TablePointer): (b: seq<bv8>)
    ensures |b| == 6
  {
    [ (p.limit & 0xFF) as bv8, (p.limit >> 8) as bv8,
      (p.base & 0xFF) as bv8, ((p.base >> 8) & 0xFF) as bv8,
      ((p.base >> 16) & 0xFF) as bv8, (p.base >> 24) as bv8 ]
  }

  /** How the CPU reads a pseudo-descriptor back out of memory. */
  function PointerFromBytes(b: seq<bv8>): TablePointer
    requires |b| == 6
  {
    TablePointer(
      (b[0] as bv16) | ((b[1] as bv16) << 8),
      (b[2] as bv32) | ((b[3] as bv32) << 8) | ((b[4] as bv32) << 16) | ((b[5] as bv32) << 24))
  }

  lemma PointerBytesRoundTrip(p: TablePointer)
    ensures PointerFromBytes(PointerBytes(p)) == p
  {
  }

  lemma PointerFromBytesRoundTrip(b: seq<bv8>)
    requires |b| == 6
    ensures PointerBytes(PointerFromBytes(b)) == b
  {
  }

  /** Whether the whole eight-byte descriptor in slot `index` lies within a
      table limit (the CPU raises #GP for a selector whose descriptor does
      not, section 3.4.2 of the Intel 64 and IA-32 Architectures Software
      Developer's Manual, Volume 3A). */
  predicate SlotWithinLimit(limit: bv16, index: nat)
  {
    index * 8 + 7 <= limit as nat
  }

  /* ---------------------------------------------------------------------
   * SetGdt
   * ------------------------------------------------------------------- */

  /** `GDT_SIZE * sizeof(Descriptor) - 1` as the preprocessor expands it:
      `GDT_SIZE` is the unparenthesised `5 + MAX_TASKS`, so the product binds
      to `MAX_TASKS` alone. */
  const GDT_LIMIT_AS_WRITTEN: bv16 := 5 + 10 * 8 - 1

  /** The limit the table's size calls for: `(5 + MAX_TASKS) * 8 - 1`. */
  const GDT_LIMIT_INTENDED: bv16 := (5 + 10) * 8 - 1

  /** The four descriptors `SetGdt` writes into slots 0..3. */
  function GdtFixedSlots(): seq<Descriptor>
  {
    [ SetDesEntry(0, 0, 0),
      SetDesEntry(0x90000, 0xfffff, DA_CR + DA_32 + DA_LIMIT_4K),
      SetDesEntry(0x90000, 0xfffff, DA_DRW + DA_32 + DA_LIMIT_4K),
      SetDesEntry(0xb8000, 0xffff, DA_DRW + DA_DPL3) ]
  }

  /** `SetGdt()` as written: fills slots 0..3 of `gdt` and the pointer
      `gdtPtr`, whose base is the table's linear address (its offset in the
      kernel segment plus 0x90000) and whose limit is the literal macro
      expansion 84. Slot 0 is the null descriptor; slots 1 and 2 are the
      kernel's code and data segments, based at 0x90000, 4 KiB-granular,
      32-bit and reaching the top of the 4 GiB space, of DPL 0; slot 3 is
      the 64 KiB text buffer at 0xB8000, counted in bytes, of DPL 3; slots
      4 and up keep their contents. The limit admits slots 0..9 only. */
  function SetGdt(gdt: seq<Descriptor>, gdtOffset: bv32): (r: (seq<Descriptor>, TablePointer))
    requires |gdt| == GDT_ENTRIES
    ensures |r.0| == GDT_ENTRIES
    ensures r.0[..4] == GdtFixedSlots()
    ensures r.0[4..] == gdt[4..]
    ensures r.0[INDEX_DUMMY] == NullDescriptor
    ensures forall i :: 1 <= i <= 2 ==>
      DescriptorBase(r.0[i]) == KERNEL_BASE && ByteLimit(r.0[i]) == 0xFFFFFFFF
      && Granular4K(r.0[i]) && Default32(r.0[i]) && Dpl(r.0[i]) == 0
    ensures r.0[INDEX_FLAT_C].attr1 == 0x9A && r.0[INDEX_FLAT_RW].attr1 == 0x92
    ensures DescriptorBase(r.0[INDEX_VIDEO]) == 0xB8000 && ByteLimit(r.0[INDEX_VIDEO]) == 0xFFFF
      && Dpl(r.0[INDEX_VIDEO]) == 3
    ensures r.1 == TablePointer(GDT_LIMIT_AS_WRITTEN, gdtOffset + KERNEL_BASE)
    ensures forall slot: nat :: slot < GDT_ENTRIES ==> (SlotWithinLimit(r.1.limit, slot) <==> slot < 10)
  {
    FixedSlotsDecode();
    (GdtFixedSlots() + gdt[4..], TablePointer(GDT_LIMIT_AS_WRITTEN, gdtOffset + 0x90000))
  }

  /** The decoded fields of the four fixed descriptors. */
  lemma FixedSlotsDecode()
    ensures GdtFixedSlots()[0] == NullDescriptor
    ensures forall i :: 1 <= i <= 2 ==>
      var d := GdtFixedSlots()[i];
      DescriptorBase(d) == KERNEL_BASE && ByteLimit(d) == 0xFFFFFFFF
      && Granular4K(d) && Default32(d) && Dpl(d) == 0
    ensures GdtFixedSlots()[1].attr1 == 0x9A && GdtFixedSlots()[2].attr1 == 0x92
    ensures var d := GdtFixedSlots()[3];
      DescriptorBase(d) == 0xB8000 && ByteLimit(d) == 0xFFFF && Dpl(d) == 3
  {
  }

  /** The same table with the limit the table's size calls for. */
  function SetGdtIntended(gdt: seq<Descriptor>, gdtOffset: bv32): (r: (seq<Descriptor>, TablePointer))
    requires |gdt| == GDT_ENTRIES
    ensures r.0 == SetGdt(gdt, gdtOffset).0
    ensures r.1.base == SetGdt(gdt, gdtOffset).1.base
    ensures r.1.limit == GDT_LIMIT_INTENDED
    ensures forall index: nat :: index < GDT_ENTRIES <==> SlotWithinLimit(r.1.limit, index)
  {
    var (table, ptr) := SetGdt(gdt, gdtOffset);
    (table, ptr.(limit := GDT_LIMIT_INTENDED))
  }

  /** The limit as written admits slots 0..9 only: the LDT descriptors of
      process slots 5..9 (GDT slots 10..14) lie beyond it, so `lldt` with
      their selectors would fault although `SetupProcess` accepts up to
      `MAX_TASKS` processes. */
  lemma AsWrittenLimitExcludesLateLdtSlots()
    ensures GDT_LIMIT_AS_WRITTEN == 84
    ensures forall slot: nat :: slot < GDT_ENTRIES ==> (SlotWithinLimit(GDT_LIMIT_AS_WRITTEN, slot) <==> slot < 10)
    ensures !SlotWithinLimit(GDT_LIMIT_AS_WRITTEN, INDEX_LDT_FIRST as nat + 5)
  {
  }

  /** Slot 0 is the all-zero null descriptor. */
  lemma NullSlotIsZero(gdt: seq<Descriptor>, gdtOffset: bv32)
    requires |gdt| == GDT_ENTRIES
    ensures SetGdt(gdt, gdtOffset).0[INDEX_DUMMY] == NullDescriptor
  {
    var t := SetGdt(gdt, gdtOffset).0;
    assert t[0] == t[..4][0];
  }

  /** Slots 1 and 2 are the kernel's flat code and data segments: base
      0x90000, 4 KiB-granular 32-bit segments reaching the top of the 4 GiB
      space (byte 6 = 0xCF), DPL 0, access bytes 0x9A and 0x92. */
  lemma FlatKernelSlots(gdt: seq<Descriptor>, gdtOffset: bv32)
    requires |gdt| == GDT_ENTRIES
    ensures forall i :: 1 <= i <= 2 ==>
      var d := SetGdt(gdt, gdtOffset).0[i];
      DescriptorBase(d) == 0x90000 && DescriptorLimit(d) == 0xFFFFF
      && d.limitHighAttr2 == 0xCF && Granular4K(d) && Default32(d) && Dpl(d) == 0
      && ByteLimit(d) == 0xFFFFFFFF
    ensures SetGdt(gdt, gdtOffset).0[INDEX_FLAT_C].attr1 == 0x9A
    ensures SetGdt(gdt, gdtOffset).0[INDEX_FLAT_RW].attr1 == 0x92
  {
    var t := SetGdt(gdt, gdtOffset).0;
    assert t[1] == GdtFixedSlots()[1] && t[2] == GdtFixedSlots()[2];
    forall i | 1 <= i <= 2
      ensures DescriptorLimit(t[i]) == 0xFFFFF && t[i].limitHighAttr2 == 0xCF
    {
      FixedKernelSlotBytes(i);
    }
  }

  /** The limit and flag byte of the two flat kernel descriptors. */
  lemma FixedKernelSlotBytes(i: nat)
    requires 1 <= i <= 2
    ensures DescriptorLimit(GdtFixedSlots()[i]) == 0xFFFFF && GdtFixedSlots()[i].limitHighAttr2 == 0xCF
  {
  }

  /** Slot 3 is the video segment: base 0xB8000, limit 0xFFFF counted in
      bytes, a DPL 3 writable data segment (access byte 0xF2). */
  lemma VideoSlot(gdt: seq<Descriptor>, gdtOffset: bv32)
    requires |gdt| == GDT_ENTRIES
    ensures var d := SetGdt(gdt, gdtOffset).0[INDEX_VIDEO];
      DescriptorBase(d) == 0xB8000 && DescriptorLimit(d) == 0xFFFF
      && !Granular4K(d) && ByteLimit(d) == 0xFFFF && d.attr1 == 0xF2 && Dpl(d) == 3
  {
    var t := SetGdt(gdt, gdtOffset).0;
    assert t[3] == GdtFixedSlots()[3];
  }
}

=== FILE: idt.dfy ===
/**
 * The interrupt descriptor table, as the two kernels fill it: the flat
 * kernel (`SetupIdt` in code/kernel/kernel32.c) points every vector at a
 * halting handler and vector 0x20 at the clock wrapper; the paged kernel
 * (`SetupIdt` in code/kernel/exception.c) starts from a halting default,
 * installs the sixteen exception stubs and then the clock handler.
 */
module Idt {
  import opened Defs
  import opened Descriptors
  import opened Gdt
  import opened Exceptions

  /** The vector the master 8259A delivers IRQ 0, the timer, on. */
  const INT_VECTOR_IRQ0: nat := 0x20

  /** The code a gate leads to. */
  datatype Handler =
    | DefaultInt          // paged kernel: `hlt`
    | ClockInt            // paged kernel: the timer entry
    | Stub(id: nat)       // paged kernel: the entry stub of exception `id`
    | SimpleIntWarpper    // flat kernel: `hlt`
    | ClockIntWarpper     // flat kernel: the timer entry

  /** A 32-bit interrupt gate into the flat kernel code segment, as every
      `SetIdtEntry` call of both kernels makes it. */
  function InterruptGate(offset: bv32): (g: Gate)
    ensures GateOffset(g) == offset
    ensures g.selector == SELECTOR_FLAT_C && g.dcount == 0 && g.attr == DA_386IGate
  {
    SetIdtEntry(SELECTOR_FLAT_C, offset, 0, DA_386IGate)
  }

  /** The pseudo-descriptor both kernels load: limit `IDT_SIZE *
      sizeof(Gate) - 1`. */
  const IDT_LIMIT: bv16 := (IDT_SIZE * 8 - 1) as bv16

  /** The limit covers exactly the 256 gates. */
  lemma IdtLimitCoversTable()
    ensures IDT_LIMIT == 2047
    ensures forall slot: nat :: SlotWithinLimit(IDT_LIMIT, slot) <==> slot < IDT_SIZE
  {
  }

  /** The attribute 0x8E marks a present interrupt gate of DPL 0 whose
      handler is 32-bit code (type 0xE, section 6.11 of the Intel 64 and
      IA-32 Architectures Software Developer's Manual, Volume 3A), and the
      selector names GDT slot 1, the kernel code segment, at RPL 0. */
  lemma GateAttributes()
    ensures DA_386IGate & 0x80 != 0
    ensures (DA_386IGate >> 5) & 3 == 0
    ensures DA_386IGate & 0x1F == 0x0E
    ensures SelectorIndex(SELECTOR_FLAT_C) == INDEX_FLAT_C
    ensures SelectorTi(SELECTOR_FLAT_C) == 0 && SelectorRpl(SELECTOR_FLAT_C) == 0
  {
  }

  /* ---------------------------------------------------------------------
   * The flat kernel
   * ------------------------------------------------------------------- */

  /** The flat kernel's `SetupIdt()`: the gates and the pointer. The table
      lives at offset `idtOffset` of the kernel segment, whose base is
      0x90000, so its linear address is the sum. */
  function SetupFlatIdt(entry: Handler -> bv32, idtOffset: bv32): (r: (seq<Gate>, TablePointer))
    ensures |r.0| == IDT_SIZE
    ensures r.1 == TablePointer(IDT_LIMIT, idtOffset + KERNEL_BASE)
  {
    (seq(IDT_SIZE, _ => InterruptGate(entry(SimpleIntWarpper)))[INT_VECTOR_IRQ0 := InterruptGate(entry(ClockIntWarpper))],
     TablePointer(IDT_LIMIT, idtOffset + 0x90000))
  }

  /** Where each vector of the flat kernel leads. */
  function FlatHandlerAt(vector: nat): Handler
  {
    if vector == INT_VECTOR_IRQ0 then ClockIntWarpper else SimpleIntWarpper
  }

  /** Every vector of the flat kernel leads where `FlatHandlerAt` says,
      through a kernel interrupt gate. */
  lemma FlatIdtTargets(entry: Handler -> bv32, idtOffset: bv32)
    ensures forall v :: 0 <= v < IDT_SIZE ==>
      SetupFlatIdt(entry, idtOffset).0[v] == InterruptGate(entry(FlatHandlerAt(v)))
  {
  }

  /* ---------------------------------------------------------------------
   * The paged kernel
   * ------------------------------------------------------------------- */

  /** The stubs in the order `SetupIdt` installs them: exceptions 0 to 14,
      then 16. */
  function StubAt(k: nat): nat
  {
    if k < 15 then k else 16
  }

  const STUB_ORDER: seq<nat> := seq(16, k requires 0 <= k => StubAt(k))

  lemma StubOrderDistinct()
    ensures |STUB_ORDER| == 16
    ensures forall k :: 0 <= k < 16 ==> STUB_ORDER[k] == StubAt(k)
    ensures forall i, j :: 0 <= i < j < |STUB_ORDER| ==> STUB_ORDER[i] != STUB_ORDER[j]
  {
  }

  /** The last position of `x` in `vs`, if any. */
  function LastIndexOf(vs: seq<nat>, x: nat): (r: Option<nat>)
    ensures r.Some? ==> r.value < |vs| && vs[r.value] == x
    ensures r.None? ==> x !in vs
    decreases |vs|
  {
    if vs == [] then None
    else if vs[|vs| - 1] == x then Some(|vs| - 1)
    else
      DropLast(vs);
      LastIndexOf(vs[..|vs| - 1], x)
  }

  lemma DropLast(vs: seq<nat>)
    requires vs != []
    ensures vs == vs[..|vs| - 1] + [vs[|vs| - 1]]
  {
  }

  /** Where vector `v` leads once the paged kernel's `SetupIdt` is done,
      given the exception vector numbers `vectors` it uses for the stubs
      (the `INT_VECTOR_*` constants, one per entry of `STUB_ORDER`): the
      clock handler at 0x20, which is written last; otherwise the last stub
      installed at `v`; otherwise the default. */
  function PagedHandlerAt(vectors: seq<nat>, v: nat): Handler
    requires |vectors| == |STUB_ORDER|
  {
    if v == INT_VECTOR_IRQ0 then ClockInt
    else match LastIndexOf(vectors, v)
      case Some(k) => Stub(StubAt(k))
      case None => DefaultInt
  }

  /** The gate vector `v` holds after the first `n` stubs are installed. */
  function AfterStubs(vectors: seq<nat>, entry: Handler -> bv32, n: nat, v: nat): Gate
    requires n <= |vectors| == |STUB_ORDER|
  {
    match LastIndexOf(vectors[..n], v)
    case Some(k) => InterruptGate(entry(Stub(StubAt(k))))
    case None => InterruptGate(entry(DefaultInt))
  }

  /** The paged kernel's `SetupIdt()`: fill all 256 gates with the default
      handler, install each stub at its vector in turn, then the clock
      handler at 0x20; the pointer's base is the table's address `idtAddr`
      itself. Each vector ends up leading where `PagedHandlerAt` says. */
  method SetupPagedIdt(vectors: seq<nat>, entry: Handler -> bv32, idtAddr: bv32) returns (idt: seq<Gate>, ptr: TablePointer)
    requires |vectors| == |STUB_ORDER|
    requires forall k :: 0 <= k < |vectors| ==> vectors[k] < IDT_SIZE
    ensures |idt| == IDT_SIZE
    ensures forall v :: 0 <= v < IDT_SIZE ==> idt[v] == InterruptGate(entry(PagedHandlerAt(vectors, v)))
    ensures ptr == TablePointer(IDT_LIMIT, idtAddr)
  {
    idt := [];
    var i := 0;
    while i < IDT_SIZE
      invariant 0 <= i <= IDT_SIZE && |idt| == i
      invariant forall v :: 0 <= v < i ==> idt[v] == InterruptGate(entry(DefaultInt))
    {
      idt := idt + [InterruptGate(entry(DefaultInt))];
      i := i + 1;
    }
    var n := 0;
    while n < |vectors|
      invariant 0 <= n <= |vectors| && |idt| == IDT_SIZE
      invariant forall v :: 0 <= v < IDT_SIZE ==> idt[v] == AfterStubs(vectors, entry, n, v)
    {
      idt := idt[vectors[n] := InterruptGate(entry(Stub(StubAt(n))))];
      forall v | 0 <= v < IDT_SIZE
        ensures idt[v] == AfterStubs(vectors, entry, n + 1, v)
      {
        assert vectors[..n + 1][..n] == vectors[..n];
      }
      n := n + 1;
    }
    assert vectors[..n] == vectors;
    idt := idt[INT_VECTOR_IRQ0 := InterruptGate(entry(ClockInt))];
    ptr := TablePointer(IDT_LIMIT, idtAddr);
  }

  /** In a sequence without repeats, the last position of an element is its
      only one. */
  lemma {:induction false} LastIndexOfDistinct(vs: seq<nat>, k: nat)
    requires k < |vs|
    requires forall i, j :: 0 <= i < j < |vs| ==> vs[i] != vs[j]
    ensures LastIndexOf(vs, vs[k]) == Some(k)
    decreases |vs|
  {
    if k < |vs| - 1 {
      var front := vs[..|vs| - 1];
      LastIndexOfDistinct(front, k);
      assert front[k] == vs[k];
    }
  }

  /** With the architectural vector numbers (each exception's vector is
      its number), vector `v` leads to the stub of exception `v` when there
      is one, to the clock handler at 0x20, and to the halting default
      everywhere else. */
  lemma ConventionalVectors(v: nat)
    requires v < IDT_SIZE
    ensures PagedHandlerAt(STUB_ORDER, v)
      == if v == INT_VECTOR_IRQ0 then ClockInt else if HasStub(v) then Stub(v) else DefaultInt
  {
    StubOrderDistinct();
    if v != INT_VECTOR_IRQ0 {
      if HasStub(v) {
        var k := if v < 15 then v else 15;
        assert STUB_ORDER[k] == v;
        LastIndexOfDistinct(STUB_ORDER, k);
      } else {
        match LastIndexOf(STUB_ORDER, v)
        case Some(k) =>
          assert false;
        case None =>
      }
    }
  }

  /** An exception taken through the paged kernel's table with the
      architectural vectors reaches the stub that pushes its own number, so
      `ExceptionHandler` prints the message of the vector that occurred. */
  lemma ExceptionReachesOwnStub(v: nat, entry: Handler -> bv32, idt: seq<Gate>)
    requires |idt| == IDT_SIZE && HasStub(v)
    requires forall u :: 0 <= u < IDT_SIZE ==> idt[u] == InterruptGate(entry(PagedHandlerAt(STUB_ORDER, u)))
    ensures GateOffset(idt[v]) == entry(Stub(v))
    ensures StubPushes(v)[|StubPushes(v)| - 1] == v as bv32
  {
    ConventionalVectors(v);
  }
}

=== FILE: memoryprobe.dfy ===
/**
 * The flat kernel's memory probe (`CheckMemory` in code/kernel/kernel32.c):
 * it walks the firmware memory map the real-mode stage collected and keeps
 * in `RAMSize` the highest end address of any entry, which `SetupPaging`
 * then rounds up to whole page tables. The listing it prints on the way is
 * output only and is not modelled.
 */
module MemoryProbe {
  import opened Defs

  /** `BaseAddrLow + LengthLow`, a 32-bit sum: the first address past the
      range, wrapping to 0 for a range that ends at 4 GiB. */
  function RangeEnd(a: AddressRangeDescriptor): nat
  {
    U32(a.baseAddrLow as nat + a.lengthLow as nat)
  }

  /** `v` is the highest of `init` and the ends of the first `count`
      entries: no smaller than any of them and equal to one of them. */
  predicate IsHighestEnd(ards: seq<AddressRangeDescriptor>, count: nat, init: nat, v: nat)
    requires count <= |ards|
  {
    && init <= v
    && (forall i :: 0 <= i < count ==> RangeEnd(ards[i]) <= v)
    && (v == init || exists i :: 0 <= i < count && RangeEnd(ards[i]) == v)
  }

  /** The loop of `CheckMemory()` over the first `count` entries, starting
      from the value `ramSize` the global holds on entry: an entry whose end
      exceeds the running value replaces it, whatever the entry's type. */
  method CheckMemory(ards: seq<AddressRangeDescriptor>, count: nat, ramSize: nat) returns (r: nat)
    requires count <= |ards|
    ensures IsHighestEnd(ards, count, ramSize, r)
  {
    r := ramSize;
    var i := 0;
    while i < count
      invariant 0 <= i <= count
      invariant IsHighestEnd(ards, i, ramSize, r)
    {
      var end := RangeEnd(ards[i]);
      if end > r {
        r := end;
      }
      i := i + 1;
    }
  }

  /** There is only one highest end: whatever order the entries come in
      and whatever path computes it, the result is the same value. */
  lemma HighestEndUnique(ards: seq<AddressRangeDescriptor>, count: nat, init: nat, v: nat, w: nat)
    requires count <= |ards|
    requires IsHighestEnd(ards, count, init, v) && IsHighestEnd(ards, count, init, w)
    ensures v == w
  {
  }

  /** Two memory maps whose entries span the same ranges give the same
      `RAMSize`: the type field (1 for usable memory) only selects the word
      printed beside the entry, so reserved ranges count as much as free
      ones. */
  lemma TypeIgnored(ards: seq<AddressRangeDescriptor>, other: seq<AddressRangeDescriptor>,
                    count: nat, init: nat, v: nat)
    requires count <= |ards| && count <= |other|
    requires forall i :: 0 <= i < count ==>
      other[i].baseAddrLow == ards[i].baseAddrLow && other[i].lengthLow == ards[i].lengthLow
    ensures IsHighestEnd(ards, count, init, v) <==> IsHighestEnd(other, count, init, v)
  {
    assert forall i :: 0 <= i < count ==> RangeEnd(other[i]) == RangeEnd(ards[i]);
  }

  /** A range reaching exactly the top of the 32-bit address space, such as
      the 256 KiB firmware window at 0xFFFC0000, ends at 0 in the 32-bit sum
      and never raises `RAMSize`. */
  lemma RangeAtTopWraps(ards: seq<AddressRangeDescriptor>, count: nat, init: nat, v: nat)
    requires count <= |ards|
    requires 0 < count && ards[count - 1].baseAddrLow == 0xFFFC0000 && ards[count - 1].lengthLow == 0x40000
    requires IsHighestEnd(ards, count - 1, init, v)
    ensures IsHighestEnd(ards, count, init, v)
  {
    assert RangeEnd(ards[count - 1]) == 0;
    if v != init {
      var i :| 0 <= i < count - 1 && RangeEnd(ards[i]) == v;
      assert 0 <= i < count && RangeEnd(ards[i]) == v;
    }
  }
}

=== FILE: paging.dfy ===
/**
 * Two-level 32-bit paging as the kernel sets it up: the identity map of
 * `SetupPaging` (code/kernel/kernel32.c) and the per-process tables of
 * `SetProcessPageTable` (code/kernel/process.c), read back through the
 * translation the CPU performs (section 4.3 of the Intel 64 and IA-32
 * Architectures Software Developer's Manual, Volume 3A, with CR4.PSE clear
 * and CR0.WP clear). Addresses and entries are numbers below 2^32.
 */
module Paging {
  import opened Defs
  import opened Arith

  const PAGE_SIZE: nat := 0x1000
  const ENTRIES_PER_TABLE: nat := 1024
  /** The bytes one page-directory entry maps: 1024 pages of 4 KiB. */
  const PDE_SPAN: nat := 0x400000
  /** The first virtual address of a process image; lower pages belong to
      the kernel and are mapped one-to-one in every address space. */
  const USER_START: nat := 0x100000
  /** Pages below this index are the kernel's first megabyte. */
  const USER_FIRST_PAGE: nat := 256

  /* ---------------------------------------------------------------------
   * Arithmetic
   * ------------------------------------------------------------------- */

  /** Adding after a 32-bit wrap-around wraps the same as adding before it. */
  lemma U32Add(a: nat, b: nat)
    ensures U32(U32(a) + b) == U32(a + b)
  {
    var q := a / U32_MOD;
    var r := U32(U32(a) + b);
    var q2 := (U32(a) + b) / U32_MOD;
    assert a + b == (q + q2) * U32_MOD + r;
    DivModUnique(a + b, U32_MOD, q + q2, r);
  }

  /** A page-aligned value stays page-aligned through the 32-bit wrap, and
      an offset within the page then adds without wrapping again. */
  lemma AlignedPlusOffset(x: nat, o: nat)
    requires x % PAGE_SIZE == 0 && o < PAGE_SIZE
    ensures U32(x) % PAGE_SIZE == 0
    ensures U32(x) + o == U32(x + o)
  {
    var q := x / U32_MOD;
    var k := x / PAGE_SIZE;
    assert x == k * PAGE_SIZE;
    assert x == q * U32_MOD + U32(x);
    assert U32(x) == (k - q * 0x100000) * PAGE_SIZE;
    DivModUnique(U32(x), PAGE_SIZE, k - q * 0x100000, 0);
    DivModUnique(x + o, U32_MOD, q, U32(x) + o);
  }

  /** A linear address's page number is its directory index times 1024 plus
      its table index. */
  lemma PageNumberSplits(va: nat)
    ensures va / PAGE_SIZE == (va / PDE_SPAN) * ENTRIES_PER_TABLE + (va / PAGE_SIZE) % ENTRIES_PER_TABLE
  {
    var p := va / PAGE_SIZE;
    var a, s, o := p / ENTRIES_PER_TABLE, p % ENTRIES_PER_TABLE, va % PAGE_SIZE;
    assert va == a * PDE_SPAN + (s * PAGE_SIZE + o);
    DivModUnique(va, PDE_SPAN, a, s * PAGE_SIZE + o);
  }

  /* ---------------------------------------------------------------------
   * Entries
   * ------------------------------------------------------------------- */

  /** `x | PAGE_P | PAGE_U | PAGE_W` on a 32-bit value: the low three bits
      set, everything else kept. */
  function WithFlags(x: nat): (e: nat)
    requires x < U32_MOD
    ensures e < U32_MOD
  {
    x - x % 8 + 7
  }

  /** `WithFlags` sets bits 0..2 and keeps bits 3..31. */
  lemma WithFlagsSetsLowBits(x: nat)
    requires x < U32_MOD
    ensures WithFlags(x) % 8 == 7 && WithFlags(x) / 8 == x / 8
  {
    DivModUnique(WithFlags(x), 8, x / 8, 7);
  }

  /** The page-frame (or page-table) address an entry holds in bits 12..31. */
  function EntryFrame(e: nat): nat { e - e % PAGE_SIZE }

  predicate Present(e: nat) { e % 2 == 1 }

  /** Whether an entry allows an access: user-mode accesses need the U/S
      bit, user-mode writes the R/W bit as well; supervisor accesses are
      allowed either way while CR0.WP is clear. */
  predicate Permits(e: nat, user: bool, write: bool)
  {
    (user ==> (e / 4) % 2 == 1) && (user && write ==> (e / 2) % 2 == 1)
  }

  /** An entry made from a page-aligned address is present, allows every
      access, and gives the address back. */
  lemma EntryReadsBack(x: nat)
    requires x < U32_MOD && x % PAGE_SIZE == 0
    ensures WithFlags(x) == x + 7
    ensures Present(WithFlags(x)) && EntryFrame(WithFlags(x)) == x
    ensures forall user, write :: Permits(WithFlags(x), user, write)
  {
    var k := x / PAGE_SIZE;
    assert x == k * PAGE_SIZE;
    assert WithFlags(x) == k * PAGE_SIZE + 7;
    DivModUnique(WithFlags(x), PAGE_SIZE, k, 7);
    DivModUnique(WithFlags(x), 4, k * 1024 + 1, 3);
    DivModUnique(WithFlags(x), 2, k * 2048 + 3, 1);
    DivModUnique(k * 1024 + 1, 2, k * 512, 1);
    DivModUnique(k * 2048 + 3, 2, k * 1024 + 1, 1);
  }

  /** Directory entry `d`: `(tableBase + (d<<12)) | P | U | W`. */
  function DirEntry(tableBase: nat, d: nat): nat
  {
    WithFlags(U32(tableBase + d * PAGE_SIZE))
  }

  /** Identity table entry `i`: `(i<<12) | P | U | W`. */
  function IdentityEntry(i: nat): nat
  {
    WithFlags(U32(i * PAGE_SIZE))
  }

  /** Table entry `i` of an address space whose pages past the first
      megabyte are shifted by `shift`: `((i<<12) + shift) | P | U | W`. */
  function ShiftedEntry(shift: nat, i: nat): nat
  {
    if i < USER_FIRST_PAGE then IdentityEntry(i) else WithFlags(U32(i * PAGE_SIZE + shift))
  }

  /** The frame table entry `i` maps to. */
  function ShiftedFrame(shift: nat, i: nat): nat
  {
    if i < USER_FIRST_PAGE then i * PAGE_SIZE else U32(i * PAGE_SIZE + shift)
  }

  lemma DirEntryValue(tableBase: nat, d: nat)
    requires tableBase % PAGE_SIZE == 0 && tableBase + d * PAGE_SIZE < U32_MOD
    ensures DirEntry(tableBase, d) == tableBase + d * PAGE_SIZE + 7
    ensures Present(DirEntry(tableBase, d)) && EntryFrame(DirEntry(tableBase, d)) == tableBase + d * PAGE_SIZE
    ensures forall user, write :: Permits(DirEntry(tableBase, d), user, write)
  {
    EntryReadsBack(tableBase + d * PAGE_SIZE);
  }

  lemma ShiftedEntryValue(shift: nat, i: nat)
    requires shift % PAGE_SIZE == 0 && i < 0x100000
    ensures ShiftedFrame(shift, i) % PAGE_SIZE == 0
    ensures ShiftedEntry(shift, i) == ShiftedFrame(shift, i) + 7
    ensures Present(ShiftedEntry(shift, i)) && EntryFrame(ShiftedEntry(shift, i)) == ShiftedFrame(shift, i)
    ensures forall user, write :: Permits(ShiftedEntry(shift, i), user, write)
  {
    if i < USER_FIRST_PAGE {
      EntryReadsBack(i * PAGE_SIZE);
    } else {
      AlignedPlusOffset(i * PAGE_SIZE + shift, 0);
      EntryReadsBack(U32(i * PAGE_SIZE + shift));
    }
  }

  /* ---------------------------------------------------------------------
   * Tables and the walk
   * ------------------------------------------------------------------- */

  /** One address space: the directory entries written, at physical address
      `dirBase`, and the page-table entries written, one contiguous array at
      physical address `tableBase`. Memory the kernel does not write is not
      part of the model. */
  datatype PageTables = PageTables(dirBase: nat, dir: seq<nat>, tableBase: nat, ptes: seq<nat>)

  /** Translation of a linear address. `None` is a page fault, or a walk that
      would read an entry the kernel never wrote. */
  function Walk(t: PageTables, va: nat, user: bool, write: bool): Option<nat>
  {
    var d := va / PDE_SPAN;
    if d >= |t.dir| then None
    else
      var pde := t.dir[d];
      if !Present(pde) || !Permits(pde, user, write) then None
      else
        var table := EntryFrame(pde);
        if table < t.tableBase || (table - t.tableBase) % 4 != 0 then None
        else
          var k := (table - t.tableBase) / 4 + (va / PAGE_SIZE) % ENTRIES_PER_TABLE;
          if k >= |t.ptes| then None
          else
            var pte := t.ptes[k];
            if !Present(pte) || !Permits(pte, user, write) then None
            else Some(EntryFrame(pte) + va % PAGE_SIZE)
  }

  /** When the directory entry for `va` names the table at `tableBase + d *
      4096`, the walk reads table entry `va / 4096` of the array. */
  lemma WalkThrough(t: PageTables, va: nat, user: bool, write: bool)
    requires va / PDE_SPAN < |t.dir| && va / PAGE_SIZE < |t.ptes|
    requires t.tableBase % PAGE_SIZE == 0
    requires t.tableBase + (va / PDE_SPAN) * PAGE_SIZE < U32_MOD
    requires t.dir[va / PDE_SPAN] == DirEntry(t.tableBase, va / PDE_SPAN)
    ensures Walk(t, va, user, write)
      == var pte := t.ptes[va / PAGE_SIZE];
         if !Present(pte) || !Permits(pte, user, write) then None
         else Some(EntryFrame(pte) + va % PAGE_SIZE)
  {
    var d := va / PDE_SPAN;
    DirEntryValue(t.tableBase, d);
    assert (d * PAGE_SIZE) / 4 == d * ENTRIES_PER_TABLE;
    PageNumberSplits(va);
  }

  /* ---------------------------------------------------------------------
   * How many directory entries
   * ------------------------------------------------------------------- */

  /** `RAMSize / 0x400000 + (RAMSize % 0x400000 > 0 ? 1 : 0)`: the fewest
      directory entries whose span covers the whole of RAM. */
  function PdeCount(ram: nat): (n: nat)
    requires ram < U32_MOD
    ensures n <= ENTRIES_PER_TABLE
    ensures ram <= n * PDE_SPAN
    ensures n == 0 || (n - 1) * PDE_SPAN < ram
  {
    ram / PDE_SPAN + (if ram % PDE_SPAN > 0 then 1 else 0)
  }

  /** Every count meeting the covering conditions is `PdeCount`. */
  lemma PdeCountIsLeastCover(ram: nat, n: nat)
    requires ram < U32_MOD
    ensures (ram <= n * PDE_SPAN && (n == 0 || (n - 1) * PDE_SPAN < ram)) <==> n == PdeCount(ram)
  {
  }

  /* ---------------------------------------------------------------------
   * SetupPaging and SetProcessPageTable
   * ------------------------------------------------------------------- */

  /** `SetupPaging()`: directory entry `d` points at the `d`-th page table
      of the contiguous array at `PAGE_TABLE_PBASE`, and table entry `i` maps
      page `i` to itself. */
  function SetupPaging(ram: nat): (t: PageTables)
    requires ram < U32_MOD
    ensures |t.dir| == PdeCount(ram) && |t.ptes| == PdeCount(ram) * ENTRIES_PER_TABLE
    ensures t.dirBase == PAGE_DIR_PBASE && t.tableBase == PAGE_TABLE_PBASE
  {
    var n := PdeCount(ram);
    PageTables(
      PAGE_DIR_PBASE, seq(n, (d: nat) => DirEntry(PAGE_TABLE_PBASE, d)),
      PAGE_TABLE_PBASE, seq(n * ENTRIES_PER_TABLE, (i: nat) => IdentityEntry(i)))
  }

  /** The shape of a process's address space: directory entry `d` points at
      the `d`-th table of the contiguous array at `tableBase`, the first
      megabyte maps to itself and every later page `i` to `i * 4096 +
      shift`, in 32 bits. */
  function AddressSpace(ram: nat, dirBase: nat, tableBase: nat, shift: nat): (t: PageTables)
    requires ram < U32_MOD
    ensures |t.dir| == PdeCount(ram) && |t.ptes| == PdeCount(ram) * ENTRIES_PER_TABLE
    ensures t.dirBase == dirBase && t.tableBase == tableBase
  {
    var n := PdeCount(ram);
    PageTables(
      dirBase, seq(n, (d: nat) => DirEntry(tableBase, d)),
      tableBase, seq(n * ENTRIES_PER_TABLE, (i: nat) => ShiftedEntry(shift, i)))
  }

  /** `(u32)PDE` and `(u32)PTE` of process `pid`: its directory and its
      page-table array. */
  function DirArea(L: ProcessLayout, pid: nat): nat { U32(L.pdeStart + pid * L.pteSize) }
  function TableArea(L: ProcessLayout, pid: nat): nat { U32(L.pteStart + pid * L.pteSize) }

  /** `SetProcessPageTable(pid)`: the address space whose user pages are
      shifted by `PROCESS_PSIZE * pid`, with its directory and tables in the
      process's own paging area; `pageDirBase` is the directory's address. */
  function SetProcessPageTable(L: ProcessLayout, ram: nat, pid: nat): (t: PageTables)
    requires ram < U32_MOD
    ensures |t.dir| == PdeCount(ram) && |t.ptes| == PdeCount(ram) * ENTRIES_PER_TABLE
    ensures t.dirBase == DirArea(L, pid) && t.tableBase == TableArea(L, pid)
  {
    AddressSpace(ram, DirArea(L, pid), TableArea(L, pid), pid * L.psize)
  }

  /** What an address space needs for its tables to read back: the table
      array starts on a page boundary and ends below 4 GiB, and the shift is
      a whole number of pages. */
  predicate Fits(ram: nat, tableBase: nat, shift: nat)
    requires ram < U32_MOD
  {
    && tableBase % PAGE_SIZE == 0
    && tableBase + PdeCount(ram) * PAGE_SIZE <= U32_MOD
    && shift % PAGE_SIZE == 0
  }

  /** `Fits` for the tables of process `pid`. */
  predicate TablesFit(L: ProcessLayout, ram: nat, pid: nat)
    requires ram < U32_MOD
  {
    Fits(ram, TableArea(L, pid), pid * L.psize)
  }

  /** Where address `va` lives in physical memory when user pages are
      shifted by `shift`. */
  function Shifted(shift: nat, va: nat): nat
  {
    if va < USER_START then va else U32(va + shift)
  }

  /* ---------------------------------------------------------------------
   * Translations
   * ------------------------------------------------------------------- */

  /** The frame of `va`'s page plus `va`'s offset within it is `va`'s shifted
      address. */
  lemma ShiftedFramePlusOffset(shift: nat, va: nat)
    requires shift % PAGE_SIZE == 0
    ensures ShiftedFrame(shift, va / PAGE_SIZE) + va % PAGE_SIZE == Shifted(shift, va)
  {
    var p := va / PAGE_SIZE;
    if p >= USER_FIRST_PAGE {
      AlignedPlusOffset(p * PAGE_SIZE + shift, va % PAGE_SIZE);
    }
  }

  /** A covered address reads through to its shifted address. */
  lemma SpaceWalkCovered(ram: nat, dirBase: nat, tableBase: nat, shift: nat, va: nat, user: bool, write: bool)
    requires ram < U32_MOD && Fits(ram, tableBase, shift)
    requires va < PdeCount(ram) * PDE_SPAN
    ensures Walk(AddressSpace(ram, dirBase, tableBase, shift), va, user, write) == Some(Shifted(shift, va))
  {
    var t := AddressSpace(ram, dirBase, tableBase, shift);
    var d, p := va / PDE_SPAN, va / PAGE_SIZE;
    PageNumberSplits(va);
    assert t.dir[d] == DirEntry(tableBase, d);
    assert t.ptes[p] == ShiftedEntry(shift, p);
    WalkThrough(t, va, user, write);
    ShiftedEntryValue(shift, p);
    ShiftedFramePlusOffset(shift, va);
  }

  /** The first megabyte of an address space reads through to itself,
      every later covered address to its shifted address, and every address
      above the covered span faults, for every kind of access. */
  lemma SpaceWalk(ram: nat, dirBase: nat, tableBase: nat, shift: nat, va: nat, user: bool, write: bool)
    requires ram < U32_MOD && Fits(ram, tableBase, shift)
    ensures Walk(AddressSpace(ram, dirBase, tableBase, shift), va, user, write)
      == if va < PdeCount(ram) * PDE_SPAN then Some(Shifted(shift, va)) else None
  {
    if va >= PdeCount(ram) * PDE_SPAN {
      assert va / PDE_SPAN >= PdeCount(ram);
    } else {
      SpaceWalkCovered(ram, dirBase, tableBase, shift, va, user, write);
    }
  }

  /** The kernel's tables are the address space with no shift: past the
      first megabyte, `(i<<12) + 0` is `i<<12`. */
  lemma SetupPagingIsUnshiftedSpace(ram: nat)
    requires ram < U32_MOD
    ensures SetupPaging(ram) == AddressSpace(ram, PAGE_DIR_PBASE, PAGE_TABLE_PBASE, 0)
  {
    var t, u := SetupPaging(ram), AddressSpace(ram, PAGE_DIR_PBASE, PAGE_TABLE_PBASE, 0);
    assert t.dir == u.dir;
    assert t.ptes == u.ptes;
  }

  /** After `SetupPaging`, every address below the covered span translates
      to itself, for every kind of access, and every address above faults. */
  lemma IdentityWalk(ram: nat, va: nat, user: bool, write: bool)
    requires ram < U32_MOD
    ensures Walk(SetupPaging(ram), va, user, write)
      == if va < PdeCount(ram) * PDE_SPAN then Some(va) else None
  {
    SetupPagingIsUnshiftedSpace(ram);
    SpaceWalk(ram, PAGE_DIR_PBASE, PAGE_TABLE_PBASE, 0, va, user, write);
    if va < PdeCount(ram) * PDE_SPAN {
      assert Shifted(0, va) == va;
    }
  }

  /** After `SetProcessPageTable`, the kernel's first megabyte reads through
      to itself, every later covered address of the process to that address
      plus `PROCESS_PSIZE * pid`, and every address above the covered span
      faults. */
  lemma ProcessWalk(L: ProcessLayout, ram: nat, pid: nat, va: nat, user: bool, write: bool)
    requires ram < U32_MOD && TablesFit(L, ram, pid)
    ensures Walk(SetProcessPageTable(L, ram, pid), va, user, write)
      == if va < PdeCount(ram) * PDE_SPAN then Some(Shifted(pid * L.psize, va)) else None
  {
    SpaceWalk(ram, DirArea(L, pid), TableArea(L, pid), pid * L.psize, va, user, write);
  }

  /* ---------------------------------------------------------------------
   * Consequences
   * ------------------------------------------------------------------- */

  /** Where `ReadProcessToMemory` copies the image of process `pid`. */
  function LoadAddress(L: ProcessLayout, pid: nat): nat { U32(pid * L.psize + L.pstart) }

  /** A user address `off` bytes past 0x100000 lands `off` bytes past the
      shifted start of the user area. */
  lemma ShiftedUserAddress(shift: nat, off: nat)
    ensures Shifted(shift, USER_START + off) == U32(U32(shift + USER_START) + off)
  {
    U32Add(shift + USER_START, off);
  }

  /** Offset `off` past 0x100000 in an address space reads the byte at
      offset `off` of the block starting at 0x100000 + `shift`. */
  lemma SpaceImageAt(ram: nat, dirBase: nat, tableBase: nat, shift: nat, off: nat)
    requires ram < U32_MOD && Fits(ram, tableBase, shift)
    requires USER_START + off < PdeCount(ram) * PDE_SPAN
    ensures Walk(AddressSpace(ram, dirBase, tableBase, shift), USER_START + off, true, true)
      == Some(U32(U32(shift + USER_START) + off))
  {
    SpaceWalkCovered(ram, dirBase, tableBase, shift, USER_START + off, true, true);
    ShiftedUserAddress(shift, off);
  }

  /** When the image of process 0 is loaded at 0x100000, the byte the loader
      copies to offset `off` of a process's image is the byte that process
      reads at virtual address 0x100000 + `off`. */
  lemma ImageVisibleAtUserStart(L: ProcessLayout, ram: nat, pid: nat, off: nat)
    requires ram < U32_MOD && TablesFit(L, ram, pid)
    requires L.pstart == USER_START
    requires USER_START + off < PdeCount(ram) * PDE_SPAN
    ensures Walk(SetProcessPageTable(L, ram, pid), USER_START + off, true, true)
      == Some(U32(LoadAddress(L, pid) + off))
  {
    var shift := pid * L.psize;
    assert SetProcessPageTable(L, ram, pid) == AddressSpace(ram, DirArea(L, pid), TableArea(L, pid), shift);
    assert LoadAddress(L, pid) == U32(shift + USER_START);
    SpaceImageAt(ram, DirArea(L, pid), TableArea(L, pid), shift, off);
  }

  /** Every address space shares the kernel's first megabyte. */
  lemma KernelMegabyteShared(L: ProcessLayout, ram: nat, p: nat, q: nat, va: nat, user: bool, write: bool)
    requires ram < U32_MOD && TablesFit(L, ram, p) && TablesFit(L, ram, q)
    requires va < USER_START && va < PdeCount(ram) * PDE_SPAN
    ensures Walk(SetProcessPageTable(L, ram, p), va, user, write)
      == Walk(SetProcessPageTable(L, ram, q), va, user, write)
      == Walk(SetupPaging(ram), va, user, write)
      == Some(va)
  {
    ProcessWalk(L, ram, p, va, user, write);
    ProcessWalk(L, ram, q, va, user, write);
    IdentityWalk(ram, va, user, write);
  }

  /** Two user addresses of two address spaces reach the same physical byte
      exactly when they differ by the difference of the shifts. */
  lemma SpacesMeet(ram: nat, dirA: nat, tabA: nat, sa: nat, dirB: nat, tabB: nat, sb: nat, va: nat, vb: nat)
    requires ram < U32_MOD && Fits(ram, tabA, sa) && Fits(ram, tabB, sb)
    requires USER_START <= va < PdeCount(ram) * PDE_SPAN && USER_START <= vb < PdeCount(ram) * PDE_SPAN
    requires va + sa < U32_MOD && vb + sb < U32_MOD
    ensures Walk(AddressSpace(ram, dirA, tabA, sa), va, true, true)
         == Walk(AddressSpace(ram, dirB, tabB, sb), vb, true, true)
      <==> va + sa == vb + sb
  {
    SpaceWalkCovered(ram, dirA, tabA, sa, va, true, true);
    SpaceWalkCovered(ram, dirB, tabB, sb, vb, true, true);
  }

  /** Two processes reach the same physical byte through user addresses `va`
      and `vb` exactly when the addresses differ by the distance between
      their images; so the same user address of two different processes
      never meets when the images are apart. */
  lemma UserAddressesMeet(L: ProcessLayout, ram: nat, p: nat, q: nat, va: nat, vb: nat)
    requires ram < U32_MOD && TablesFit(L, ram, p) && TablesFit(L, ram, q)
    requires USER_START <= va < PdeCount(ram) * PDE_SPAN && USER_START <= vb < PdeCount(ram) * PDE_SPAN
    requires va + p * L.psize < U32_MOD && vb + q * L.psize < U32_MOD
    ensures Walk(SetProcessPageTable(L, ram, p), va, true, true)
         == Walk(SetProcessPageTable(L, ram, q), vb, true, true)
      <==> va + p * L.psize == vb + q * L.psize
  {
    SpacesMeet(ram, DirArea(L, p), TableArea(L, p), p * L.psize,
               DirArea(L, q), TableArea(L, q), q * L.psize, va, vb);
  }

  /** The entries `SetProcessPageTable` writes: directory entry `d` holds
      the `d`-th table of the process's own array, table entry `i` the
      identity frame below page 256 and the frame shifted by `PROCESS_PSIZE *
      pid` from there on, each with the present, user and writable bits. */
  lemma ProcessEntries(L: ProcessLayout, ram: nat, pid: nat, i: nat)
    requires ram < U32_MOD && TablesFit(L, ram, pid)
    requires i < PdeCount(ram) * ENTRIES_PER_TABLE
    ensures i < PdeCount(ram) ==>
      SetProcessPageTable(L, ram, pid).dir[i] == TableArea(L, pid) + i * PAGE_SIZE + 7
    ensures SetProcessPageTable(L, ram, pid).ptes[i]
      == (if i < USER_FIRST_PAGE then i * PAGE_SIZE else U32(i * PAGE_SIZE + pid * L.psize)) + 7
  {
    if i < PdeCount(ram) {
      DirEntryValue(TableArea(L, pid), i);
    }
    ShiftedEntryValue(pid * L.psize, i);
  }

  /** Past the first megabyte, the same table entry of two processes names
      frames `PROCESS_PSIZE * (q - p)` apart, as long as neither wraps. */
  lemma ProcessFramesDiffer(L: ProcessLayout, ram: nat, p: nat, q: nat, i: nat)
    requires ram < U32_MOD && TablesFit(L, ram, p) && TablesFit(L, ram, q)
    requires USER_FIRST_PAGE <= i < PdeCount(ram) * ENTRIES_PER_TABLE && p <= q
    requires i * PAGE_SIZE + q * L.psize < U32_MOD
    ensures SetProcessPageTable(L, ram, q).ptes[i]
      == SetProcessPageTable(L, ram, p).ptes[i] + (q - p) * L.psize
  {
    MulMonotone(p, q, L.psize);
    ShiftedEntryValue(p * L.psize, i);
    ShiftedEntryValue(q * L.psize, i);
    assert (q - p) * L.psize == q * L.psize - p * L.psize;
  }

  /** The paging areas of processes `p <= q` lie `PROCESS_PTE_SIZE * (q - p)`
      apart, as long as neither wraps. */
  lemma AreasSpaced(L: ProcessLayout, p: nat, q: nat)
    requires p <= q
    requires L.pdeStart + q * L.pteSize < U32_MOD && L.pteStart + q * L.pteSize < U32_MOD
    ensures DirArea(L, q) == DirArea(L, p) + (q - p) * L.pteSize
    ensures TableArea(L, q) == TableArea(L, p) + (q - p) * L.pteSize
  {
    MulMonotone(p, q, L.pteSize);
    assert (q - p) * L.pteSize == q * L.pteSize - p * L.pteSize;
  }

  /** The page-table arrays of two different processes do not overlap when
      the per-process stride leaves room for a whole array. */
  lemma TableAreasDisjoint(L: ProcessLayout, ram: nat, p: nat, q: nat)
    requires ram < U32_MOD && p < q
    requires L.pteStart + q * L.pteSize < U32_MOD
    requires PdeCount(ram) * PAGE_SIZE <= L.pteSize
    ensures TableArea(L, p) + PdeCount(ram) * PAGE_SIZE <= TableArea(L, q)
  {
    MulMonotone(p + 1, q, L.pteSize);
    assert TableArea(L, p) == L.pteStart + p * L.pteSize;
  }
}

=== FILE: process.dfy ===
/**
 * Process creation and the return to ring 3, in both kernels: the flat
 * kernel's `SetupProcess` (code/kernel/kernel32.c), which starts the tasks
 * of the `tasks[]` table inside the kernel image, and the paged kernel's
 * `SetupProcess` (code/kernel/process.c), which loads each process image
 * from disk and gives it its own address space; `restart` of both.
 */
module Process {
  import opened Defs
  import opened Arith
  import opened Descriptors
  import opened Gdt
  import opened Paging
  import opened TaskState
  import opened TimerEntry
  import opened Exceptions

  /* ---------------------------------------------------------------------
   * Selectors and flags of a fresh task
   * ------------------------------------------------------------------- */

  /** `(0x0 & SA_RPL_MASK & SA_TI_MASK) | SA_TIL | SA_RPL3`. */
  const USER_CODE: bv16 := (0x0 & SA_RPL_MASK & SA_TI_MASK) | SA_TIL | SA_RPL3
  /** `(0x8 & SA_RPL_MASK & SA_TI_MASK) | SA_TIL | SA_RPL3`. */
  const USER_DATA: bv16 := (0x8 & SA_RPL_MASK & SA_TI_MASK) | SA_TIL | SA_RPL3
  /** `(SELECTOR_VIDEO & SA_RPL_MASK) | SA_RPL3`. */
  const USER_VIDEO: bv16 := (SELECTOR_VIDEO & SA_RPL_MASK) | SA_RPL3

  /** A task's code selector names slot 0 of its own LDT, its data and
      stack selectors slot 1, and `gs` the video segment of the GDT, all at
      privilege level 3. */
  lemma UserSelectors()
    ensures USER_CODE == 0x7 && USER_DATA == 0xF && USER_VIDEO == 0x1B
    ensures SelectorIndex(USER_CODE) == 0 && SelectorTi(USER_CODE) == SA_TIL >> 2 && SelectorRpl(USER_CODE) == 3
    ensures SelectorIndex(USER_DATA) == 1 && SelectorTi(USER_DATA) == SA_TIL >> 2 && SelectorRpl(USER_DATA) == 3
    ensures SelectorIndex(USER_VIDEO) == INDEX_VIDEO && SelectorTi(USER_VIDEO) == SA_TIG && SelectorRpl(USER_VIDEO) == 3
  {
  }

  /** The initial EFLAGS of every task. */
  const USER_EFLAGS: bv32 := 0x1202

  /** 0x1202 sets IF, so the task runs with interrupts enabled and the
      timer can preempt it; bit 1, which is always 1; and I/O privilege
      level 1, below the task's level 3 (section 3.4.3 of the Intel 64 and
      IA-32 Architectures Software Developer's Manual, Volume 1). */
  lemma UserFlags()
    ensures USER_EFLAGS & 0x200 != 0
    ensures USER_EFLAGS & 0x2 != 0
    ensures (USER_EFLAGS >> 12) & 3 == 1
    ensures USER_EFLAGS & !0x3202 == 0
  {
  }

  /** The registers of a task that has not run yet, from the frame `f` the
      table entry held: the user selectors, the entry point, the stack top
      and the flags; the general registers stay as they were. */
  function UserEntry(f: StackFrame, eip: bv32, esp: bv32): StackFrame
  {
    f.(cs := USER_CODE as bv32, ds := USER_DATA as bv32, es := USER_DATA as bv32,
       fs := USER_DATA as bv32, ss := USER_DATA as bv32, gs := USER_VIDEO as bv32,
       eip := eip, esp := esp, eflags := USER_EFLAGS)
  }

  /* ---------------------------------------------------------------------
   * Local descriptor tables
   * ------------------------------------------------------------------- */

  /** The GDT descriptor of a two-entry LDT at linear address `base`. */
  function LdtDescriptor(base: bv32): Descriptor
  {
    SetDesEntry(base, (LDT_SIZE * 8 - 1) as bv32, DA_LDT)
  }

  /** It is based at `base`, admits exactly the bytes of the two
      descriptors, and is a system segment of type LDT with DPL 0. */
  lemma LdtDescriptorFields(base: bv32)
    ensures DescriptorBase(LdtDescriptor(base)) == base
    ensures ByteLimit(LdtDescriptor(base)) + 1 == LDT_SIZE * 8
    ensures DescriptorAttr(LdtDescriptor(base)) == DA_LDT && Dpl(LdtDescriptor(base)) == 0
  {
  }

  /** The selector of process `i`'s LDT. */
  function LdtSelector(i: nat): bv16
    requires i < MAX_TASKS
  {
    SELECTOR_LDT_FIRST + 0x8 * i as bv16
  }

  /** It names GDT slot `INDEX_LDT_FIRST + i`, which is where both builds
      put that LDT's descriptor, at privilege level 3. */
  lemma LdtSelectorFields(i: nat)
    requires i < MAX_TASKS
    ensures SelectorIndex(LdtSelector(i)) as nat == INDEX_LDT_FIRST as nat + i
    ensures SelectorTi(LdtSelector(i)) == 0 && SelectorRpl(LdtSelector(i)) == 3
  {
  }

  /** With the GDT limit the table's size calls for, every LDT selector
      lies within the table; with the limit `SetGdt` writes, only those of
      processes 0 to 4 do. */
  lemma LdtSelectorsAgainstGdtLimit(i: nat)
    requires i < MAX_TASKS
    ensures SlotWithinLimit(GDT_LIMIT_INTENDED, SelectorIndex(LdtSelector(i)) as nat)
    ensures SlotWithinLimit(GDT_LIMIT_AS_WRITTEN, SelectorIndex(LdtSelector(i)) as nat) <==> i < 5
  {
  }

  /** The two LDT entries of a flat-kernel task. */
  const FLAT_USER_CODE := SetDesEntry(0x90000, 0xfffff, DA_C | DA_DPL3 | DA_32)
  const FLAT_USER_DATA := SetDesEntry(0x90000, 0xfffff, DA_DRW | DA_DPL3)

  /** The two LDT entries of a paged-kernel process. */
  const PAGED_USER_CODE := SetDesEntry(0, 0x10f, DA_C | DA_DPL3 | DA_32 | DA_LIMIT_4K)
  const PAGED_USER_DATA := SetDesEntry(0, 0x10f, DA_DRW | DA_DPL3 | DA_32 | DA_LIMIT_4K)

  /** The LDT each process of either build gets: code, then data. */
  const FLAT_LDT: seq<Descriptor> := [FLAT_USER_CODE, FLAT_USER_DATA]
  const PAGED_LDT: seq<Descriptor> := [PAGED_USER_CODE, PAGED_USER_DATA]

  /** Where a paged-kernel process starts and where its stack starts. */
  const USER_ENTRY: bv32 := 0x100000
  const USER_STACK_TOP: bv32 := 0x10ffff

  /** A flat-kernel task's segments are the kernel image seen from ring 3:
      base 0x90000, a byte-granular limit of 0xFFFFF, DPL 3; the code
      segment is 32-bit execute-only code, the data segment a 16-bit
      writable one. */
  lemma FlatUserSegments()
    ensures DescriptorBase(FLAT_USER_CODE) == 0x90000 && DescriptorBase(FLAT_USER_DATA) == 0x90000
    ensures ByteLimit(FLAT_USER_CODE) == 0xFFFFF && ByteLimit(FLAT_USER_DATA) == 0xFFFFF
    ensures Dpl(FLAT_USER_CODE) == 3 && Dpl(FLAT_USER_DATA) == 3
    ensures FLAT_USER_CODE.attr1 == 0xF8 && Default32(FLAT_USER_CODE)
    ensures FLAT_USER_DATA.attr1 == 0xF2 && !Default32(FLAT_USER_DATA)
  {
  }

  /** A paged-kernel process's segments start at linear 0 and are 32-bit,
      4 KiB-granular and DPL 3, and their limit covers the entry point and
      the initial stack top. */
  lemma PagedUserSegments()
    ensures DescriptorBase(PAGED_USER_CODE) == 0 && DescriptorBase(PAGED_USER_DATA) == 0
    ensures ByteLimit(PAGED_USER_CODE) == 0x10FFFF && ByteLimit(PAGED_USER_DATA) == 0x10FFFF
    ensures Dpl(PAGED_USER_CODE) == 3 && Dpl(PAGED_USER_DATA) == 3
    ensures Granular4K(PAGED_USER_CODE) && Default32(PAGED_USER_CODE)
    ensures Granular4K(PAGED_USER_DATA) && Default32(PAGED_USER_DATA)
    ensures USER_ENTRY as nat <= ByteLimit(PAGED_USER_CODE)
    ensures USER_STACK_TOP as nat <= ByteLimit(PAGED_USER_DATA)
  {
  }

  /* ---------------------------------------------------------------------
   * The flat kernel's SetupProcess
   * ------------------------------------------------------------------- */

  /** GDT slot of process 0's LDT descriptor, as a table index. */
  const LDT_SLOT: nat := 5

  lemma LdtSlotIsIndex()
    ensures LDT_SLOT == INDEX_LDT_FIRST as nat
  {
  }

  /** The `tasks[MAX_TASKS]` table: the four tasks' entry points `entries`
      (function addresses in the kernel image), their 16 KiB stacks from
      0x100000 up and their priorities; the remaining entries are zero. */
  function TaskTable(entries: seq<bv32>): (t: seq<Task>)
    requires |entries| == 4
    ensures |t| == MAX_TASKS
  {
    [Task(entries[0], 0x100000, 0x4000, 800), Task(entries[1], 0x104000, 0x4000, 500),
     Task(entries[2], 0x108000, 0x4000, 250), Task(entries[3], 0x10C000, 0x4000, 100)]
    + seq(MAX_TASKS - 4, _ => Task(0, 0, 0, 0))
  }

  /** A task's initial `esp`: the 32-bit sum of its stack base and size. */
  function StackTop(t: Task): bv32
  {
    t.stackBase + t.stackSize
  }

  /** Process `i` after the loop body ran for it, in either build: `q` was
      `p`, and now has pid `i`, tick and priority `priority`, the selector of
      its own LDT, the LDT entries `ldts` and the registers of a task about
      to start at `eip` with stack `esp`. */
  predicate Started(q: Pcb, p: Pcb, i: nat, priority: nat, ldts: seq<Descriptor>, eip: bv32, esp: bv32)
  {
    && i < MAX_TASKS
    && q.pid == i && q.tick == priority && q.priority == priority
    && q.ldtSelector == LdtSelector(i) && q.ldts == ldts
    && q.regs == UserEntry(p.regs, eip, esp)
  }

  /** Whether the 32-bit register value `s` holds a 16-bit selector of slot
      `index` of the table `ti` (0 for the GDT, 1 for the LDT) at privilege
      level `rpl`. */
  predicate SelectsSlot(s: bv32, ti: bv16, index: bv16, rpl: bv16)
  {
    s < 0x10000 && SelectorTi(s as bv16) == ti && SelectorIndex(s as bv16) == index
    && SelectorRpl(s as bv16) == rpl
  }

  /** What `restart` finds in process `i`'s entry `q` before the task
      first runs: `cs` selects slot 0 of the task's own LDT and `ss`, `ds`,
      `es` and `fs` slot 1; `gs` selects the video slot of the GDT; all at
      privilege level 3; EFLAGS has IF set and I/O privilege level 1;
      execution starts at `eip` on the stack `esp`; and the LDT selector
      names GDT slot `INDEX_LDT_FIRST + i`. */
  predicate EntersRing3(q: Pcb, i: nat, eip: bv32, esp: bv32)
  {
    && SelectsSlot(q.regs.cs, 1, 0, 3)
    && SelectsSlot(q.regs.ss, 1, 1, 3) && SelectsSlot(q.regs.ds, 1, 1, 3)
    && SelectsSlot(q.regs.es, 1, 1, 3) && SelectsSlot(q.regs.fs, 1, 1, 3)
    && SelectsSlot(q.regs.gs, 0, INDEX_VIDEO, 3)
    && q.regs.eflags & 0x200 != 0 && (q.regs.eflags >> 12) & 3 == 1
    && q.regs.eip == eip && q.regs.esp == esp
    && SelectorIndex(q.ldtSelector) as nat == INDEX_LDT_FIRST as nat + i
    && SelectorTi(q.ldtSelector) == 0 && SelectorRpl(q.ldtSelector) == 3
  }

  /** The loop body's update of process `i`'s entry. When `restart` first
      loads it, the task fetches code through slot 0 of its own LDT and
      uses slot 1 for its stack and data, `gs` reaches the video segment of
      the GDT, all at privilege level 3; interrupts are enabled and the I/O
      privilege level is 1; execution starts at `eip` on the stack `esp`;
      and `lldt` loads the selector of GDT slot `INDEX_LDT_FIRST + i`, where
      process `i`'s LDT descriptor lives. */
  function StartPcb(p: Pcb, i: nat, priority: nat, ldts: seq<Descriptor>, eip: bv32, esp: bv32): (q: Pcb)
    requires i < MAX_TASKS
    ensures Started(q, p, i, priority, ldts, eip, esp) && q.pageDirBase == p.pageDirBase
    ensures EntersRing3(q, i, eip, esp)
  {
    UserSelectors();
    UserFlags();
    LdtSelectorFields(i);
    p.(pid := i, priority := priority, tick := priority,
       ldtSelector := LdtSelector(i), ldts := ldts, regs := UserEntry(p.regs, eip, esp))
  }

  /** The GDT slots `SetupProcess` leaves alone once `n` processes are
      started: all but `LDT_SLOT .. LDT_SLOT + n`. */
  predicate OutsideLdtSlots(s: nat, n: nat)
  {
    s < LDT_SLOT || LDT_SLOT + n <= s
  }

  /** The GDT half of `SetupProcess`'s loop: for each `i < n`, the
      descriptor `ldtOf(i)` of process `i`'s LDT goes into slot
      `INDEX_LDT_FIRST + i`. Those `n` slots then hold the `n` descriptors
      and every other slot keeps its own. */
  method FillLdtSlots(gdt: seq<Descriptor>, ldtOf: nat -> Descriptor, n: nat) returns (g: seq<Descriptor>)
    requires |gdt| == GDT_ENTRIES && n <= MAX_TASKS
    ensures |g| == GDT_ENTRIES
    ensures forall i :: 0 <= i < n ==> g[LDT_SLOT + i] == ldtOf(i)
    ensures forall s :: 0 <= s < GDT_ENTRIES && OutsideLdtSlots(s, n) ==> g[s] == gdt[s]
  {
    g := gdt;
    var i := 0;
    while i < n
      invariant 0 <= i <= n && |g| == GDT_ENTRIES
      invariant forall j :: 0 <= j < i ==> g[LDT_SLOT + j] == ldtOf(j)
      invariant forall s :: 0 <= s < GDT_ENTRIES && OutsideLdtSlots(s, i) ==> g[s] == gdt[s]
    {
      g := g[LDT_SLOT + i := ldtOf(i)];
      i := i + 1;
    }
  }

  /** The flat kernel's `SetupProcess()`. `ldtsAt(i)` is `(u32)process[i].ldts`,
      the offset of process `i`'s LDT in the kernel segment; the GDT
      descriptor adds the segment base 0x90000 to it. The flat build has no
      check on `taskCount`: its callers must keep it within the table.
      The loop's two halves touch disjoint state, so the GDT half is
      modelled first, by `FillLdtSlots`, and the table half after it. Each started
      process runs task `i` from its entry point on the top of its own
      stack (base plus size); processes from `taskCount` on, and every GDT
      slot but those of the started processes' LDTs, are left as they were;
      `reEnter` is reset to "no interrupt in progress". */
  method SetupFlatProcess(tasks: seq<Task>, taskCount: nat, gdt: seq<Descriptor>, table: seq<Pcb>, ldtsAt: nat -> bv32)
    returns (newGdt: seq<Descriptor>, newTable: seq<Pcb>, reEnter: int)
    requires |tasks| == MAX_TASKS && taskCount <= MAX_TASKS
    requires |gdt| == GDT_ENTRIES && |table| == MAX_TASKS
    ensures reEnter == IDLE
    ensures |newGdt| == GDT_ENTRIES && |newTable| == MAX_TASKS
    ensures forall i :: 0 <= i < taskCount ==>
      Started(newTable[i], table[i], i, tasks[i].priority, FLAT_LDT,
              tasks[i].eip, StackTop(tasks[i]))
    ensures forall i :: 0 <= i < taskCount ==> newGdt[LDT_SLOT + i] == LdtDescriptor(ldtsAt(i) + KERNEL_BASE)
    ensures forall i :: taskCount <= i < MAX_TASKS ==> newTable[i] == table[i]
    ensures forall s :: 0 <= s < GDT_ENTRIES && OutsideLdtSlots(s, taskCount) ==> newGdt[s] == gdt[s]
  {
    var ldtOf := (j: nat) => LdtDescriptor(ldtsAt(j) + 0x90000);
    newGdt := FillLdtSlots(gdt, ldtOf, taskCount);
    forall i | 0 <= i < taskCount
      ensures newGdt[LDT_SLOT + i] == LdtDescriptor(ldtsAt(i) + KERNEL_BASE)
    {
      assert newGdt[LDT_SLOT + i] == ldtOf(i);
    }
    newTable := table;
    var i := 0;
    while i < taskCount
      invariant 0 <= i <= taskCount && |newTable| == MAX_TASKS
      invariant forall j :: 0 <= j < i ==>
        Started(newTable[j], table[j], j, tasks[j].priority, FLAT_LDT,
                tasks[j].eip, StackTop(tasks[j]))
      invariant forall j :: i <= j < MAX_TASKS ==> newTable[j] == table[j]
    {
      var t := tasks[i];
      newTable := newTable[i := StartPcb(newTable[i], i, t.priority, FLAT_LDT, t.eip, StackTop(t))];
      i := i + 1;
    }
    reEnter := IDLE;
  }

  /** As written, every byte of the four tasks' stacks lies past the limit
      of the data segment their `ss` selects, and that segment is a 16-bit
      one, so a stack access through a 32-bit address faults with #SS. */
  lemma FlatStacksBeyondDataLimit(entries: seq<bv32>)
    requires |entries| == 4
    ensures forall i :: 0 <= i < 4 ==>
      ByteLimit(FLAT_USER_DATA) < TaskTable(entries)[i].stackBase as nat
    ensures !Default32(FLAT_USER_DATA)
  {
    FlatUserSegments();
  }

  /** The data segment the flat tasks' stacks call for: the same base, and
      the 4 KiB granularity and 32-bit flag the paged kernel gives its data
      segment. */
  const FLAT_USER_DATA_INTENDED := SetDesEntry(0x90000, 0xfffff, DA_DRW | DA_DPL3 | DA_32 | DA_LIMIT_4K)

  /** With that segment, each task's whole stack lies within the limit, the
      stack is 32-bit, and the segment is still a DPL 3 writable data
      segment based at the kernel image. */
  lemma FlatStacksWithinIntendedData(entries: seq<bv32>)
    requires |entries| == 4
    ensures forall i :: 0 <= i < 4 ==>
      var t := TaskTable(entries)[i];
      t.stackBase as nat + t.stackSize as nat - 1 <= ByteLimit(FLAT_USER_DATA_INTENDED)
    ensures Default32(FLAT_USER_DATA_INTENDED) && Dpl(FLAT_USER_DATA_INTENDED) == 3
    ensures DescriptorBase(FLAT_USER_DATA_INTENDED) == 0x90000 && FLAT_USER_DATA_INTENDED.attr1 == 0xF2
  {
  }

  /* ---------------------------------------------------------------------
   * Reading a process image (`ReadProcessToMemory` of the paged kernel)
   * ------------------------------------------------------------------- */

  /** The first sector of process `pid`'s image, a 32-bit sum. */
  function FirstSector(L: ProcessLayout, pid: nat): nat
  {
    U32(pid * L.totalSector + L.startSector)
  }

  /** The sector runs of processes `p < q` are consecutive blocks of
      `PROCESS_TOTAL_SECTOR` sectors, `q - p` blocks apart, so no sector is
      read for two processes; this holds as long as no start wraps. */
  lemma SectorRunsDisjoint(L: ProcessLayout, p: nat, q: nat)
    requires p < q && q * L.totalSector + L.startSector < U32_MOD
    ensures FirstSector(L, q) == FirstSector(L, p) + (q - p) * L.totalSector
    ensures FirstSector(L, p) + L.totalSector <= FirstSector(L, q)
  {
    MulMonotone(p, q, L.totalSector);
    MulMonotone(1, q - p, L.totalSector);
    assert (q - p) * L.totalSector == q * L.totalSector - p * L.totalSector;
  }

  /** Sectors an LBA28 address reaches. */
  const LBA28_SECTORS: nat := 0x1000_0000

  /** The sector a controller in LBA28 mode reads when `ReadDisk` is asked
      for `sector`: the low 28 bits, as `LbaRegistersAddress` shows. */
  function Lba28(sector: nat): nat
  {
    sector % LBA28_SECTORS
  }

  /** The bytes `ReadDisk` writes to ports 0x1F3, 0x1F4, 0x1F5 and 0x1F6:
      bits 0-7, 8-15 and 16-23 of the sector, then the LBA-mode bits 0xE0
      with bits 24-27 in the low nibble. Bits 28-31 are sent nowhere. */
  function LbaRegisters(sector: nat): (regs: seq<nat>)
    ensures |regs| == 4 && forall j :: 0 <= j < 4 ==> regs[j] < 256
    ensures regs[3] / 16 == 0xE
  {
    [sector % 256, sector / 256 % 256, sector / 256 / 256 % 256, 0xE0 + sector / 256 / 256 / 256 % 16]
  }

  /** The sector number an ATA controller in LBA mode assembles from the
      four address registers: register 0x1F6 adds its low nibble only. */
  function LbaAddress(regs: seq<nat>): nat
    requires |regs| == 4
  {
    regs[0] + 256 * regs[1] + 256 * 256 * regs[2] + 256 * 256 * 256 * (regs[3] % 16)
  }

  /** What `ReadDisk` sends for `sector` addresses sector `sector` modulo
      2^28: below 2^28 the sector itself, above it a low sector again. */
  lemma LbaRegistersAddress(sector: nat)
    ensures LbaAddress(LbaRegisters(sector)) == Lba28(sector)
    ensures sector < LBA28_SECTORS ==> LbaAddress(LbaRegisters(sector)) == sector
  {
    var t1 := sector / 256;
    var t2 := t1 / 256;
    var t3 := t2 / 256;
    var t4 := t3 / 16;
    assert sector == sector % 256 + 256 * t1;
    assert t1 == t1 % 256 + 256 * t2;
    assert t2 == t2 % 256 + 256 * t3;
    assert t3 == t3 % 16 + 16 * t4;
    var low := LbaAddress(LbaRegisters(sector));
    assert low == sector % 256 + 256 * (t1 % 256) + 256 * 256 * (t2 % 256) + 256 * 256 * 256 * (t3 % 16);
    assert sector == low + LBA28_SECTORS * t4;
    assert low < LBA28_SECTORS;
  }

  /** `ReadDisk(sector, addr)`: one sector of `disk` into memory at
      `addr`, the sector the controller is sent through the address
      registers. Port I/O is not modelled, only the transfer. */
  function ReadDisk(disk: seq<bv8>, mem: seq<bv8>, sector: nat, addr: nat): (m: seq<bv8>)
    requires (Lba28(sector) + 1) * SECTOR_BYTES <= |disk| && addr + SECTOR_BYTES <= |mem|
    ensures |m| == |mem|
    ensures Holds(m, addr, disk, Lba28(sector) * SECTOR_BYTES, SECTOR_BYTES)
    ensures forall k :: 0 <= k < |mem| && Outside(k, addr, SECTOR_BYTES) ==> m[k] == mem[k]
  {
    LbaRegistersAddress(sector);
    StoreSector(disk, mem, LbaAddress(LbaRegisters(sector)), addr)
  }

  /** Asking for sector `LBA28_SECTORS + s` reads sector `s` again. */
  lemma ReadDiskWraps(disk: seq<bv8>, mem: seq<bv8>, s: nat, addr: nat)
    requires s < LBA28_SECTORS
    requires (s + 1) * SECTOR_BYTES <= |disk| && addr + SECTOR_BYTES <= |mem|
    ensures Lba28(LBA28_SECTORS + s) == s
    ensures ReadDisk(disk, mem, LBA28_SECTORS + s, addr) == ReadDisk(disk, mem, s, addr)
  {
    RegistersDropHighBits(s);
  }

  /** Sectors `s` and `2^28 + s` put the same bytes in the address
      registers. */
  lemma RegistersDropHighBits(s: nat)
    ensures LbaRegisters(LBA28_SECTORS + s) == LbaRegisters(s)
  {
    var x := LBA28_SECTORS + s;
    assert x / 256 == 0x10_0000 + s / 256;
    assert x / 256 / 256 == 0x1000 + s / 256 / 256;
    assert x / 256 / 256 / 256 == 16 + s / 256 / 256 / 256;
  }

  /** The sectors `first`, `first + 1`, ... up to `count` of them, as the
      controller reads them, all lie on the disk. */
  predicate SectorsOnDisk(diskSize: nat, first: nat, count: nat)
  {
    forall s :: first <= s < first + count ==> (Lba28(s) + 1) * SECTOR_BYTES <= diskSize
  }

  /** Memory from `buffer` on holds, sector after sector, what the
      controller reads when asked for `first`, `first + 1`, ... */
  predicate SectorsRead(m: seq<bv8>, buffer: nat, disk: seq<bv8>, first: nat, count: nat)
  {
    forall k :: 0 <= k < count * SECTOR_BYTES ==>
      buffer + k < |m| && Lba28(first + k / SECTOR_BYTES) * SECTOR_BYTES + k % SECTOR_BYTES < |disk| &&
      m[buffer + k] == disk[Lba28(first + k / SECTOR_BYTES) * SECTOR_BYTES + k % SECTOR_BYTES]
  }

  /** A run of sectors below 2^28 is read as one contiguous run of bytes. */
  lemma ContiguousBelowLba28(m: seq<bv8>, buffer: nat, disk: seq<bv8>, first: nat, count: nat)
    requires first + count <= LBA28_SECTORS
    requires SectorsRead(m, buffer, disk, first, count)
    requires (first + count) * SECTOR_BYTES <= |disk| && buffer + count * SECTOR_BYTES <= |m|
    ensures Holds(m, buffer, disk, first * SECTOR_BYTES, count * SECTOR_BYTES)
  {
    forall k | buffer <= k < buffer + count * SECTOR_BYTES
      ensures m[k] == disk[first * SECTOR_BYTES + (k - buffer)]
    {
      var j := k - buffer;
      var i := j / SECTOR_BYTES;
      assert j == i * SECTOR_BYTES + j % SECTOR_BYTES;
      assert i < count;
      assert Lba28(first + i) == first + i;
      assert m[buffer + j] == disk[Lba28(first + i) * SECTOR_BYTES + j % SECTOR_BYTES];
    }
  }

  /** The loop `ReadDisk(startSector + i, tempAddr + i * DISK_SECTOR_SIZE)`
      for `i < count`: sector after sector lands back to back from
      `buffer` on, a consecutive run of the disk when it stays below 2^28,
      and nothing else in memory changes. */
  method ReadSectors(disk: seq<bv8>, mem: seq<bv8>, first: nat, count: nat, buffer: nat) returns (m: seq<bv8>)
    requires SectorsOnDisk(|disk|, first, count)
    requires buffer + count * SECTOR_BYTES <= |mem|
    ensures |m| == |mem|
    ensures SectorsRead(m, buffer, disk, first, count)
    ensures 0 < count && first + count <= LBA28_SECTORS ==> Holds(m, buffer, disk, first * SECTOR_BYTES, count * SECTOR_BYTES)
    ensures forall k :: 0 <= k < |mem| && Outside(k, buffer, count * SECTOR_BYTES) ==> m[k] == mem[k]
  {
    m := mem;
    var i := 0;
    while i < count
      invariant 0 <= i <= count && |m| == |mem|
      invariant SectorsRead(m, buffer, disk, first, i)
      invariant forall k :: 0 <= k < |mem| && Outside(k, buffer, i * SECTOR_BYTES) ==> m[k] == mem[k]
    {
      var addr := buffer + i * SECTOR_BYTES;
      ghost var before := m;
      m := ReadDisk(disk, m, first + i, addr);
      forall k | 0 <= k < (i + 1) * SECTOR_BYTES
        ensures buffer + k < |m| && Lba28(first + k / SECTOR_BYTES) * SECTOR_BYTES + k % SECTOR_BYTES < |disk|
        ensures m[buffer + k] == disk[Lba28(first + k / SECTOR_BYTES) * SECTOR_BYTES + k % SECTOR_BYTES]
      {
        if k < i * SECTOR_BYTES {
          assert Outside(buffer + k, addr, SECTOR_BYTES);
        } else {
          assert k / SECTOR_BYTES == i && k % SECTOR_BYTES == k - i * SECTOR_BYTES;
          assert m[addr + (k - i * SECTOR_BYTES)] == disk[Lba28(first + i) * SECTOR_BYTES + (k - i * SECTOR_BYTES)];
        }
      }
      i := i + 1;
    }
    if first + count <= LBA28_SECTORS && count > 0 {
      assert (Lba28(first + (count - 1)) + 1) * SECTOR_BYTES <= |disk|;
      assert Lba28(first + (count - 1)) == first + count - 1;
      ContiguousBelowLba28(m, buffer, disk, first, count);
    }
  }

  /** The byte loop `v[i] = f[i]` for `i < size`, from `from` to `to`. It
      copies exactly when the destination does not start inside the
      source (a forward copy never reads a byte it has already written),
      and it writes nothing outside the destination. */
  method CopyBytes(mem: seq<bv8>, from: nat, to: nat, size: nat) returns (m: seq<bv8>)
    requires from + size <= |mem| && to + size <= |mem|
    ensures |m| == |mem|
    ensures to <= from || from + size <= to ==> Holds(m, to, mem, from, size)
    ensures forall k :: 0 <= k < |mem| && Outside(k, to, size) ==> m[k] == mem[k]
  {
    m := mem;
    var i := 0;
    while i < size
      invariant 0 <= i <= size && |m| == |mem|
      invariant to <= from || from + size <= to ==> Holds(m, to, mem, from, i)
      invariant forall k :: 0 <= k < |mem| && Outside(k, to, i) ==> m[k] == mem[k]
    {
      if to <= from || from + size <= to {
        assert Outside(from + i, to, i);
      }
      m := m[to + i := m[from + i]];
      i := i + 1;
    }
  }

  /** The first program header of a process's ELF file: where its loadable
      segment starts in the file (`p_offset`) and how large it is in memory
      (`p_memsz`). ELF parsing is not modelled; the two are inputs. */
  datatype ImageHeader = ImageHeader(offset: nat, memSize: nat)

  /** Bytes of the disk buffer. */
  function BufferBytes(L: ProcessLayout): nat { L.totalSector * SECTOR_BYTES }

  /** The image's sectors, at least one, lie below 2^28, where `ReadDisk`
      reads them as numbered, its segment lies inside the sectors read, and its
      destination lies clear of the buffer. */
  predicate Placed(L: ProcessLayout, pid: nat, h: ImageHeader)
  {
    && 0 < L.totalSector && FirstSector(L, pid) + L.totalSector <= LBA28_SECTORS
    && h.offset + h.memSize <= BufferBytes(L)
    && (LoadAddress(L, pid) + h.memSize <= L.loadBuffer || L.loadBuffer + BufferBytes(L) <= LoadAddress(L, pid))
  }

  /** The addresses `ReadProcessToMemory` touches lie in the modelled
      memory, and the sectors it reads on the modelled disk. */
  predicate InRange(L: ProcessLayout, diskSize: nat, memSize: nat, pid: nat, h: ImageHeader)
  {
    && memSize <= U32_MOD
    && SectorsOnDisk(diskSize, FirstSector(L, pid), L.totalSector)
    && L.loadBuffer + BufferBytes(L) <= memSize
    && U32(h.offset + L.loadBuffer) + h.memSize <= memSize
    && LoadAddress(L, pid) + h.memSize <= memSize
  }

  /** Process `pid`'s segment, as it is on disk, sits at its load address. */
  predicate ImageAt(L: ProcessLayout, pid: nat, h: ImageHeader, disk: seq<bv8>, mem: seq<bv8>)
  {
    Holds(mem, LoadAddress(L, pid), disk, FirstSector(L, pid) * SECTOR_BYTES + h.offset, h.memSize)
  }

  /** `ReadProcessToMemory(pid)`: read the process's sectors into the
      buffer, then copy its segment to `pid * PROCESS_PSIZE +
      PROCESS_PSTART`. When the segment was among the sectors read and the
      destination is clear of the buffer, the destination holds exactly the
      segment's bytes from disk; in any case only the buffer and the
      destination change. */
  method ReadProcessToMemory(L: ProcessLayout, pid: nat, h: ImageHeader, disk: seq<bv8>, mem: seq<bv8>) returns (m: seq<bv8>)
    requires InRange(L, |disk|, |mem|, pid, h)
    ensures |m| == |mem|
    ensures Placed(L, pid, h) ==> ImageAt(L, pid, h, disk, m)
    ensures forall k :: (0 <= k < |mem| && Outside(k, L.loadBuffer, BufferBytes(L)) &&
      Outside(k, LoadAddress(L, pid), h.memSize)) ==> m[k] == mem[k]
  {
    var startSector := FirstSector(L, pid);
    m := ReadSectors(disk, mem, startSector, L.totalSector, L.loadBuffer);
    var vaddr := LoadAddress(L, pid);
    var faddr := U32(h.offset + L.loadBuffer);
    ghost var read := m;
    m := CopyBytes(m, faddr, vaddr, h.memSize);
    if Placed(L, pid, h) && h.memSize > 0 {
      assert faddr == L.loadBuffer + h.offset;
      ImageFromBuffer(L, pid, h, disk, read, m);
    } else if Placed(L, pid, h) {
      assert FirstSector(L, pid) * SECTOR_BYTES + BufferBytes(L) <= |disk|;
    }
  }

  /** Bytes copied out of the buffer at the segment's offset are the
      segment's bytes on disk. */
  lemma ImageFromBuffer(L: ProcessLayout, pid: nat, h: ImageHeader, disk: seq<bv8>, read: seq<bv8>, m: seq<bv8>)
    requires Placed(L, pid, h)
    requires Holds(read, L.loadBuffer, disk, FirstSector(L, pid) * SECTOR_BYTES, BufferBytes(L))
    requires Holds(m, LoadAddress(L, pid), read, L.loadBuffer + h.offset, h.memSize)
    ensures ImageAt(L, pid, h, disk, m)
  {
    var vaddr := LoadAddress(L, pid);
    var first := FirstSector(L, pid) * SECTOR_BYTES;
    forall k | vaddr <= k < vaddr + h.memSize
      ensures m[k] == disk[first + h.offset + (k - vaddr)]
    {
      assert m[k] == read[L.loadBuffer + h.offset + (k - vaddr)];
    }
  }

  /* ---------------------------------------------------------------------
   * The paged kernel's SetupProcess
   * ------------------------------------------------------------------- */

  /** The outcome of `SetupProcess()`: it prints an error and spins when
      more processes are requested than the table holds. */
  datatype Setup =
    | Halted
    | Ready(gdt: seq<Descriptor>, table: seq<Pcb>, mem: seq<bv8>)

  /** The destinations of processes `p < q < n` do not overlap. */
  predicate ImagesApart(L: ProcessLayout, headers: seq<ImageHeader>, n: nat)
    requires n <= |headers|
  {
    forall p, q :: 0 <= p < q < n ==>
      LoadAddress(L, p) + headers[p].memSize <= LoadAddress(L, q)
      || LoadAddress(L, q) + headers[q].memSize <= LoadAddress(L, p)
  }

  /** Each of the first `n` images is placed, and they are apart. */
  predicate WellPlaced(L: ProcessLayout, headers: seq<ImageHeader>, n: nat)
    requires n <= |headers|
  {
    (forall p :: 0 <= p < n ==> Placed(L, p, headers[p])) && ImagesApart(L, headers, n)
  }

  /** The first `n` images sit at their load addresses. */
  predicate ImagesLoaded(L: ProcessLayout, headers: seq<ImageHeader>, disk: seq<bv8>, mem: seq<bv8>, n: nat)
    requires n <= |headers|
  {
    forall p :: 0 <= p < n ==> ImageAt(L, p, headers[p], disk, mem)
  }

  /** The paged kernel's `SetupProcess()`: refuse more than `MAX_TASKS`
      processes; otherwise for each `i < taskCount` fill process table entry
      `i` and its LDT descriptor in GDT slot `INDEX_LDT_FIRST + i` (at the
      LDT's address `ldtsAt(i)` itself), load the process image, and point
      `pageDirBase` at the page directory `SetProcessPageTable(i)` builds.
      The three parts of the loop body touch disjoint state, so they are
      modelled as `FillLdtSlots`, `LoadImages` and `StartPagedEntries` one
      after the other. When every image was among its sectors and clear of the buffer and of
      the other images, all of them are in place at the end. */
  method SetupPagedProcess(L: ProcessLayout, ram: nat, priority: seq<nat>, taskCount: nat,
                           headers: seq<ImageHeader>, disk: seq<bv8>,
                           gdt: seq<Descriptor>, table: seq<Pcb>, mem: seq<bv8>, ldtsAt: nat -> bv32)
    returns (r: Setup)
    requires ram < U32_MOD && |priority| == MAX_TASKS
    requires |gdt| == GDT_ENTRIES && |table| == MAX_TASKS && |headers| == MAX_TASKS
    requires forall i :: 0 <= i < taskCount && i < MAX_TASKS ==> InRange(L, |disk|, |mem|, i, headers[i])
    ensures r.Halted? <==> taskCount > MAX_TASKS
    ensures r.Ready? ==> |r.gdt| == GDT_ENTRIES && |r.table| == MAX_TASKS && |r.mem| == |mem|
    ensures r.Ready? ==> forall i :: 0 <= i < taskCount ==>
      && Started(r.table[i], table[i], i, priority[i], PAGED_LDT, USER_ENTRY, USER_STACK_TOP)
      && r.table[i].pageDirBase == SetProcessPageTable(L, ram, i).dirBase
      && r.gdt[LDT_SLOT + i] == LdtDescriptor(ldtsAt(i))
    ensures r.Ready? ==> forall i :: taskCount <= i < MAX_TASKS ==> r.table[i] == table[i]
    ensures r.Ready? ==> forall s :: 0 <= s < GDT_ENTRIES && OutsideLdtSlots(s, taskCount) ==> r.gdt[s] == gdt[s]
    ensures r.Ready? && WellPlaced(L, headers, taskCount) ==> ImagesLoaded(L, headers, disk, r.mem, taskCount)
  {
    if taskCount > MAX_TASKS {
      return Halted;
    }
    var ldtOf := (j: nat) => LdtDescriptor(ldtsAt(j));
    var newGdt := FillLdtSlots(gdt, ldtOf, taskCount);
    forall i | 0 <= i < taskCount
      ensures newGdt[LDT_SLOT + i] == LdtDescriptor(ldtsAt(i))
    {
      assert newGdt[LDT_SLOT + i] == ldtOf(i);
    }
    var m := LoadImages(L, headers, disk, mem, taskCount);
    var newTable := StartPagedEntries(L, ram, priority, table, taskCount);
    r := Ready(newGdt, newTable, m);
  }

  /** The image half of the paged kernel's loop: `ReadProcessToMemory(i)`
      for each `i < n`. When the images are placed and apart, all `n` of
      them are in place at the end. */
  method LoadImages(L: ProcessLayout, headers: seq<ImageHeader>, disk: seq<bv8>, mem: seq<bv8>, n: nat)
    returns (m: seq<bv8>)
    requires n <= |headers|
    requires forall i :: 0 <= i < n ==> InRange(L, |disk|, |mem|, i, headers[i])
    ensures |m| == |mem|
    ensures WellPlaced(L, headers, n) ==> ImagesLoaded(L, headers, disk, m, n)
  {
    m := mem;
    var i := 0;
    while i < n
      invariant 0 <= i <= n && |m| == |mem|
      invariant WellPlaced(L, headers, i) ==> ImagesLoaded(L, headers, disk, m, i)
    {
      var before := m;
      m := ReadProcessToMemory(L, i, headers[i], disk, m);
      LoadKeepsEarlierImages(L, headers, disk, before, m, i);
      i := i + 1;
    }
  }

  /** The process-table half of the paged kernel's loop: entry `i < n` is
      started at `USER_ENTRY` with stack `USER_STACK_TOP`, priority
      `priority[i]` and the paged LDT entries, and its `pageDirBase` is the
      directory `SetProcessPageTable(i)` builds; the other entries are left
      as they were. */
  method StartPagedEntries(L: ProcessLayout, ram: nat, priority: seq<nat>, table: seq<Pcb>, n: nat)
    returns (t: seq<Pcb>)
    requires ram < U32_MOD && |priority| == MAX_TASKS && |table| == MAX_TASKS && n <= MAX_TASKS
    ensures |t| == MAX_TASKS
    ensures forall i :: 0 <= i < n ==>
      && Started(t[i], table[i], i, priority[i], PAGED_LDT, USER_ENTRY, USER_STACK_TOP)
      && t[i].pageDirBase == SetProcessPageTable(L, ram, i).dirBase
    ensures forall i :: n <= i < MAX_TASKS ==> t[i] == table[i]
  {
    t := table;
    var i := 0;
    while i < n
      invariant 0 <= i <= n && |t| == MAX_TASKS
      invariant forall j :: 0 <= j < i ==>
        && Started(t[j], table[j], j, priority[j], PAGED_LDT, USER_ENTRY, USER_STACK_TOP)
        && t[j].pageDirBase == SetProcessPageTable(L, ram, j).dirBase
      invariant forall j :: i <= j < MAX_TASKS ==> t[j] == table[j]
    {
      var dirBase := SetProcessPageTable(L, ram, i).dirBase;
      var q := StartPcb(t[i].(pageDirBase := dirBase), i, priority[i], PAGED_LDT, USER_ENTRY, USER_STACK_TOP);
      t := t[i := q];
      i := i + 1;
    }
  }

  /** Loading image `i` keeps the images before it and adds its own, when
      all of them are placed and apart. */
  lemma LoadKeepsEarlierImages(L: ProcessLayout, headers: seq<ImageHeader>, disk: seq<bv8>,
                               before: seq<bv8>, after: seq<bv8>, i: nat)
    requires i < |headers| && |after| == |before|
    requires Placed(L, i, headers[i]) ==> ImageAt(L, i, headers[i], disk, after)
    requires forall k :: (0 <= k < |before| && Outside(k, L.loadBuffer, BufferBytes(L)) &&
      Outside(k, LoadAddress(L, i), headers[i].memSize)) ==> after[k] == before[k]
    requires WellPlaced(L, headers, i) ==> ImagesLoaded(L, headers, disk, before, i)
    ensures WellPlaced(L, headers, i + 1) ==> ImagesLoaded(L, headers, disk, after, i + 1)
  {
    if WellPlaced(L, headers, i + 1) {
      assert WellPlaced(L, headers, i);
      forall p | 0 <= p < i + 1
        ensures ImageAt(L, p, headers[p], disk, after)
      {
        if p < i {
          assert Placed(L, p, headers[p]);
          assert ImageAt(L, p, headers[p], disk, before);
          ImageSurvives(L, p, headers[p], disk, before, after, LoadAddress(L, i), headers[i].memSize);
        }
      }
    }
  }

  /** A placed image outside another destination survives writes confined
      to the buffer and that destination. */
  lemma ImageSurvives(L: ProcessLayout, p: nat, h: ImageHeader, disk: seq<bv8>, before: seq<bv8>, after: seq<bv8>, lo: nat, n: nat)
    requires |after| == |before| && Placed(L, p, h) && ImageAt(L, p, h, disk, before)
    requires LoadAddress(L, p) + h.memSize <= lo || lo + n <= LoadAddress(L, p)
    requires forall k :: (0 <= k < |before| && Outside(k, L.loadBuffer, BufferBytes(L)) &&
      Outside(k, lo, n)) ==> after[k] == before[k]
    ensures ImageAt(L, p, h, disk, after)
  {
    var at := LoadAddress(L, p);
    forall k | at <= k < at + h.memSize
      ensures after[k] == disk[FirstSector(L, p) * SECTOR_BYTES + h.offset + (k - at)]
    {
      assert Outside(k, L.loadBuffer, BufferBytes(L)) && Outside(k, lo, n);
    }
  }

  /** When each image is no larger than the spacing `PROCESS_PSIZE` and the
      load addresses stay below 4 GiB, the destinations of all processes
      are apart. */
  lemma SpacedImagesApart(L: ProcessLayout, headers: seq<ImageHeader>, n: nat)
    requires n <= |headers|
    requires forall p :: 0 <= p < n ==> headers[p].memSize <= L.psize
    requires n * L.psize + L.pstart < U32_MOD
    ensures ImagesApart(L, headers, n)
  {
    forall p, q | 0 <= p < q < n
      ensures LoadAddress(L, p) + headers[p].memSize <= LoadAddress(L, q)
    {
      LoadAddressesApart(L, p, q, n, headers[p].memSize);
    }
  }

  /** The load area of process `p` ends before that of a later `q`. */
  lemma LoadAddressesApart(L: ProcessLayout, p: nat, q: nat, n: nat, size: nat)
    requires p < q < n && size <= L.psize && n * L.psize + L.pstart < U32_MOD
    ensures LoadAddress(L, p) + size <= LoadAddress(L, q)
  {
    MulMonotone(q, n, L.psize);
    MulMonotone(p, q, L.psize);
    MulMonotone(p + 1, q, L.psize);
    var a := p * L.psize + L.pstart;
    var b := q * L.psize + L.pstart;
    assert a < U32_MOD && b < U32_MOD;
    assert LoadAddress(L, p) == a && LoadAddress(L, q) == b;
    assert (p + 1) * L.psize == p * L.psize + L.psize;
  }

  /* ---------------------------------------------------------------------
   * restart
   * ------------------------------------------------------------------- */

  /** What `restart` hands the processor for the process table entry `p` at
      `pcbAddr`: the TSS with the ring-0 stack just past `p`'s frame, the
      page directory (paged kernel; the flat kernel keeps its own), the LDT
      selector for `lldt`, and the registers popped from the frame. */
  datatype Resume = Resume(tss: Tss, pageDir: nat, ldtr: bv16, context: UserContext)

  /** `restart()`: the ring-0 stack for the next interrupt ends at the
      entry's frame, `cr3` gets the entry's page directory and `lldt` its
      LDT selector, and the registers the task resumes with are exactly
      those the frame holds: the next interrupt saves every one of them
      back into the same frame, above whatever lay below it on the stack. */
  function Restart(t: Tss, p: Pcb, pcbAddr: bv32): (r: Resume)
    ensures r.tss.esp0 - FRAME_BYTES == pcbAddr && r.tss.(esp0 := t.esp0) == t
    ensures r.pageDir == p.pageDirBase && r.ldtr == p.ldtSelector
    ensures SavesBack(r, p.regs)
  {
    var r := Resume(SetRingZeroStack(t, pcbAddr), p.pageDirBase, p.ldtSelector, Restore(p.regs));
    ResumeSavesBack(r, p.regs);
    r
  }

  /** Whether the next interrupt after resuming `r` saves the frame `f`
      back: whatever stack lies below `r`'s ring-0 stack top, the entry
      code's seventeen pushes lay out `f` (with `espKernel` the stack
      pointer `pushal` saw) and leave that stack untouched. */
  ghost predicate SavesBack(r: Resume, f: StackFrame)
  {
    forall below: seq<bv32> {:trigger PushAll(below, EntryPushes(r.context, r.tss.esp0))} ::
      && FrameAt(PushAll(below, EntryPushes(r.context, r.tss.esp0))) == f.(espKernel := r.tss.esp0 - 20)
      && PushAll(below, EntryPushes(r.context, r.tss.esp0))[17..] == below
  }

  /** A context popped from frame `f` is saved back into `f`. */
  lemma ResumeSavesBack(r: Resume, f: StackFrame)
    requires r.context == Restore(f)
    ensures SavesBack(r, f)
  {
    SaveAfterRestore(f, r.tss.esp0);
  }

  /** `restart` and the timer entry are inverse: if the task runs until the
      next timer interrupt without changing a register, the entry code saves
      the very frame `restart` popped (with `espKernel` the stack pointer
      `pushal` saw), onto the stack that ends at the process table entry. */
  lemma RestartThenInterrupt(t: Tss, p: Pcb, pcbAddr: bv32, below: seq<bv32>)
    ensures var r := Restart(t, p, pcbAddr);
      var saved := PushAll(below, EntryPushes(r.context, r.tss.esp0));
      && FrameAt(saved) == p.regs.(espKernel := r.tss.esp0 - 20)
      && saved[17..] == below
  {
    var r := Restart(t, p, pcbAddr);
    EntrySavesFrame(r.context, r.tss.esp0, below);
  }

  /** The first `restart` of process `i` set up by the paged kernel enters
      ring 3 through its LDT code segment at virtual 0x100000, and its page
      directory maps that address to the first byte its image was copied
      to: the process starts at the start of its own image. */
  lemma FirstInstructionIsImageStart(L: ProcessLayout, ram: nat, i: nat, q: Pcb, p: Pcb, t: Tss, pcbAddr: bv32)
    requires ram < U32_MOD && TablesFit(L, ram, i) && L.pstart == USER_START
    requires USER_START < PdeCount(ram) * PDE_SPAN
    requires Started(q, p, i, q.priority, PAGED_LDT, USER_ENTRY, USER_STACK_TOP)
    requires q.pageDirBase == SetProcessPageTable(L, ram, i).dirBase
    ensures var r := Restart(t, q, pcbAddr);
      && r.context.cs == USER_CODE as bv32 && r.context.eip == USER_ENTRY
      && q.ldts[SelectorIndex(USER_CODE)] == PAGED_USER_CODE
      && DescriptorBase(PAGED_USER_CODE) as nat + USER_ENTRY as nat == USER_START
      && r.pageDir == SetProcessPageTable(L, ram, i).dirBase
      && Walk(SetProcessPageTable(L, ram, i), USER_START, true, true) == Some(LoadAddress(L, i))
  {
    UserSelectors();
    PagedUserSegments();
    EntryMapsToImage(L, ram, i);
  }

  /** Virtual 0x100000 of process `i` is the first byte of its image. */
  lemma EntryMapsToImage(L: ProcessLayout, ram: nat, i: nat)
    requires ram < U32_MOD && TablesFit(L, ram, i) && L.pstart == USER_START
    requires USER_START < PdeCount(ram) * PDE_SPAN
    ensures Walk(SetProcessPageTable(L, ram, i), USER_START, true, true) == Some(LoadAddress(L, i))
  {
    ImageVisibleAtUserStart(L, ram, i, 0);
    assert USER_START + 0 == USER_START;
  }
}

=== FILE: scheduler.dfy ===
/**
 * The tick-based priority scheduler: `choose` of the paged build
 * (code/kernel/process.c), the older `choose` of the flat build together with
 * the tick step of its timer handler (code/kernel/kernel32.c), and what a
 * sequence of scheduling decisions looks like.
 *
 * The process table is reduced to what scheduling reads and writes: the
 * `tick` of every process, the priority array a reset reloads the ticks from,
 * and `readyPid`, where -1 means that no process is selected.
 */
module Scheduler {

  /** `readyPid` when no process is selected. */
  const NONE: int := -1

  /** `ticks[i]` is `process[i].tick`, `prios[i]` the priority a reset
      reloads it from, `ready` is `readyPid`. Both sequences have `taskCount`
      entries. */
  datatype Sched = Sched(ticks: seq<nat>, prios: seq<nat>, ready: int)

  /** The shape every scheduling decision keeps: one priority per process and
      `readyPid` either -1 or the index of a process. */
  predicate Valid(s: Sched)
  {
    |s.ticks| == |s.prios| && (s.ready == NONE || 0 <= s.ready < |s.ticks|)
  }

  predicate HasPositive(xs: seq<nat>)
  {
    exists i :: 0 <= i < |xs| && xs[i] > 0
  }

  /** `m` holds the largest value of `xs`, and every earlier index holds a
      strictly smaller one: the choice a strict `>` scan from index 0 makes. */
  predicate IsLowestMax(xs: seq<nat>, m: int)
  {
    0 <= m < |xs|
    && (forall j :: 0 <= j < |xs| ==> xs[j] <= xs[m])
    && (forall j :: 0 <= j < m ==> xs[j] < xs[m])
  }

  /** At most one index is the lowest maximum. */
  lemma LowestMaxUnique(xs: seq<nat>, a: int, b: int)
    requires IsLowestMax(xs, a) && IsLowestMax(xs, b)
    ensures a == b
  {
    assert xs[a] <= xs[b] && xs[b] <= xs[a];
  }

  /* ---------------------------------------------------------------------
   * The selection scan
   * ------------------------------------------------------------------- */

  /** The loop `for (i = k; i < taskCount; i++) if (tick > maxTick) {...}`
      continued from index `k` with the running `maxTick` and `maxId`. */
  function ScanMax(xs: seq<nat>, k: nat, maxTick: nat, maxId: int): (r: int)
    requires k <= |xs|
    requires maxId == NONE ==> maxTick == 0
    requires maxId != NONE ==> 0 <= maxId < k && xs[maxId] == maxTick > 0
    requires forall j :: 0 <= j < maxId ==> xs[j] < maxTick
    requires forall j :: 0 <= j < k ==> xs[j] <= maxTick
    ensures r == NONE ==> forall j :: 0 <= j < |xs| ==> xs[j] == 0
    ensures r != NONE ==> IsLowestMax(xs, r) && xs[r] > 0
    decreases |xs| - k
  {
    if k == |xs| then maxId
    else if xs[k] > maxTick then ScanMax(xs, k + 1, xs[k], k)
    else ScanMax(xs, k + 1, maxTick, maxId)
  }

  /** The scan from index 0 with `maxTick = 0, maxId = -1`: -1 when every
      tick is zero, otherwise the lowest index holding the largest tick. */
  function LowestMaxTick(xs: seq<nat>): (r: int)
    ensures r == NONE <==> !HasPositive(xs)
    ensures r != NONE ==> IsLowestMax(xs, r) && xs[r] > 0
  {
    ScanMax(xs, 0, 0, NONE)
  }

  /* ---------------------------------------------------------------------
   * choose (paged build)
   * ------------------------------------------------------------------- */

  /** The selected process still has ticks left, so it keeps the CPU. */
  predicate Continues(s: Sched)
  {
    s.ready != NONE && 0 <= s.ready < |s.ticks| && s.ticks[s.ready] > 0
  }

  /** The decision resets every tick: no process continues and every tick is
      zero. */
  predicate IsReset(s: Sched)
  {
    !Continues(s) && !HasPositive(s.ticks)
  }

  /** `choose()` of the paged build. The reset reruns the selection and only
      terminates when some priority is positive, which is therefore demanded
      whenever every tick is zero. */
  function Choose(s: Sched): (r: Sched)
    requires Valid(s)
    requires HasPositive(s.ticks) || HasPositive(s.prios)
    ensures Valid(r) && r.prios == s.prios && r.ready != NONE
    decreases if HasPositive(s.ticks) then 0 else 1
  {
    if Continues(s) then
      s.(ticks := s.ticks[s.ready := s.ticks[s.ready] - 1])
    else
      var maxId := LowestMaxTick(s.ticks);
      if maxId == NONE then Choose(Sched(s.prios, s.prios, NONE))
      else s.(ready := maxId)
  }

  /** What `choose` decides: a process with ticks left keeps the CPU and
      loses one tick, nothing else changing; otherwise the lowest-numbered
      process with the most ticks is selected, after reloading every tick
      from the priorities when all were zero; the selected process always
      has a tick to run. */
  lemma ChooseSpec(s: Sched)
    requires Valid(s)
    requires HasPositive(s.ticks) || HasPositive(s.prios)
    ensures var r := Choose(s);
      && (Continues(s) ==>
        && r.ready == s.ready && |r.ticks| == |s.ticks|
        && r.ticks[s.ready] == s.ticks[s.ready] - 1
        && (forall j :: 0 <= j < |s.ticks| && j != s.ready ==> r.ticks[j] == s.ticks[j]))
      && (!Continues(s) && HasPositive(s.ticks) ==>
        r.ticks == s.ticks && IsLowestMax(s.ticks, r.ready))
      && (IsReset(s) ==> r.ticks == s.prios && IsLowestMax(s.prios, r.ready))
      && (!Continues(s) ==> r.ticks[r.ready] > 0)
    decreases if HasPositive(s.ticks) then 0 else 1
  {
    if !Continues(s) && LowestMaxTick(s.ticks) == NONE {
      ChooseSpec(Sched(s.prios, s.prios, NONE));
    }
  }

  /* ---------------------------------------------------------------------
   * choose and the timer's tick step (flat build)
   * ------------------------------------------------------------------- */

  /** `choose()` of the flat build: no continuation branch, and the reset
      reloads the ticks without clearing `readyPid`. */
  function OldChoose(s: Sched): (r: Sched)
    requires Valid(s)
    requires HasPositive(s.ticks) || HasPositive(s.prios)
    ensures Valid(r) && r.prios == s.prios
    ensures r.ticks == (if HasPositive(s.ticks) then s.ticks else s.prios)
    ensures IsLowestMax(r.ticks, r.ready) && r.ticks[r.ready] > 0
    decreases if HasPositive(s.ticks) then 0 else 1
  {
    var maxId := LowestMaxTick(s.ticks);
    if maxId == NONE then OldChoose(s.(ticks := s.prios))
    else s.(ready := maxId)
  }

  /** The scheduling step of the flat build's `ClockIntHandler`: decrement the
      running process's tick while it is positive, otherwise `choose()`. The
      handler indexes `process[readyPid]` unguarded, so `readyPid` must name a
      process. */
  function ClockTick(s: Sched): (r: Sched)
    requires Valid(s) && s.ready != NONE
    requires HasPositive(s.ticks) || HasPositive(s.prios)
    ensures Valid(r) && r.prios == s.prios && r.ready != NONE
    ensures s.ticks[s.ready] > 0 ==> r.ready == s.ready && r.ticks[s.ready] == s.ticks[s.ready] - 1
  {
    if s.ticks[s.ready] > 0 then s.(ticks := s.ticks[s.ready := s.ticks[s.ready] - 1])
    else OldChoose(s)
  }

  /** With a process selected, the flat build's decrement-else-choose pair
      takes exactly the decision the paged build's `choose` takes. */
  lemma ClockTickIsChoose(s: Sched)
    requires Valid(s) && s.ready != NONE
    requires HasPositive(s.ticks) || HasPositive(s.prios)
    ensures ClockTick(s) == Choose(s)
  {
    if !Continues(s) {
      OldChooseIsChoose(s);
    }
  }

  /** Whenever the running process has no ticks left, both `choose`
      variants select the same process and leave the same ticks. */
  lemma OldChooseIsChoose(s: Sched)
    requires Valid(s) && !Continues(s)
    requires HasPositive(s.ticks) || HasPositive(s.prios)
    ensures OldChoose(s) == Choose(s)
  {
    var a, b := OldChoose(s), Choose(s);
    ChooseSpec(s);
    assert a.ticks == b.ticks;
    LowestMaxUnique(a.ticks, a.ready, b.ready);
  }

  /* ---------------------------------------------------------------------
   * Runs of decisions
   * ------------------------------------------------------------------- */

  /** The state after `n` calls of `choose` (one per timer interrupt). With
      a positive priority every call is defined. */
  function Run(s: Sched, n: nat): (r: Sched)
    requires Valid(s) && HasPositive(s.prios)
    ensures Valid(r) && r.prios == s.prios
    decreases n
  {
    if n == 0 then s else Run(Choose(s), n - 1)
  }

  /** The first of `n > 0` decisions is one `choose`. */
  lemma RunFirst(s: Sched, n: nat)
    requires Valid(s) && HasPositive(s.prios) && n > 0
    ensures Run(s, n) == Run(Choose(s), n - 1)
  {
  }

  lemma {:induction false} RunAdd(s: Sched, a: nat, b: nat)
    requires Valid(s) && HasPositive(s.prios)
    ensures Run(s, a + b) == Run(Run(s, a), b)
    decreases a
  {
    if a > 0 {
      var t, n := Choose(s), a - 1;
      RunFirst(s, a + b);
      RunFirst(s, a);
      assert a + b - 1 == n + b;
      RunAdd(t, n, b);
    }
  }

  /** A selected process with `m` ticks keeps the CPU for the next `m`
      decisions, losing one tick per decision, and nothing else changes. */
  lemma {:induction false} RunDown(s: Sched, k: nat)
    requires Valid(s) && HasPositive(s.prios) && s.ready != NONE
    requires k <= s.ticks[s.ready]
    ensures Run(s, k) == s.(ticks := s.ticks[s.ready := s.ticks[s.ready] - k])
    decreases k
  {
    if k == 0 {
      assert s.ticks[s.ready := s.ticks[s.ready]] == s.ticks;
    } else {
      var t := Choose(s);
      assert t == s.(ticks := s.ticks[s.ready := s.ticks[s.ready] - 1]);
      RunDown(t, k - 1);
      assert t.ticks[s.ready := t.ticks[s.ready] - (k - 1)] == s.ticks[s.ready := s.ticks[s.ready] - k];
    }
  }

  /** Sum of the ticks. */
  function Sum(xs: seq<nat>): nat
  {
    if xs == [] then 0 else xs[0] + Sum(xs[1..])
  }

  lemma {:induction false} SumDecrement(xs: seq<nat>, i: nat)
    requires i < |xs| && xs[i] > 0
    ensures Sum(xs[i := xs[i] - 1]) == Sum(xs) - 1
  {
    if i == 0 {
      assert xs[i := xs[i] - 1][1..] == xs[1..];
    } else {
      assert xs[i := xs[i] - 1][1..] == xs[1..][i - 1 := xs[i] - 1];
      SumDecrement(xs[1..], i - 1);
    }
  }

  /** Every decision that is not a reset either removes one tick or selects a
      process that continues at the next decision. */
  function Measure(s: Sched): nat
  {
    2 * Sum(s.ticks) + (if Continues(s) then 0 else 1)
  }

  /** After `k` decisions process `i` is selected, and none of the first `k`
      decisions was a reset. */
  predicate SelectedWithoutReset(s: Sched, i: nat, k: nat)
    requires Valid(s) && HasPositive(s.prios)
  {
    Run(s, k).ready == i && forall j :: 0 <= j < k ==> !IsReset(Run(s, j))
  }

  /** Ticks only fall for the running process and are only reloaded when all
      are zero, so a process that has ticks left is selected before the next
      reset, within `Measure(s)` decisions. */
  lemma {:induction false} SelectedBeforeReset(s: Sched, i: nat)
    requires Valid(s) && HasPositive(s.prios)
    requires i < |s.ticks| && s.ticks[i] > 0
    ensures exists k: nat :: SelectedWithoutReset(s, i, k) && k <= Measure(s)
    decreases Measure(s)
  {
    if s.ready == i {
      assert SelectedWithoutReset(s, i, 0);
    } else {
      assert !IsReset(s);
      var t := Choose(s);
      assert t.ticks[i] == s.ticks[i];
      if Continues(s) {
        SumDecrement(s.ticks, s.ready);
      } else {
        assert Continues(t);
      }
      assert Measure(t) < Measure(s);
      SelectedBeforeReset(t, i);
      var k': nat :| SelectedWithoutReset(t, i, k') && k' <= Measure(t);
      assert Run(s, k' + 1) == Run(t, k');
      forall j | 0 <= j < k' + 1
        ensures !IsReset(Run(s, j))
      {
        if j > 0 {
          assert Run(s, j) == Run(t, j - 1);
        }
      }
      assert SelectedWithoutReset(s, i, k' + 1);
    }
  }

  /* ---------------------------------------------------------------------
   * The configured task set
   * ------------------------------------------------------------------- */

  /** `priority[] = { 800, 500, 250, 100 }` with `taskCount = 4`. */
  const TaskPriorities: seq<nat> := [800, 500, 250, 100]

  /** The state `SetupProcess` leaves: every tick equal to its priority and
      nothing selected. */
  const BootSched: Sched := Sched(TaskPriorities, TaskPriorities, NONE)

  lemma TaskPrioritiesPositive()
    ensures HasPositive(TaskPriorities)
  {
    assert TaskPriorities[0] > 0;
  }

  /** The first decision selects process 0 and changes no tick. */
  lemma FirstDecision()
    ensures HasPositive(TaskPriorities)
    ensures Choose(BootSched) == Sched(TaskPriorities, TaskPriorities, 0)
  {
    TaskPrioritiesPositive();
    var r := Choose(BootSched);
    assert IsLowestMax(TaskPriorities, 0);
    LowestMaxUnique(TaskPriorities, 0, r.ready);
  }

  /** Selection of process `m` from a state whose ticks are `xs`. */
  lemma SelectsFrom(s: Sched, m: nat)
    requires Valid(s) && !Continues(s) && IsLowestMax(s.ticks, m) && s.ticks[m] > 0
    ensures Choose(s) == s.(ready := m)
  {
    var r := Choose(s);
    LowestMaxUnique(s.ticks, m, r.ready);
  }

  /** One more decision after `n`. */
  lemma RunStep(a: Sched, n: nat)
    requires Valid(a) && HasPositive(a.prios)
    ensures Run(a, n + 1) == Choose(Run(a, n))
  {
    RunAdd(a, n, 1);
  }

  /** The phase in which the process selected after `start` decisions uses
      up its `m` ticks. */
  lemma RunPhase(a: Sched, start: nat, m: nat)
    requires Valid(a) && HasPositive(a.prios)
    requires Run(a, start).ready != NONE && Run(a, start).ticks[Run(a, start).ready] == m
    ensures forall k :: start <= k <= start + m ==> Run(a, k).ready == Run(a, start).ready
    ensures Run(a, start + m) == Run(a, start).(ticks := Run(a, start).ticks[Run(a, start).ready := 0])
  {
    var s := Run(a, start);
    forall k | start <= k <= start + m
      ensures Run(a, k).ready == s.ready
    {
      RunAdd(a, start, k - start);
      RunDown(s, k - start);
    }
    RunAdd(a, start, m);
    RunDown(s, m);
  }

  /** Decision `start` selects process `next`, which then holds the CPU
      for its `m` ticks; afterwards the state is `after`. */
  lemma SelectAndRun(a: Sched, start: nat, next: nat, m: nat, after: Sched)
    requires Valid(a) && HasPositive(a.prios)
    requires !Continues(Run(a, start)) && IsLowestMax(Run(a, start).ticks, next)
    requires Run(a, start).ticks[next] == m > 0
    requires after == Run(a, start).(ready := next, ticks := Run(a, start).ticks[next := 0])
    ensures forall k :: start + 1 <= k <= start + 1 + m ==> Run(a, k).ready == next
    ensures Run(a, start + 1 + m) == after
  {
    RunStep(a, start);
    SelectsFrom(Run(a, start), next);
    RunPhase(a, start + 1, m);
  }

  lemma {:induction false} SumSnoc(xs: seq<nat>, x: nat)
    ensures Sum(xs + [x]) == Sum(xs) + x
  {
    if xs != [] {
      assert (xs + [x])[1..] == xs[1..] + [x];
      SumSnoc(xs[1..], x);
    }
  }

  /** Priorities strictly decreasing with the index, the last one positive. */
  predicate StrictlyDecreasing(P: seq<nat>)
  {
    |P| > 0 && P[|P| - 1] > 0 && forall i, j :: 0 <= i < j < |P| ==> P[i] > P[j]
  }

  /** The decision at which process `i` is selected in the first epoch: the
      earlier processes' ticks plus one selecting decision each. */
  function PhaseStart(P: seq<nat>, i: nat): nat
    requires i <= |P|
  {
    Sum(P[..i]) + i
  }

  /** The ticks once processes 0..i have used theirs up. */
  function ZeroUpTo(P: seq<nat>, i: nat): (t: seq<nat>)
    ensures |t| == |P|
  {
    seq(|P|, j requires 0 <= j < |P| => if j <= i then 0 else P[j])
  }

  /** The state when process `i` has used up its ticks. */
  function PhaseEnd(P: seq<nat>, i: nat): Sched
  {
    Sched(ZeroUpTo(P, i), P, i)
  }

  /** With strictly decreasing priorities, process `i` is selected at
      decision `PhaseStart(P, i)`, holds the CPU for `P[i]` decisions, and
      leaves processes 0..i with no ticks. */
  lemma {:induction false} EpochPhase(P: seq<nat>, i: nat)
    requires StrictlyDecreasing(P) && i < |P|
    ensures HasPositive(P)
    ensures forall k :: PhaseStart(P, i) <= k <= PhaseStart(P, i) + P[i] ==> Run(Sched(P, P, 0), k).ready == i
    ensures Run(Sched(P, P, 0), PhaseStart(P, i) + P[i]) == PhaseEnd(P, i)
  {
    assert P[0] > 0 by {
      if |P| > 1 {
        assert P[0] > P[|P| - 1];
      }
    }
    if i == 0 {
      FirstPhase(P);
    } else {
      EpochPhase(P, i - 1);
      NextPhase(P, i);
    }
  }

  /** Process 0 holds the CPU from the start for `P[0]` decisions. */
  lemma FirstPhase(P: seq<nat>)
    requires StrictlyDecreasing(P) && P[0] > 0
    ensures forall k :: PhaseStart(P, 0) <= k <= PhaseStart(P, 0) + P[0] ==> Run(Sched(P, P, 0), k).ready == 0
    ensures Run(Sched(P, P, 0), PhaseStart(P, 0) + P[0]) == PhaseEnd(P, 0)
  {
    var a := Sched(P, P, 0);
    assert P[..0] == [];
    assert Run(a, 0) == a;
    RunPhase(a, 0, P[0]);
    assert P[0 := 0] == ZeroUpTo(P, 0);
  }

  /** Once processes 0..i-1 have used up their ticks, process `i` is
      selected at the next decision and holds the CPU for `P[i]` more. */
  lemma NextPhase(P: seq<nat>, i: nat)
    requires StrictlyDecreasing(P) && P[0] > 0 && 0 < i < |P|
    requires Run(Sched(P, P, 0), PhaseStart(P, i - 1) + P[i - 1]) == PhaseEnd(P, i - 1)
    ensures forall k :: PhaseStart(P, i) <= k <= PhaseStart(P, i) + P[i] ==> Run(Sched(P, P, 0), k).ready == i
    ensures Run(Sched(P, P, 0), PhaseStart(P, i) + P[i]) == PhaseEnd(P, i)
  {
    var a := Sched(P, P, 0);
    var prev := PhaseStart(P, i - 1) + P[i - 1];
    assert P[..i] == P[..i - 1] + [P[i - 1]];
    SumSnoc(P[..i - 1], P[i - 1]);
    assert PhaseStart(P, i) == prev + 1;
    var t := ZeroUpTo(P, i - 1);
    assert IsLowestMax(t, i) by {
      assert forall j :: 0 <= j < |t| ==> t[j] <= t[i];
    }
    assert t[i := 0] == ZeroUpTo(P, i);
    SelectAndRun(a, prev, i, P[i], PhaseEnd(P, i));
  }

  /** Once the last process has used up its ticks, the next decision is a
      reset. */
  lemma LastPhaseEndsInReset(P: seq<nat>)
    requires |P| > 0
    ensures IsReset(PhaseEnd(P, |P| - 1))
  {
    var t := ZeroUpTo(P, |P| - 1);
    assert forall j :: 0 <= j < |t| ==> t[j] == 0;
  }

  /** The reset after the last phase selects process 0 with every tick
      reloaded: the state after the first decision. */
  lemma ResetRestarts(P: seq<nat>)
    requires StrictlyDecreasing(P)
    ensures HasPositive(P)
    ensures Choose(PhaseEnd(P, |P| - 1)) == Sched(P, P, 0)
  {
    assert P[|P| - 1] > 0;
    var s := PhaseEnd(P, |P| - 1);
    LastPhaseEndsInReset(P);
    ChooseSpec(s);
    assert IsLowestMax(P, 0);
    LowestMaxUnique(P, 0, Choose(s).ready);
  }

  /** With strictly decreasing priorities the processes are selected in index
      order, each holding the CPU for its priority's worth of decisions, and
      the reset after the last one returns to the state after the first
      decision: the schedule repeats with period `e = Sum(P) + |P|`. */
  lemma EpochRepeats(P: seq<nat>, e: nat)
    requires StrictlyDecreasing(P) && e == Sum(P) + |P|
    ensures HasPositive(P)
    ensures Run(Sched(P, P, 0), e) == Sched(P, P, 0)
  {
    var a, n := Sched(P, P, 0), |P|;
    assert P[n - 1] > 0;
    var last := PhaseStart(P, n - 1) + P[n - 1];
    assert Run(a, last) == PhaseEnd(P, n - 1) by {
      EpochPhase(P, n - 1);
    }
    RunStep(a, last);
    ResetRestarts(P);
    EpochLength(P);
  }

  /** The first epoch takes every tick plus one selecting decision per
      process. */
  lemma EpochLength(P: seq<nat>)
    requires |P| > 0
    ensures PhaseStart(P, |P| - 1) + P[|P| - 1] + 1 == Sum(P) + |P|
  {
    var n := |P|;
    assert P[..n] == P[..n - 1] + [P[n - 1]];
    SumSnoc(P[..n - 1], P[n - 1]);
    assert P[..n] == P;
  }

  /** The configured priorities are strictly decreasing, their phases start
      at decisions 0, 801, 1302 and 1553, and the epoch is 1654 decisions
      long, so by `EpochRepeats` the schedule repeats every 1654 timer
      interrupts. */
  lemma TaskSetPhases()
    ensures StrictlyDecreasing(TaskPriorities) && HasPositive(TaskPriorities)
    ensures PhaseStart(TaskPriorities, 0) == 0 && PhaseStart(TaskPriorities, 1) == 801
    ensures PhaseStart(TaskPriorities, 2) == 1302 && PhaseStart(TaskPriorities, 3) == 1553
    ensures Sum(TaskPriorities) + |TaskPriorities| == 1654
  {
    var P := TaskPriorities;
    assert P[0] > 0;
    assert P[..0] == [] && P[..1] == [800] && P[..2] == [800, 500] && P[..3] == [800, 500, 250];
  }
}

=== FILE: taskstate.dfy ===
/**
 * The task-state segment of the flat kernel (`SetupTSS` in
 * code/kernel/kernel32.c) and the one field `restart` updates in it before
 * every return to ring 3: the ring-0 stack top `esp0`.
 */
module TaskState {
  import opened Defs
  import opened Descriptors

  /** The descriptor `SetupTSS` writes into GDT slot `INDEX_TSS` for a TSS
      at offset `tssOffset` of the kernel segment: based at the TSS's linear
      address, byte-granular, one byte per TSS byte, an available 32-bit TSS
      of DPL 0. */
  function TssDescriptor(tssOffset: bv32): (d: Descriptor)
    ensures DescriptorBase(d) == tssOffset + KERNEL_BASE
    ensures ByteLimit(d) + 1 == TSS_SIZE
    ensures DescriptorAttr(d) == DA_386TSS && Dpl(d) == 0
  {
    SetDesEntry(tssOffset + 0x90000, (TSS_SIZE - 1) as bv32, DA_386TSS)
  }

  /** A TSS that is zero in every field but `ss0` and `iobase`. */
  predicate ZeroBesideStack(t: Tss)
  {
    t.(ss0 := 0, iobase := 0) == ZeroTss
  }

  /** `SetupTSS()`: zero the TSS byte by byte, set the ring-0 stack segment
      to the flat data selector and the I/O map base to `sizeof(TSS)`, and
      describe the TSS in GDT slot `INDEX_TSS`; no other slot changes. The
      ring-0 stack segment is the kernel's flat data segment (GDT slot 2)
      at privilege level 0; the TSS segment starts at the TSS and admits
      exactly its bytes as an available 32-bit TSS of DPL 0; and the I/O
      map base lies past that segment, so the TSS has no I/O bitmap. */
  function SetupTss(gdt: seq<Descriptor>, tssOffset: bv32): (r: (Tss, seq<Descriptor>))
    requires |gdt| == GDT_ENTRIES
    ensures ZeroBesideStack(r.0)
    ensures r.0.ss0 == SELECTOR_FLAT_RW as bv32 && r.0.iobase as nat == TSS_SIZE
    ensures SelectorIndex(r.0.ss0 as bv16) == INDEX_FLAT_RW
    ensures SelectorTi(r.0.ss0 as bv16) == 0 && SelectorRpl(r.0.ss0 as bv16) == 0
    ensures |r.1| == GDT_ENTRIES && r.1[INDEX_TSS] == TssDescriptor(tssOffset)
    ensures DescriptorBase(r.1[INDEX_TSS]) == tssOffset + KERNEL_BASE
    ensures ByteLimit(r.1[INDEX_TSS]) + 1 == TSS_SIZE
    ensures DescriptorAttr(r.1[INDEX_TSS]) == DA_386TSS && Dpl(r.1[INDEX_TSS]) == 0
    ensures r.0.iobase as nat > ByteLimit(r.1[INDEX_TSS])
    ensures forall s :: 0 <= s < GDT_ENTRIES && s != INDEX_TSS as int ==> r.1[s] == gdt[s]
  {
    (ZeroTss.(ss0 := SELECTOR_FLAT_RW as bv32, iobase := TSS_SIZE as bv16),
     gdt[INDEX_TSS := TssDescriptor(tssOffset)])
  }

  /** The segment the descriptor admits is exactly the TSS record: every
      field of the layout lies within the limit, `esp0` and `ss0` included,
      so the processor can fetch the ring-0 stack on every privilege
      change. */
  lemma TssSegmentCoversRecord(tssOffset: bv32)
    ensures ByteLimit(TssDescriptor(tssOffset)) + 1 == SizeOf(TssLayout)
    ensures forall k :: 0 <= k < |TssLayout| ==>
      OffsetOf(TssLayout, k) + TssLayout[k] <= ByteLimit(TssDescriptor(tssOffset)) + 1
    ensures OffsetOf(TssLayout, TSS_ESP0_FIELD) + 4 <= ByteLimit(TssDescriptor(tssOffset)) + 1
    ensures OffsetOf(TssLayout, TSS_SS0_FIELD) + 4 <= ByteLimit(TssDescriptor(tssOffset)) + 1
  {
    TssLayoutFacts();
    forall k | 0 <= k < |TssLayout|
      ensures OffsetOf(TssLayout, k) + TssLayout[k] <= TSS_SIZE
    {
      TssOffsets(k);
    }
  }

  /** The ring-0 stack the processor switches to is the kernel's flat data
      segment (GDT slot 2, RPL 0), and the I/O map base lies past the end of
      the segment, so the TSS carries no I/O permission bitmap (section
      20.5.2 of the Intel 64 and IA-32 Architectures Software Developer's
      Manual, Volume 1). */
  lemma TssStackAndIoMap(gdt: seq<Descriptor>, tssOffset: bv32)
    requires |gdt| == GDT_ENTRIES
    ensures var t := SetupTss(gdt, tssOffset).0;
      && SelectorIndex(t.ss0 as bv16) == INDEX_FLAT_RW
      && SelectorTi(t.ss0 as bv16) == 0 && SelectorRpl(t.ss0 as bv16) == 0
      && t.iobase as nat > ByteLimit(TssDescriptor(tssOffset))
  {
  }

  /* ---------------------------------------------------------------------
   * restart
   * ------------------------------------------------------------------- */

  /** `sizeof(StackFrame)` as a 32-bit word. */
  const FRAME_BYTES: bv32 := 68

  lemma FrameBytesIsFrameSize()
    ensures FRAME_BYTES as nat == SizeOf(StackFrameLayout)
  {
    StackFrameIsSeventeenWords();
  }

  /** `tss.esp0 = sizeof(StackFrame) + (u32)&process[readyPid]`, a 32-bit
      sum: the address just past the saved-register frame at the start of
      the process table entry at `pcbAddr`. Nothing else in the TSS
      changes; subtracting the frame size gives the entry back. The
      seventeen 4-byte pushes of the next interrupt from ring 3, starting
      at `esp0`, end at the entry itself, and the push that leaves `k` words
      below it lands on field `k` of the entry's `StackFrame` (addresses
      wrap at 4 GiB, as the processor's do). */
  function SetRingZeroStack(t: Tss, pcbAddr: bv32): (r: Tss)
    ensures r.esp0 - FRAME_BYTES == pcbAddr
    ensures r.(esp0 := t.esp0) == t
    ensures forall k :: 0 <= k < 17 ==>
      r.esp0 - (FRAME_BYTES - FrameOffsets()[k] as bv32) == pcbAddr + FrameOffsets()[k] as bv32
  {
    t.(esp0 := FRAME_BYTES + pcbAddr)
  }

  /** The byte offsets of the seventeen fields of a `StackFrame`: field
      `k` starts at byte `4 * k`, which is where the layout puts it. */
  function FrameOffsets(): (offsets: seq<bv8>)
    ensures |offsets| == |StackFrameLayout| == 17
    ensures forall k: bv8 :: k < 17 ==>
      offsets[k] == 4 * k && OffsetOf(StackFrameLayout, k as nat) == 4 * k as nat
  {
    FramePushOffsets();
    [0, 4, 8, 12, 16, 20, 24, 28, 32, 36, 40, 44, 48, 52, 56, 60, 64]
  }

  /** Field `k` of a `StackFrame` starts at byte `4 * k`. */
  lemma FramePushOffsets()
    ensures |StackFrameLayout| == 17
    ensures forall k :: 0 <= k <= 17 ==> OffsetOf(StackFrameLayout, k) == 4 * k
  {
    StackFrameIsSeventeenWords();
    UniformOffsets(17, 4);
  }

  /** Setting the stack keeps what `SetupTSS` established: the ring-0
      stack segment and the absent I/O bitmap survive every `restart`. */
  lemma RestartKeepsSetup(gdt: seq<Descriptor>, tssOffset: bv32, pcbAddr: bv32)
    requires |gdt| == GDT_ENTRIES
    ensures var t := SetRingZeroStack(SetupTss(gdt, tssOffset).0, pcbAddr);
      && t.ss0 == SELECTOR_FLAT_RW as bv32 && t.iobase as nat == TSS_SIZE
      && ZeroBesideStack(t.(esp0 := 0))
  {
  }
}

=== FILE: timerentry.dfy ===
/**
 * The timer interrupt path shared by both kernels (`ClockInt` in
 * code/kernel/exception.c, `ClockIntWarpper` in code/kernel/kernel32.c):
 * the entry code saves the interrupted task's registers into its process
 * table entry, uses the `reEnter` counter to tell a first arrival from a
 * nested one, and the handler toggles the `TIMER` marker before scheduling;
 * `restart` pops the saved registers back.
 */
module TimerEntry {
  import opened Defs
  import opened Console
  import opened Exceptions

  /* ---------------------------------------------------------------------
   * The reEnter counter
   * ------------------------------------------------------------------- */

  /** The value of `reEnter` while no timer interrupt is being handled. */
  const IDLE: int := -1

  /** What the entry code does after `incl reEnter; cmpl $0, reEnter; jne
      ReEnter`. */
  datatype Path = RunsHandler | ReturnsAtOnce

  /** The entry code's decision and the value of `reEnter` when it leaves:
      on the first arrival it switches to the kernel stack and calls the
      handler with the counter at 0; on a nested one it decrements the
      counter again, pops the registers and returns. */
  function EnterClockInt(reEnter: int): (r: (Path, int))
    ensures r.0 == RunsHandler <==> reEnter == IDLE
    ensures r.0 == RunsHandler ==> r.1 == 0
    ensures r.0 == ReturnsAtOnce ==> r.1 == reEnter
  {
    var counter := reEnter + 1;
    if counter == 0 then (RunsHandler, counter) else (ReturnsAtOnce, counter - 1)
  }

  /** The counter after `nested` arrivals, each completing before the
      next. */
  function NestedRun(reEnter: int, nested: nat): int
    decreases nested
  {
    if nested == 0 then reEnter else NestedRun(EnterClockInt(reEnter).1, nested - 1)
  }

  /** Arrivals while an interrupt is in progress, that is while the
      counter is anything but idle (from the entry code's increment until
      the handler resets it), each return at once: any number of them
      leave the counter as they found it. */
  lemma {:induction false} NestedArrivalsReturn(reEnter: int, nested: nat)
    requires reEnter != IDLE
    ensures NestedRun(reEnter, nested) == reEnter
  {
    if nested > 0 {
      assert EnterClockInt(reEnter).1 == reEnter;
      NestedArrivalsReturn(reEnter, nested - 1);
    }
  }

  /* ---------------------------------------------------------------------
   * The handler and the TIMER marker
   * ------------------------------------------------------------------- */

  /** `F_Cyan | B_Cyan | L_Light` and `F_Brown | B_Brown | L_Light`. */
  const MARKER_CYAN: bv32 := 0x300 | 0x3000 | 0x800
  const MARKER_BROWN: bv32 := 0x600 | 0x6000 | 0x800

  const MARKER: string := "TIMER"

  /** The two globals of the timer path. */
  datatype TimerState = TimerState(reEnter: int, flag: int)

  /** Their initial values. */
  const BOOT_STATE := TimerState(IDLE, 1)

  /** The colour the flag selects. */
  function MarkerColor(flag: int): bv32
  {
    if flag != 0 then MARKER_CYAN else MARKER_BROWN
  }

  /** The marker written for a flag value. */
  function Marker(flag: int): seq<CellWrite>
  {
    PrintAtPos(MARKER, MarkerColor(flag), 0, 75)
  }

  /** One timer interrupt: the entry code, and the handler when it runs:
      `reEnter = -1` and `flag = 1 - flag`. The result says whether the
      handler ran; when it did, it wrote `Marker` of the new flag, and
      scheduling follows (modelled in `Scheduler`). */
  function Tick(s: TimerState): (r: (TimerState, bool))
  {
    var (path, counter) := EnterClockInt(s.reEnter);
    if path == RunsHandler then (TimerState(IDLE, 1 - s.flag), true)
    else (TimerState(counter, s.flag), false)
  }

  /** The state after `n` ticks. */
  function TicksFrom(s: TimerState, n: nat): TimerState
  {
    if n == 0 then s else Tick(TicksFrom(s, n - 1)).0
  }

  /** 1 for even `n`, 0 for odd. */
  function Parity(n: nat): int
  {
    if n % 2 == 0 then 1 else 0
  }

  /** The state after `n` ticks from boot: the counter idle, the flag 1
      after an even number of ticks and 0 after an odd one. */
  lemma {:induction false} TicksAlternate(n: nat)
    ensures TicksFrom(BOOT_STATE, n) == TimerState(IDLE, Parity(n))
  {
    if n > 0 {
      TicksAlternate(n - 1);
      assert Parity(n) == 1 - Parity(n - 1);
    }
  }

  /** Every tick from boot runs the handler, and tick `n + 1` writes the
      marker in cyan exactly when `n + 1` is even: the colour alternates. */
  lemma TickMarkers(n: nat)
    ensures Tick(TicksFrom(BOOT_STATE, n)) == (TimerState(IDLE, Parity(n + 1)), true)
    ensures MarkerColor(Parity(n + 1)) == if (n + 1) % 2 == 0 then MARKER_CYAN else MARKER_BROWN
  {
    TicksAlternate(n);
  }

  /** The marker's five cells are row 0, columns 75 to 79: the top-right
      corner of the 80-column screen, character `k` of `TIMER` at byte
      offset `(75 + k) * 2`. */
  lemma MarkerCells(flag: int)
    ensures |Marker(flag)| == 5
    ensures forall k :: 0 <= k < 5 ==> Marker(flag)[k].pos == (75 + k) * 2 && 75 + k < COLUMNS
  {
    var color := if flag != 0 then MARKER_CYAN else MARKER_BROWN;
    PrintAtPosCells(MARKER, color, 0, 75);
  }

  /* ---------------------------------------------------------------------
   * Saving and restoring the interrupted task
   * ------------------------------------------------------------------- */

  /** The registers of an interrupted ring-3 task. */
  datatype UserContext = UserContext(
    gs: bv32, fs: bv32, es: bv32, ds: bv32,
    edi: bv32, esi: bv32, ebp: bv32, ebx: bv32, edx: bv32, ecx: bv32, eax: bv32,
    eip: bv32, cs: bv32, eflags: bv32, esp: bv32, ss: bv32)

  /** The words pushed on a timer interrupt from ring 3, in push order: the
      processor pushes SS, ESP, EFLAGS, CS and EIP onto the stack whose top
      is `tss.esp0`; `pushal` pushes EAX, ECX, EDX, EBX, the ESP it started
      from, EBP, ESI and EDI (section "PUSHA/PUSHAD" of the Intel 64 and
      IA-32 Architectures Software Developer's Manual, Volume 2B); then the
      entry code pushes DS, ES, FS and GS. */
  function EntryPushes(c: UserContext, esp0: bv32): seq<bv32>
  {
    [c.ss, c.esp, c.eflags, c.cs, c.eip,
     c.eax, c.ecx, c.edx, c.ebx, esp0 - 20, c.ebp, c.esi, c.edi,
     c.ds, c.es, c.fs, c.gs]
  }

  /** Seventeen words in memory, lowest address first, read as a
      `StackFrame`. */
  function FrameAt(words: seq<bv32>): StackFrame
    requires |words| >= 17
  {
    StackFrame(words[0], words[1], words[2], words[3], words[4], words[5], words[6], words[7],
               words[8], words[9], words[10], words[11], words[12], words[13], words[14], words[15], words[16])
  }

  /** What `restart` loads from a saved frame: `pop` GS, FS, ES and DS;
      `popal`, which skips the saved ESP; `iretl` back to ring 3. */
  function Restore(f: StackFrame): UserContext
  {
    UserContext(f.gs, f.fs, f.es, f.ds, f.edi, f.esi, f.ebp, f.ebx, f.edx, f.ecx, f.eax,
                f.eip, f.cs, f.eflags, f.esp, f.ss)
  }

  /** Pushing reverses: word `k` from the top is the `k`-th last pushed. */
  lemma {:induction false} PushAllReverses(stack: seq<bv32>, words: seq<bv32>)
    ensures forall k :: 0 <= k < |words| ==> PushAll(stack, words)[k] == words[|words| - 1 - k]
    ensures PushAll(stack, words)[|words|..] == stack
    decreases |words|
  {
    if words != [] {
      var next := [words[0]] + stack;
      PushAllReverses(next, words[1..]);
      assert PushAll(stack, words) == PushAll(next, words[1..]);
      assert PushAll(next, words[1..])[|words| - 1..] == next;
      forall k | 0 <= k < |words|
        ensures PushAll(stack, words)[k] == words[|words| - 1 - k]
      {
        if k == |words| - 1 {
          assert PushAll(next, words[1..])[k] == next[0];
        }
      }
      assert PushAll(next, words[1..])[|words|..] == next[1..];
    }
  }

  /** A timer interrupt from ring 3 lays the task's registers out exactly as
      the `StackFrame` fields, lowest address first, with `espKernel` the
      stack pointer `pushal` started from; and `restart` popping that frame
      gives back every register of the task. */
  lemma EntrySavesFrame(c: UserContext, esp0: bv32, below: seq<bv32>)
    ensures var saved := PushAll(below, EntryPushes(c, esp0));
      && FrameAt(saved) == StackFrame(c.gs, c.fs, c.es, c.ds, c.edi, c.esi, c.ebp, esp0 - 20,
                                      c.ebx, c.edx, c.ecx, c.eax, c.eip, c.cs, c.eflags, c.esp, c.ss)
      && Restore(FrameAt(saved)) == c
      && saved[17..] == below
  {
    PushAllReverses(below, EntryPushes(c, esp0));
  }

  /** Restoring a frame and taking the next interrupt saves the same frame
      back, with `espKernel` the stack pointer `pushal` saw, above the
      untouched stack. */
  lemma SaveAfterRestore(f: StackFrame, esp0: bv32)
    ensures forall below: seq<bv32> {:trigger PushAll(below, EntryPushes(Restore(f), esp0))} ::
      && FrameAt(PushAll(below, EntryPushes(Restore(f), esp0))) == f.(espKernel := esp0 - 20)
      && PushAll(below, EntryPushes(Restore(f), esp0))[17..] == below
  {
    forall below: seq<bv32>
      ensures FrameAt(PushAll(below, EntryPushes(Restore(f), esp0))) == f.(espKernel := esp0 - 20)
      ensures PushAll(below, EntryPushes(Restore(f), esp0))[17..] == below
    {
      EntrySavesFrame(Restore(f), esp0, below);
    }
  }

  /** With `tss.esp0` set by `restart` to `sizeof(StackFrame)` past the
      process table entry at `pcb`, the seventeen pushes end with the stack
      pointer at `pcb` itself, and the word that lands in field `k` of the
      entry's `regs` is the one saved at `pcb + 4 * k`, that field's offset
      in the `StackFrame` layout. */
  lemma FrameLandsOnPcb(c: UserContext, pcb: nat)
    requires pcb + STACK_FRAME_SIZE < U32_MOD
    ensures var esp0 := pcb + STACK_FRAME_SIZE;
      && esp0 - 4 * |EntryPushes(c, esp0 as bv32)| == pcb
      && forall k :: 0 <= k < 17 ==> esp0 - 4 * (17 - k) == pcb + OffsetOf(StackFrameLayout, k)
  {
    UniformOffsets(17, 4);
  }
}
